=== FILE: README.md ===
# Medical appointment booking — a Dafny model

The model covers the core of a single doctor's booking system. Patients choose
a weekday in the next two weeks and a half-hour slot from a fixed daily
template, then book it with their details and health-insurance provider
("obra social"). An administrator confirms or cancels bookings. Confirming a
pending booking cancels every other active booking of the same slot.

The model covers:

- the backend's appointment model and service: conflict check, free times,
  the 14-day horizon, create, status update with the cascade, delete,
  listing with filters and pages, and statistics;
- the request validators;
- the insurance-provider and user services;
- the security middleware: sanitising, origin check, error mapping;
- the frontend's offline mirror, `mockData.js`;
- the booking form's date picker, phone formatter and form check;
- the administrator page's filter, ordering, local update and offered actions.

Each store is a sequence of records with an `id` field, as a Mongo collection
or a JavaScript array is. Days are whole local days, counted from 1970-01-01.
"Today" is a parameter. Foreign pieces are parameters too:

- the e-mail validator (`isEmail`);
- password hashing (`matches`);
- the outcome of sending the confirmation e-mail (`confirmMailThrows`);
- the server's answer to the booking form's request for free times (`response`, `None` when the request throws).

Modules:

| module | file | what it holds |
|---|---|---|
| `Wrappers` | wrappers.dfy | `Option` and `Result` |
| `Text` | text.dfy | trimming, case mapping, digits, decimal text, substring search |
| `Seqs` | seqs.dfy | filter, subsequence, insertion sort, counting |
| `Calendar` | calendar.dfy | weekdays, business days, the horizon, the `Date` constructor's arithmetic |
| `AppointmentModel` | appointment.dfy | the appointment schema, `parseLocalDate`, `checkTimeConflict`, `getAvailableTimes` |
| `Scheduler` | scheduler.dfy | `appointmentService.js` |
| `MockData` | mock_data.dfy | `mockData.js` |
| `Validation` | validation.dfy | `validation.js` |
| `Insurance` | insurance.dfy | `insuranceService.js` |
| `Auth` | auth.dfy | `authService.js` |
| `Security` | security.dfy | `security.js` |
| `BookingForm` | booking_form.dfy | `AppointmentBooking.jsx` |
| `AdminList` | admin_list.dfy | `AppointmentManagement.jsx` |

Three properties of the code that the model keeps as they are:

- `updateAppointmentStatus` checks no transition between statuses. A
  cancelled booking can be confirmed again, even when another booking now
  holds its slot: `Scheduler.ReconfirmingCancelledDoubleBooks` shows two
  active bookings in one slot afterwards. The administrator page offers only
  forward moves, pending to confirmed or cancelled and confirmed to cancelled
  (`AdminList.OfferedMovesGoForward`). Every move it does offer keeps the
  store consistent (`AdminList.OfferedMovesKeepStoreConsistent`).
- `getAvailableDates` and the single-day query start at today, while the
  schema and the booking route accept only dates from tomorrow on. The date
  picker's `minDate` is tomorrow, while `shouldDisableDate` also allows
  today; a selectable day is `!shouldDisableDate` and at least `minDate`.
- Saving a status change re-runs the schema's validators, the date rule
  among them, so a booking's status can no longer be changed once its day
  has come (`Scheduler.StatusFrozenFromItsDay`).

## Model

| member | source | states |
|---|---|---|
| AppointmentModel.ParseStatus | backend/models/Appointment.js:53-57 | a status is accepted exactly when it is `pending`, `confirmed` or `cancelled`, and it reads back as the same name |
| AppointmentModel.SchemaStatus | backend/models/Appointment.js:53-57 | an absent status becomes `pending`; a present one is kept exactly when it is one of the three names |
| AppointmentModel.TimeFormatAcceptsClock | backend/models/Appointment.js:48-52 | every hour 0..23 with a minute 0..59, written `HH:MM` or (below ten) `H:MM`, passes the time pattern |
| AppointmentModel.TimeFormatIsClock | backend/models/Appointment.js:48-52 | whatever passes the time pattern is an hour 0..23 and a minute 0..59 that write back to the same text |
| AppointmentModel.ParseLocalDateOfIsoText | backend/models/Appointment.js:87-92 | `parseLocalDate("YYYY-MM-DD")` is local midnight of exactly that year, month and day |
| AppointmentModel.ParseLocalDateDistinguishesDates | backend/models/Appointment.js:87-92 | two different valid dates from year 100 on never parse to the same day |
| AppointmentModel.EarlyYearsCollide | backend/models/Appointment.js:87-92 | a date in years 0..99 and the same date 1900 years later parse to the same day, since the `Date` constructor reads those years as 1900..1999 |
| AppointmentModel.CheckTimeConflict | backend/models/Appointment.js:95-121 | a conflict exists exactly when some record on that day, at that time, active, and not the excluded id exists |
| AppointmentModel.AvailableTimes | backend/models/Appointment.js:124-151 | the free times are a subsequence of the 13-slot template; a template time is free exactly when no active booking holds it that day |
| AppointmentModel.AvailableIffNoConflict | backend/models/Appointment.js:95-151 | a template time is offered exactly when booking it would raise no conflict |
| AppointmentModel.CancelledNeverBlocks | backend/models/Appointment.js:140-150 | adding a cancelled booking leaves the free times of every day unchanged |
| AppointmentModel.SlotTemplateShape | backend/models/Appointment.js:125-128 | the template has 13 distinct times, each passing the time pattern |
| Calendar.BusinessDayIsNotWeekend | frontend/src/pages/AppointmentBooking/AppointmentBooking.jsx:97-100 | a day is Monday to Friday exactly when its weekday is neither 0 nor 6 |
| Calendar.BusinessDaysBetweenSpec | backend/services/appointmentService.js:199-213 | the listed days are exactly the business days of the range, strictly ascending |
| Calendar.HorizonDaysSpec | backend/services/appointmentService.js:192-217 | the horizon is exactly the business days from today to today + 14, strictly ascending |
| Calendar.HorizonFromWednesday | backend/services/appointmentService.js:192-217 | from a Wednesday, the horizon is today, Thursday, Friday, the next working week, and Monday to Wednesday after it |
| Calendar.LocalMidnightOrder | backend/models/Appointment.js:87-92 | for valid dates whose years lie outside 0..99, one day number is smaller than another exactly when its date comes first, and equal exactly when the dates are equal |
| Calendar.MonthRollsOver | backend/models/Appointment.js:87-92 | the day after the last of a month is the first of the next month, also across a year end, as the `Date` constructor rolls over |
| Calendar.EpochIsThursday | frontend/src/pages/AppointmentBooking/AppointmentBooking.jsx:97-100 | 1970-01-01 is day 0 and has weekday 4, a Thursday |
| Scheduler.FindById | backend/services/appointmentService.js:105-113 | the first record with that id is found, and nothing is found exactly when the id is absent |
| Scheduler.Create | backend/services/appointmentService.js:7-49 | an unknown provider, then a taken slot, then a record the schema refuses, fail; the booking succeeds exactly when the provider is registered, the slot is free and the stored record passes the schema, and then one record is appended, with a fresh id and status pending, the others left as they were |
| Scheduler.CreatePreservesConsistency | backend/services/appointmentService.js:20-38 | after a successful booking ids stay unique and each slot has at most one active booking |
| Scheduler.CreateAppends | backend/services/appointmentService.js:26-38 | the stored record is the request under the next id with status pending; a success implies the slot was free |
| Scheduler.CancelCompetitors | backend/services/appointmentService.js:128-142 | exactly the other active bookings of the same day and time change, and they become cancelled; nothing but the status changes |
| Scheduler.UpdateStatus | backend/services/appointmentService.js:116-153 | an unknown id fails as not found; a target that no longer passes the schema (its day has come) fails as invalid; otherwise the target takes the new status without a transition check, competitors are cancelled only on pending to confirmed, and nothing else changes when the e-mail throws first |
| Scheduler.UpdateStatusPreservesConsistency | backend/services/appointmentService.js:116-153 | a cancellation, or any change of an active booking, succeeds exactly when the target still passes the schema, and keeps ids unique and each slot with at most one active booking |
| Scheduler.ConfirmLeavesSlotToTarget | backend/services/appointmentService.js:123-142 | confirming a pending booking succeeds exactly when it still passes the schema, and afterwards it is the only active booking of its slot |
| Scheduler.CascadeIsRedundantWhenConsistent | backend/services/appointmentService.js:128-142 | on a consistent store the cascade finds nothing to cancel, so a failing e-mail does not change the result |
| Scheduler.ReconfirmingCancelledDoubleBooks | backend/services/appointmentService.js:116-142 | confirming a cancelled booking whose slot was retaken leaves two active bookings in that slot |
| Scheduler.StatusFrozenFromItsDay | backend/services/appointmentService.js:123-125 | a status change of a booking whose day is today or past fails as invalid, since the save re-checks the date rule |
| Scheduler.GetById | backend/services/appointmentService.js:105-113 | an unknown id fails as not found; otherwise a stored record with that id is returned |
| Scheduler.Delete | backend/services/appointmentService.js:156-165 | an unknown id fails as not found; otherwise exactly the record found is removed and the rest keep their order |
| Scheduler.DeletePreservesConsistency | backend/services/appointmentService.js:156-165 | deleting keeps the store consistent and the id is gone afterwards |
| Scheduler.AvailableTimesFor | backend/services/appointmentService.js:168-189 | a day before today fails, and so does a weekend day; today and later business days give exactly the free template times, in template order (the model's `AvailableTimes` list) |
| Scheduler.AvailableDates | backend/services/appointmentService.js:192-217 | one entry per horizon day, in horizon order, each with that day's free times, flagged exactly when the list is not empty |
| Scheduler.AvailableDatesAscending | backend/services/appointmentService.js:192-217 | the entries' days strictly ascend |
| Scheduler.AvailableDatesCoverHorizon | backend/services/appointmentService.js:192-217 | a day is listed exactly when it is a business day from today to today + 14, even when it has no free slot |
| Scheduler.AvailableDatesFlagFreeDays | backend/services/appointmentService.js:192-217 | a day is flagged exactly when some template time is not held by an active booking |
| Scheduler.AvailableDatesAgreeWithSingleDay | backend/services/appointmentService.js:168-217 | each entry carries what the single-day query answers for that day |
| Scheduler.GetStats | backend/services/appointmentService.js:220-244 | the total is the record count and each status count is the number of records with that status, 0 when absent |
| Scheduler.StatsAddUp | backend/services/appointmentService.js:220-244 | the three status counts add up to the total |
| Scheduler.Matching | backend/services/appointmentService.js:57-79 | the filtered records are a subsequence, holding exactly the records that pass the status, day and range filters |
| Scheduler.Sorted | backend/services/appointmentService.js:85-86 | the result is a permutation of the matching records, ordered by date and then time |
| Scheduler.CeilDiv | backend/services/appointmentService.js:96 | the page count is the least number of pages of the given size that hold every item |
| Scheduler.Window | backend/services/appointmentService.js:82-88 | `skip`/`limit` keep the at most `limit` consecutive records from position `skip` on |
| Scheduler.ListAppointments | backend/services/appointmentService.js:52-102 | a page holds at most `limit` matching records in list order; the totals count every match and the pages cover them |
| Scheduler.PagePosition | backend/services/appointmentService.js:82-97 | item `i` of `n` falls on page `i / limit + 1`, which is never beyond the page count |
| Scheduler.EveryRecordOnItsPage | backend/services/appointmentService.js:82-100 | every matching record appears on its page, at its position there |
| Scheduler.RecordOnPage | backend/services/appointmentService.js:82-100 | item `k` of page `page` is record `(page - 1) * limit + k` of the sorted matches whenever that record exists, and that page is within the page count |
| Scheduler.RangeOverridesDate | backend/services/appointmentService.js:63-79 | with both range ends given, the single-day filter has no effect |
| MockData.AddAppointment | frontend/src/data/mockData.js:137-145 | one record is appended, with id `length + 1`, the given fields and status pending whatever the input said |
| MockData.AddAppointmentKeepsIdsCompact | frontend/src/data/mockData.js:137-145 | since records are never removed, `length + 1` is always a fresh id |
| MockData.UpdateAppointmentStatus | frontend/src/data/mockData.js:148-170 | an unknown id changes nothing; otherwise the target takes the new status and, on any confirmation, exactly the other non-cancelled bookings of its slot are cancelled |
| MockData.MirrorAgreesWithServiceFromPending | frontend/src/data/mockData.js:148-170 | from pending, the mirror and the service change the store in the same way whenever the service's save passes the schema; otherwise the service fails as invalid |
| MockData.MirrorConfirmLeavesSlotToTarget | frontend/src/data/mockData.js:153-165 | after a confirmation in the mirror, the target is the only active booking of its slot |
| MockData.MirrorReconfirmCancelsCompetitor | frontend/src/data/mockData.js:153-165 | where the service double-books, the mirror's re-confirmation cancels the competitor |
| MockData.GetAvailableAppointments | frontend/src/data/mockData.js:105-134 | one entry per business day of the horizon; each day's times are the template minus the times of any booking that day, cancelled ones included |
| MockData.MirrorOffersNoMoreThanService | frontend/src/data/mockData.js:115-122 | the mirror never offers a time the service would refuse |
| MockData.MirrorMatchesServiceWithoutCancellations | frontend/src/data/mockData.js:115-122 | without cancelled bookings, the mirror and the service offer the same times |
| MockData.DeleteInsuranceProvider | frontend/src/data/mockData.js:183-189 | an unknown id changes nothing; otherwise the first provider with that id is removed and returned, and the rest keep their order |
| MockData.AddInsuranceProviderAsWritten | frontend/src/data/mockData.js:173-180 | one provider is appended with id `length + 1` |
| MockData.AddAfterDeleteReusesId | frontend/src/data/mockData.js:173-189 | after a delete, the next addition takes an id that is still in use |
| MockData.AddInsuranceProvider | frontend/src/data/mockData.js:173-180 | the corrected addition appends under an id no provider has |
| MockData.AddInsuranceProviderKeepsIdsUnique | frontend/src/data/mockData.js:173-180 | the corrected addition keeps provider ids unique |
| MockData.AddInsuranceProviderAgreesBeforeDeletes | frontend/src/data/mockData.js:173-180 | while ids run 1..n, the corrected addition picks the same id as the original |
| Validation.AppointmentChains | backend/middleware/validation.js:23-88 | each field's chain is silent exactly when that field's rule holds (names 1..50 trimmed, phone pattern, e-mail, provider, date from tomorrow, time pattern, notes up to 500) |
| Validation.ValidateAppointment | backend/middleware/validation.js:23-88 | no error exactly when every field satisfies its rule |
| Validation.PersonFieldsReported | backend/middleware/validation.js:24-56 | the name, last name, phone, e-mail and provider fields are each reported exactly when their rule fails |
| Validation.SlotFieldsReported | backend/middleware/validation.js:58-87 | the date, time and notes fields are each reported exactly when their rule fails |
| Validation.DateMessages | backend/middleware/validation.js:58-74 | the date passes exactly when it is an ISO date on or after tomorrow; without `bail` a missing or malformed date also gets the tomorrow message when it parses to an earlier day |
| Validation.TomorrowMessages | backend/middleware/validation.js:63-73 | the custom check adds its message exactly when the value parses to a day before tomorrow |
| Validation.MalformedPastDateGetsBothMessages | backend/middleware/validation.js:58-74 | a non-ISO value that parses to an earlier day gets both the format and the tomorrow message |
| Validation.AcceptedRequestsPassTheSchema | backend/middleware/validation.js:23-88 | a request the route accepts, once stored, passes every validator of the schema but the e-mail pattern, and passes that too when the lower-cased address matches it (always, when `isEmail` only accepts such addresses) |
| Validation.AcceptedFreeRequestIsBooked | backend/middleware/validation.js:23-88 | a request the route accepts is booked exactly when its provider is registered, its slot is free and its lower-cased address has the schema's e-mail shape |
| Validation.ValidateAppointmentStatus | backend/middleware/validation.js:93-99 | a status passes exactly when it is one of the three names |
| Validation.ValidateInsuranceProvider | backend/middleware/validation.js:102-120 | no error exactly when the trimmed name has 1..100 characters and the trimmed code 1..20 capital letters and digits |
| Validation.InsuranceFieldsReported | backend/middleware/validation.js:102-120 | the name and the code are each reported exactly when their own rule fails |
| Validation.ValidateLogin | backend/middleware/validation.js:123-138 | no error exactly when the trimmed username has 3..30 characters and the password at least 6 |
| Validation.LoginFieldsReported | backend/middleware/validation.js:123-138 | the username and the password are each reported exactly when their own rule fails |
| Validation.HandleValidationErrors | backend/middleware/validation.js:4-20 | a 400 response with every error, in order, exactly when there is an error; otherwise the request passes on |
| Validation.BookingGate | backend/middleware/validation.js:4-88 | a booking request reaches the service exactly when every field satisfies its rule |
| Insurance.IsInsuranceProviderActive | backend/services/insuranceService.js:124-130 | true exactly when some provider has that name, ignoring case |
| Insurance.Create | backend/services/insuranceService.js:21-43 | a duplicate name (ignoring case) or upper-cased code is refused; otherwise one provider is appended with a fresh id and the code upper-cased |
| Insurance.CreatePreservesRegistry | backend/services/insuranceService.js:21-43 | creating keeps ids, names (ignoring case) and codes unique |
| Insurance.CreatedNameIsActive | backend/services/insuranceService.js:21-43 | a created name is known afterwards, and creating it again is refused |
| Insurance.UpdateAsWritten | backend/services/insuranceService.js:46-76 | the update as written: refused as a duplicate exactly when its `$or` query, with an empty clause for a missing field, matches another provider |
| Insurance.PartialUpdateAsWrittenFailsWithOthers | backend/services/insuranceService.js:56-68 | a change of only the name, or only the code, is refused exactly when any other provider exists |
| Insurance.RenameAloneIsRefused | backend/services/insuranceService.js:56-68 | renaming one of two unrelated providers is refused as a duplicate |
| Insurance.Update | backend/services/insuranceService.js:46-76 | the corrected update: an unknown id fails; a clash of a supplied field with another provider is refused; otherwise only the supplied fields change, the code upper-cased |
| Insurance.UpdatePreservesRegistry | backend/services/insuranceService.js:46-76 | the corrected update keeps ids, names and codes unique |
| Insurance.UpdateAsWrittenAgreesUnlessPartial | backend/services/insuranceService.js:46-76 | when both fields or neither are supplied, the update as written is the corrected one |
| Insurance.Delete | backend/services/insuranceService.js:79-90 | an unknown id fails; otherwise the provider with that id is removed and the rest keep their order |
| Insurance.DeleteRemovesExactlyThatProvider | backend/services/insuranceService.js:79-90 | on a registry, deleting removes one provider, the id is gone, and every other provider stays |
| Insurance.StatsFollowCreateAndDelete | backend/services/insuranceService.js:94-100 | the total rises by one on a create and falls by one on a delete |
| Insurance.Search | backend/services/insuranceService.js:103-112 | exactly the providers whose name or code contains the term, ignoring case, sorted by name |
| Insurance.EmptySearchListsAll | backend/services/insuranceService.js:103-112 | the empty term lists every provider |
| Insurance.CreateMultiple | backend/services/insuranceService.js:140-160 | every item lands in success or errors, and the store grows by the successes |
| Insurance.BatchErrorsInOrder | backend/services/insuranceService.js:140-160 | the rejected items keep input order, and each is refused as a duplicate |
| Insurance.CreateMultiplePreservesRegistry | backend/services/insuranceService.js:140-160 | a batch keeps the registry unique; later items are checked against earlier successes |
| Insurance.CreateMultipleOfOne | backend/services/insuranceService.js:140-160 | a batch of one item is a single create |
| Auth.FindUser | backend/services/authService.js:62-65 | the user with that id is found exactly when the id exists |
| Auth.Login | backend/services/authService.js:6-36 | every failure is the same bad-credentials error; a success is an active user with the lower-cased name and a matching password, whose last login becomes now |
| Auth.LoginSucceedsIff | backend/services/authService.js:6-36 | on well-formed accounts login succeeds exactly for an active user of that name whose password matches |
| Auth.LoginIgnoresCase | backend/services/authService.js:6-10 | the username's capitalisation does not change the outcome |
| Auth.VerifyToken | backend/services/authService.js:62-77 | a success returns the profile of an existing, active user, without the password |
| Auth.VerifyTokenIff | backend/services/authService.js:62-77 | the token check passes exactly for an existing, active user |
| Auth.ChangePassword | backend/services/authService.js:80-100 | an unknown user, then a wrong current password, fail; then the save refuses a new password under six characters (or a stored username outside 3..30); no other error is possible, so otherwise the call succeeds and only that user's password changes |
| Auth.ShortPasswordIsRefused | backend/models/User.js:14-18 | a new password under six characters is never stored |
| Auth.CreateUser | backend/services/authService.js:103-128 | refused while any admin exists; then the save refuses a username outside 3..30 or a password under six characters; then a lower-cased name already taken is refused; no other error is possible, so otherwise one active admin is appended |
| Auth.CreateUserMakesTheOnlyAdmin | backend/services/authService.js:103-128 | afterwards there is exactly one admin, and a second call is refused |
| Auth.CreateUserPreservesAccounts | backend/services/authService.js:103-128 | creating keeps ids and usernames unique and usernames lower-case and of a valid length |
| Auth.UpdateUser | backend/services/authService.js:136-169 | an unknown id fails; a new name held by another user is refused; the save refuses a resulting username outside 3..30; no other error is possible, so otherwise the call succeeds and only the supplied fields change |
| Auth.ShortUsernameIsRefused | backend/models/User.js:5-13 | a new username under three characters is never stored |
| Auth.Updated | backend/services/authService.js:145-159 | the name changes only when a new one is given, lower-cased; the role only when given; the active flag only when it is a boolean |
| Auth.UpdateUserPreservesAccounts | backend/services/authService.js:136-169 | updating keeps usernames unique, lower-case and of a valid length |
| Auth.PasswordAndFlagChangesPreserveAccounts | backend/services/authService.js:80-100 | a password change or an activation change keeps ids and usernames unique, lower-case and of a valid length |
| Auth.SetActive | backend/services/authService.js:172-195 | an unknown id fails; otherwise only that user's active flag is set |
| Auth.DeactivateUser | backend/services/authService.js:172-182 | the user is inactive afterwards |
| Auth.ReactivateUser | backend/services/authService.js:185-195 | the user is active afterwards |
| Auth.DeactivatedUserIsLockedOut | backend/services/authService.js:6-19 | a deactivated user can neither log in nor pass the token check |
| Auth.ByRole | backend/services/authService.js:203-219 | each role in use appears, with the number of users who have it |
| Auth.GetUserStats | backend/services/authService.js:198-221 | total, active and inactive counts, with active plus inactive equal to the total |
| Security.RemoveBrackets | backend/middleware/security.js:58 | the result has no bracket and is a subsequence whose length is the input's minus its brackets, so exactly the `<` and `>` are dropped; bracket-free text is unchanged |
| Security.SanitizeString | backend/middleware/security.js:55-61 | a sanitised string has no `<` or `>`, and is a prefix of the trimmed text without brackets: all of it when that text has at most 1000 characters, exactly its first 1000 otherwise |
| Security.SanitizeKeepsCleanText | backend/middleware/security.js:55-61 | short text without brackets or surrounding whitespace comes out unchanged |
| Security.SanitizeIsNotIdempotent | backend/middleware/security.js:57-59 | the trim comes before the bracket removal, so `"< a"` sanitises to `" a"` and then to `"a"` |
| Security.SanitizeValue | backend/middleware/security.js:55-56 | strings are sanitised and every other value is returned unchanged |
| Security.SanitizeFields | backend/middleware/security.js:64-80 | each top-level field keeps its key and position, and its value is sanitised |
| Security.SanitizeInput | backend/middleware/security.js:53-83 | the body and the query are each rewritten when present |
| Security.SanitizedBodyIsClean | backend/middleware/security.js:53-83 | top-level strings are clean and short, and nested objects and arrays are left as they were |
| Security.ValidateOrigin | backend/middleware/security.js:85-103 | a request passes exactly in development or with one of the four allowed origins |
| Security.MissingOriginRefusedOutsideDevelopment | backend/middleware/security.js:85-103 | outside development, a request without an origin is refused |
| Security.SecurityErrorHandler | backend/middleware/security.js:119-148 | validation errors, cast errors and Mongo errors with code 11000 are 400; everything else is 500 with a generic message |
| Security.OtherMongoErrorsAreServerErrors | backend/middleware/security.js:119-148 | a Mongo error without code 11000 is a server error |
| BookingForm.EnabledDaysAreTheHorizon | frontend/src/pages/AppointmentBooking/AppointmentBooking.jsx:643-650 | the picker enables a day exactly when it is in the service's horizon |
| BookingForm.SelectableDaysAreBookable | frontend/src/pages/AppointmentBooking/AppointmentBooking.jsx:643-652 | every selectable day passes the schema's "from tomorrow" rule and the service's single-day check |
| BookingForm.HandleDateSelect | frontend/src/pages/AppointmentBooking/AppointmentBooking.jsx:102-131 | a weekend clears the date and time; a weekday sets the date, clears the time and shows the fetched times, or none when the request failed |
| BookingForm.SelectedDateIsWeekday | frontend/src/pages/AppointmentBooking/AppointmentBooking.jsx:102-131 | after a selection the form's date is set exactly when the day is a weekday, whatever the request answered, and its time is empty |
| BookingForm.GetAvailableTimesForDate | frontend/src/hooks/useAppointmentData.js:25-37 | a successful answer yields its list of times; an unsuccessful answer or a thrown request yields an empty list |
| BookingForm.FormatPhone | frontend/src/pages/AppointmentBooking/AppointmentBooking.jsx:145-176 | the result holds only phone characters; its digits are the input's first 12 (`54`), 10 (`11`, `15`) or all; a `54` number starts with `+` |
| BookingForm.DigitsOfPhoneChars | frontend/src/pages/AppointmentBooking/AppointmentBooking.jsx:147-150 | dropping the characters a phone may not hold keeps every digit |
| BookingForm.LayoutShape | frontend/src/pages/AppointmentBooking/AppointmentBooking.jsx:150-175 | each layout holds only phone characters, its digits are the kept prefix, and a `54` layout starts with `+` |
| BookingForm.FormatPhoneIdempotent | frontend/src/pages/AppointmentBooking/AppointmentBooking.jsx:145-176 | formatting a formatted number changes nothing |
| BookingForm.HandleInputChange | frontend/src/pages/AppointmentBooking/AppointmentBooking.jsx:141-190 | only the edited field changes, the phone formatted and others as typed; that field's error is cleared when shown, and otherwise the errors are left exactly as they were |
| BookingForm.RetypingShownValueChangesNothing | frontend/src/pages/AppointmentBooking/AppointmentBooking.jsx:141-190 | typing again what a field now shows changes neither the form nor the messages (the phone formatter is idempotent) |
| BookingForm.PhoneError | frontend/src/pages/AppointmentBooking/AppointmentBooking.jsx:201-207 | no phone message exactly when it has only phone characters and at least eight digits |
| BookingForm.EmailError | frontend/src/pages/AppointmentBooking/AppointmentBooking.jsx:208-212 | no e-mail message exactly when it is not blank and holds an unanchored `\S+@\S+\.\S+` match |
| BookingForm.ValidateForm | frontend/src/pages/AppointmentBooking/AppointmentBooking.jsx:192-225 | messages are given only under the form's seven keys |
| BookingForm.ValidateFormNames | frontend/src/pages/AppointmentBooking/AppointmentBooking.jsx:195-200 | a name field is reported exactly when it is blank |
| BookingForm.ValidateFormContact | frontend/src/pages/AppointmentBooking/AppointmentBooking.jsx:201-212 | the phone and the e-mail are reported exactly when their rules fail |
| BookingForm.ValidateFormSlot | frontend/src/pages/AppointmentBooking/AppointmentBooking.jsx:213-221 | the provider, date and time are reported exactly when not chosen; the notes never are |
| BookingForm.ValidateFormIff | frontend/src/pages/AppointmentBooking/AppointmentBooking.jsx:192-225 | the form submits exactly when every field passes its rule |
| BookingForm.FormPhonePassesServer | frontend/src/pages/AppointmentBooking/AppointmentBooking.jsx:201-207 | a phone the form accepts, once trimmed, passes the backend's phone pattern |
| AdminList.ParseFilter | frontend/src/pages/Admin/AppointmentManagement.jsx:81-84 | a filter name is read exactly when it is `all` or one of the status names, and it reads back the same |
| AdminList.FilterFromUrl | frontend/src/pages/Admin/AppointmentManagement.jsx:81-84 | a URL filter is adopted only when it names a filter; otherwise the current filter stays |
| AdminList.FilterList | frontend/src/pages/Admin/AppointmentManagement.jsx:551-555 | `all` keeps every record; any other filter keeps exactly the records with that status, in order |
| AdminList.NewestFirstIsTotalPreorder | frontend/src/pages/Admin/AppointmentManagement.jsx:556-564 | the comparator orders any two records and is transitive |
| AdminList.Displayed | frontend/src/pages/Admin/AppointmentManagement.jsx:551-564 | the rows are a permutation of the filtered records, newest first |
| Seqs.SortByIsStable | frontend/src/pages/Admin/AppointmentManagement.jsx:556-564 | the sort keeps bookings the comparator ties (same date and time) in their input order, as `Array.prototype.sort` does |
| AdminList.DisplayedNewestFirst | frontend/src/pages/Admin/AppointmentManagement.jsx:556-564 | dates never rise down the table, and within one date times never rise |
| AdminList.AllShowsEverything | frontend/src/pages/Admin/AppointmentManagement.jsx:551-555 | under `all`, every record is shown as often as it is stored |
| AdminList.SetStatus | frontend/src/pages/Admin/AppointmentManagement.jsx:152-158 | only records with the matching id change, and only their status |
| AdminList.LocalUpdateMirrorsService | frontend/src/pages/Admin/AppointmentManagement.jsx:145-158 | when no cascade runs, the service saves exactly the local copy after a change, or fails as invalid when the target no longer passes the schema |
| AdminList.LocalUpdateMissesCascade | frontend/src/pages/Admin/AppointmentManagement.jsx:105-117 | after a confirmation the store has the competitor cancelled while the local copy still shows it pending |
| AdminList.HandleStatusChange | frontend/src/pages/Admin/AppointmentManagement.jsx:128-143 | `cancelled` opens the cancel dialog; a given status is the target; with none, pending goes to confirmed and anything else to pending |
| AdminList.Actions | frontend/src/pages/Admin/AppointmentManagement.jsx:232-285 | pending offers confirm and cancel, confirmed offers cancel, cancelled offers nothing |
| AdminList.MenuOptions | frontend/src/pages/Admin/AppointmentManagement.jsx:680-703 | the menu never offers the current status, offers cancel unless already cancelled, and offers nothing beyond confirmed and cancelled |
| AdminList.OfferedMovesGoForward | frontend/src/pages/Admin/AppointmentManagement.jsx:232-285 | the buttons and the menu offer the same moves, and every move goes forward |
| AdminList.OfferedMovesKeepStoreConsistent | frontend/src/pages/Admin/AppointmentManagement.jsx:232-285 | every offered move, applied by the service, succeeds exactly when the target passes the schema and keeps the store consistent |
| AdminList.ChangeMessage | frontend/src/pages/Admin/AppointmentManagement.jsx:159-172 | the cancellation message is given exactly for a cancellation |

## Left out

- Time zones are left out: days are whole local days. The source mixes UTC and local midnight (`toISOString`, `new Date('YYYY-MM-DD')`); that mixing and daylight saving are not modelled.
- `Number()` is modelled only for empty text and decimal digits; every other text is NaN.
- Strings are sequences of characters. JavaScript's UTF-16 lengths, full Unicode case mapping, `localeCompare` and Mongo's collation are read as code-point order with ASCII case mapping.
- E-mail sending, the Resend API and its templates are left out. The only trace is whether the confirmation mail throws, a parameter of `Scheduler.UpdateStatus`.
- JWT signing, bcrypt hashing, `normalizeEmail`, rate limiting, Helmet and request logging are foreign code. Password checks are a `matches` parameter and e-mail validation an `isEmail` parameter.
- Validation.SanitizedRequest: the e-mail the service receives has also passed `normalizeEmail()`, a library rewrite; the model hands on the trimmed address as typed.
- Validation.HandleValidationErrors: each entry of the 400 list also echoes the offending `value`; the model keeps only the field and the message.
- Concurrency between requests is not modelled: each operation is one atomic step on the store.
- Regular-expression metacharacters in a search term are not modelled; the term is matched as plain text.
- The insurance-provider schema's `trim`, `maxlength` and `required` rules are not modelled; only the service-level checks are.
- The user schema's `trim` setter is not modelled: the username length rule (3..30) is checked on the lower-cased name as supplied.
- Auth.Login: the save of the last-login time re-runs the username length rule; the model does not re-check it there, because every account operation keeps it (`Auth.Accounts`), so on such accounts it cannot fail.
- MockData.AddAppointment: the spread `...appointmentData` comes after the computed id, so a supplied `id` field would replace `length + 1` and any extra field would be stored; the input is modelled as exactly the form's fields, without an id.
- MockData.AddInsuranceProviderAsWritten: likewise, an `id` inside `providerData` would replace `length + 1`; the input is modelled as a name and a code only.
- Scheduler.ListAppointments: requires `page` and `limit` of at least 1, the values the routes send; `parseInt` of other text is not modelled.
- Security.SanitizeInput: rewrites only top-level strings, as the source does; nested objects are shown to be left as they were, not sanitised.
- `checkTimeAvailability`, `getAppointmentsByDateRange` and `getAppointmentsByPatient` are thin queries outside the booking flow.
- `validateObjectId`, `validateDateQuery` and `validateDoctorInfo` guard routes outside the booking flow.
- `getAllInsuranceProviders`, `getInsuranceProviderById`, `getInsuranceProviderByCode`, `getMostUsedInsuranceProviders`, `getAllUsers` and `logout` are plain reads or foreign aggregations.
- Validation.AcceptedRequestsPassTheSchema: the schema's e-mail pattern is promised only when the lower-cased address matches it. `isEmail` also accepts addresses the pattern refuses, such as a quoted local part with a space (`"a b"@x.co`) or a no-break space, and such a request is accepted by the route and refused by the save.
- Loading flags, messages other than the status-change message, navigation and rendering of the pages are not modelled.

## Findings

| source | as written | input that shows it | evidently intended | confidence | as-written member | corrected member |
|---|---|---|---|---|---|---|
| backend/services/insuranceService.js:56-68 | the duplicate query is `$or: [name ? {name} : {}, code ? {code} : {}]`, and an empty clause matches every document | providers (1, OSDE, OSDE) and (2, Swiss Medical, SWISS); update 1 with only the name `OSDE Binario` | only the supplied fields take part in the duplicate check | high, not executed | Insurance.UpdateAsWritten, Insurance.RenameAloneIsRefused | Insurance.Update, Insurance.UpdatePreservesRegistry |
| frontend/src/data/mockData.js:173-180 | a new provider's id is `length + 1` | delete provider 3 from the eight seeded ones, then add one: it gets id 8, which provider 8 still has | a fresh id, larger than every id in use | high, not executed | MockData.AddInsuranceProviderAsWritten, MockData.AddAfterDeleteReusesId | MockData.AddInsuranceProvider, MockData.AddInsuranceProviderKeepsIdsUnique |

=== FILE: admin_list.dfy ===
/**
 * The list logic of the administrator's appointment page,
 * `frontend/src/pages/Admin/AppointmentManagement.jsx`: the status filter and
 * the filter taken from the URL, the newest-first order of the table, the
 * local update after a status change, the target a status dialog opens with,
 * and the actions each status offers.
 */
module AdminList {
  import opened Wrappers
  import opened Text
  import opened Seqs
  import opened Calendar
  import opened AppointmentModel
  import Scheduler

  // ----- Status filter -----

  /** `'all'` or one status. */
  datatype StatusFilter = All | Only(status: Status)

  function FilterName(f: StatusFilter): string
  {
    match f
    case All => "all"
    case Only(s) => StatusName(s)
  }

  /** Reads a filter name: `'all'` or a status name. */
  function ParseFilter(s: string): (r: Option<StatusFilter>)
    ensures r.Some? <==> s in {"all", "pending", "confirmed", "cancelled"}
    ensures r.Some? ==> FilterName(r.value) == s
  {
    if s == "all" then Some(All)
    else match ParseStatus(s)
      case None => None
      case Some(st) => Some(Only(st))
  }

  lemma ParseFilterName(f: StatusFilter)
    ensures ParseFilter(FilterName(f)) == Some(f)
  {
  }

  /**
   * The effect on the filter of loading the page: a `filter` parameter of the
   * URL is adopted when it names a filter, otherwise the current one stays.
   */
  function FilterFromUrl(current: StatusFilter, param: Option<string>): (r: StatusFilter)
    ensures param.Some? && ParseFilter(param.value).Some? ==> FilterName(r) == param.value
    ensures param.None? || param.value !in {"all", "pending", "confirmed", "cancelled"} ==> r == current
  {
    if param.Some? && param.value != "" then
      match ParseFilter(param.value)
      case Some(f) => f
      case None => current
    else current
  }

  predicate Shows(f: StatusFilter, a: Appointment)
  {
    f.All? || a.status == f.status
  }

  /** The `.filter(...)` of the table: every record for `all`, otherwise those with that status. */
  function FilterList(c: seq<Appointment>, f: StatusFilter): (r: seq<Appointment>)
    ensures f == All ==> r == c
    ensures forall a :: a in r <==> a in c && (f == All || a.status == f.status)
    ensures Subseq(r, c)
  {
    var r := Filter(c, a => Shows(f, a));
    if f == All then
      FilterAll(c, a => Shows(f, a));
      r
    else
      r
  }

  // ----- Newest first -----

  /**
   * The table's comparator: a later date first, and on the same date a later
   * time first. `localeCompare` on the times is taken as code-point order.
   */
  predicate NewestFirst(a: Appointment, b: Appointment)
  {
    a.date > b.date || (a.date == b.date && StrLe(b.time, a.time))
  }

  lemma NewestFirstIsTotalPreorder()
    ensures TotalPreorder(NewestFirst)
  {
    forall a: Appointment, b: Appointment
      ensures NewestFirst(a, b) || NewestFirst(b, a)
    {
      StrLeTotal(a.time, b.time);
    }
    forall a: Appointment, b: Appointment, x: Appointment | NewestFirst(a, b) && NewestFirst(b, x)
      ensures NewestFirst(a, x)
    {
      if a.date == b.date == x.date {
        StrLeTransitive(x.time, b.time, a.time);
      }
    }
  }

  /** The rows of the table: the filtered records, newest first. */
  function Displayed(c: seq<Appointment>, f: StatusFilter): (r: seq<Appointment>)
    ensures SortedBy(r, NewestFirst)
    ensures multiset(r) == multiset(FilterList(c, f))
    ensures forall a :: a in r <==> a in c && Shows(f, a)
  {
    NewestFirstIsTotalPreorder();
    var hits := FilterList(c, f);
    var r := SortBy(hits, NewestFirst);
    assert forall a :: a in r <==> a in multiset(r);
    assert forall a :: a in hits <==> a in multiset(hits);
    r
  }

  /** Row by row: dates never increase down the table, and on one date times never increase. */
  lemma DisplayedNewestFirst(c: seq<Appointment>, f: StatusFilter, i: nat, j: nat)
    requires i < j < |Displayed(c, f)|
    ensures var r := Displayed(c, f);
            && r[i].date >= r[j].date
            && (r[i].date == r[j].date ==> StrLe(r[j].time, r[i].time))
  {
  }

  /** Under `all`, the table holds every record, each as often as it is stored. */
  lemma AllShowsEverything(c: seq<Appointment>)
    ensures multiset(Displayed(c, All)) == multiset(c)
    ensures |Displayed(c, All)| == |c|
  {
    assert multiset(Displayed(c, All)) == multiset(c);
  }

  // ----- Local status update -----

  /** The `prev.map(...)` after a successful change: the record with that id takes the new status. */
  function SetStatus(c: seq<Appointment>, id: Id, status: Status): (r: seq<Appointment>)
    ensures |r| == |c|
    ensures forall i :: 0 <= i < |c| ==> r[i] == c[i].(status := r[i].status)
    ensures forall i :: 0 <= i < |c| ==> (c[i].id == id ==> r[i].status == status)
    ensures forall i :: 0 <= i < |c| ==> (c[i].id != id ==> r[i] == c[i])
  {
    seq(|c|, i requires 0 <= i < |c| => if c[i].id == id then c[i].(status := status) else c[i])
  }

  /**
   * When the change sets no cascade off, the page's local copy after a
   * successful update is exactly the store the service saved; when the save is
   * refused, the page keeps its copy and the store is unchanged too.
   */
  lemma LocalUpdateMirrorsService(c: seq<Appointment>, id: Id, status: Status, today: Day, confirmMailThrows: bool)
    requires Scheduler.UniqueIds(c)
    requires id in Scheduler.Ids(c)
    requires !Scheduler.CascadeTriggered(c[Scheduler.FindById(c, id).value].status, status) || confirmMailThrows
    ensures Scheduler.UpdateStatus(c, id, status, today, confirmMailThrows) ==
              if Scheduler.Saveable(c, id, today) then Ok(SetStatus(c, id, status)) else Err(Scheduler.InvalidRecord)
  {
    var k := Scheduler.FindById(c, id).value;
    if Scheduler.Saveable(c, id, today) {
      var r := c[k := c[k].(status := status)];
      assert Scheduler.UpdateStatus(c, id, status, today, confirmMailThrows) == Ok(r);
      var l := SetStatus(c, id, status);
      forall i | 0 <= i < |c|
        ensures r[i] == l[i]
      {
        if i < k {
          assert c[i].id != c[k].id;
        } else if i > k {
          assert c[k].id != c[i].id;
        }
      }
      assert r == l;
    }
  }

  /**
   * Confirming a pending booking cancels its competitors in the store, but
   * the local copy shows them as still active until the list is loaded again.
   */
  lemma LocalUpdateMissesCascade(today: Day)
    requires today < 20000
    ensures var c := [Scheduler.SampleBooking(1, 20000, Pending), Scheduler.SampleBooking(2, 20000, Pending)];
            && Scheduler.UpdateStatus(c, 1, Confirmed, today, false).Ok?
            && Scheduler.UpdateStatus(c, 1, Confirmed, today, false).value[1].status == Cancelled
            && SetStatus(c, 1, Confirmed)[1].status == Pending
  {
    var c := [Scheduler.SampleBooking(1, 20000, Pending), Scheduler.SampleBooking(2, 20000, Pending)];
    assert Scheduler.Ids(c)[0] == 1;
    assert Scheduler.FindById(c, 1) == Some(0);
    Scheduler.SampleBookingIsValid(1, 20000, Pending, today);
    assert Scheduler.Competitor(c[1], 1, 20000, "09:00");
  }

  // ----- Dialog and actions -----

  /** The state `handleStatusChange` opens the dialog with: the target status and whether it is the cancel dialog. */
  datatype Dialog = Dialog(target: Status, cancelDialog: bool)

  /**
   * `handleStatusChange(appointment, param)`: `cancelled` opens the cancel
   * dialog; another given status is the target; with none, a pending booking
   * is offered confirmation and any other one is put back to pending.
   */
  function HandleStatusChange(a: Appointment, param: Option<Status>): (r: Dialog)
    ensures r.cancelDialog <==> param == Some(Cancelled)
    ensures param.Some? ==> r.target == param.value
    ensures param.None? ==> r.target != a.status
    ensures param.None? ==> (r.target == Confirmed <==> a.status == Pending)
  {
    match param
    case Some(Cancelled) => Dialog(Cancelled, true)
    case Some(s) => Dialog(s, false)
    case None => Dialog(if a.status == Pending then Confirmed else Pending, false)
  }

  /** The buttons of `getStatusButton`. */
  datatype Action = Confirm | Cancel

  function Actions(s: Status): (r: set<Action>)
    ensures Cancel in r <==> s != Cancelled
    ensures Confirm in r <==> s == Pending
  {
    match s
    case Pending => {Confirm, Cancel}
    case Confirmed => {Cancel}
    case Cancelled => {}
  }

  /** The status a button asks for. */
  function ActionTarget(act: Action): Status
  {
    match act
    case Confirm => Confirmed
    case Cancel => Cancelled
  }

  /** The choices of the dialog's status menu (shown outside the cancel dialog). */
  function MenuOptions(s: Status): (r: set<Status>)
    ensures s !in r
    ensures Cancelled in r <==> s != Cancelled
    ensures r <= {Confirmed, Cancelled}
  {
    match s
    case Pending => {Confirmed, Cancelled}
    case Confirmed => {Cancelled}
    case Cancelled => {}
  }

  /** The place of a status in the booking's life: pending, then confirmed, then cancelled. */
  function Rank(s: Status): nat
  {
    match s
    case Pending => 0
    case Confirmed => 1
    case Cancelled => 2
  }

  /**
   * The buttons and the menu offer the same moves, and every move goes
   * forward: nothing the page offers re-activates a cancelled booking.
   */
  lemma OfferedMovesGoForward(s: Status)
    ensures forall act :: act in Actions(s) <==> ActionTarget(act) in MenuOptions(s)
    ensures forall t :: t in MenuOptions(s) ==> Rank(s) < Rank(t)
    ensures MenuOptions(Cancelled) == {} && Actions(Cancelled) == {}
  {
    forall act
      ensures act in Actions(s) <==> ActionTarget(act) in MenuOptions(s)
    {
      match act
      case Confirm =>
      case Cancel =>
    }
  }

  /**
   * A button's change, applied through the service, keeps the store
   * consistent: no offered move brings two active bookings into one slot.
   */
  lemma OfferedMovesKeepStoreConsistent(c: seq<Appointment>, id: Id, act: Action, today: Day, confirmMailThrows: bool)
    requires Scheduler.Consistent(c)
    requires id in Scheduler.Ids(c)
    requires act in Actions(c[Scheduler.FindById(c, id).value].status)
    ensures Scheduler.UpdateStatus(c, id, ActionTarget(act), today, confirmMailThrows).Ok? <==> Scheduler.Saveable(c, id, today)
    ensures Scheduler.UpdateStatus(c, id, ActionTarget(act), today, confirmMailThrows).Ok? ==>
              Scheduler.Consistent(Scheduler.UpdateStatus(c, id, ActionTarget(act), today, confirmMailThrows).value)
  {
    Scheduler.UpdateStatusPreservesConsistency(c, id, ActionTarget(act), today, confirmMailThrows);
  }

  /** The success message of `confirmStatusChange`. */
  function ChangeMessage(s: Status): (r: string)
    ensures s == Cancelled <==> r == "Cita cancelada exitosamente"
  {
    match s
    case Confirmed => "Cita confirmada exitosamente"
    case Pending => "Cita marcada como pendiente exitosamente"
    case Cancelled => "Cita cancelada exitosamente"
  }
}

=== FILE: appointment.dfy ===
/**
 * The appointment record of `backend/models/Appointment.js`: its status enum
 * and field rules (checked by the schema when a record is saved), the fixed
 * daily slot template, `parseLocalDate`, and the two collection queries the
 * scheduler is built on, `checkTimeConflict` and `getAvailableTimes`.
 * A collection is a sequence of records; ids are meant to be unique.
 */
module AppointmentModel {
  import opened Wrappers
  import opened Text
  import opened Seqs
  import opened Calendar

  type Id = nat

  datatype Status = Pending | Confirmed | Cancelled

  /** Pending and confirmed bookings hold their slot; a cancelled one never does. */
  predicate IsActive(s: Status)
  {
    s == Pending || s == Confirmed
  }

  function StatusName(s: Status): string
  {
    match s
    case Pending => "pending"
    case Confirmed => "confirmed"
    case Cancelled => "cancelled"
  }

  /** The schema's `enum: ['pending', 'confirmed', 'cancelled']`. */
  function ParseStatus(s: string): (r: Option<Status>)
    ensures r.Some? <==> s == "pending" || s == "confirmed" || s == "cancelled"
    ensures r.Some? ==> StatusName(r.value) == s
  {
    if s == "pending" then Some(Pending)
    else if s == "confirmed" then Some(Confirmed)
    else if s == "cancelled" then Some(Cancelled)
    else None
  }

  /** The schema's `status` field: an absent value takes the default `pending`, a present one must be in the enum. */
  function SchemaStatus(input: Option<string>): (r: Option<Status>)
    ensures input.None? ==> r == Some(Pending)
    ensures input.Some? ==> (r.Some? <==> ParseStatus(input.value).Some?)
    ensures r.Some? ==> input.None? || StatusName(r.value) == input.value
  {
    match input
    case None => Some(Pending)
    case Some(s) => ParseStatus(s)
  }

  datatype Appointment = Appointment(
    id: Id,
    patientName: string,
    patientLastName: string,
    phone: string,
    email: string,
    insuranceProvider: string,
    date: Day,
    time: string,
    status: Status,
    notes: Option<string>)

  /** What a patient submits: every field of a record except its id and status. */
  datatype BookingRequest = BookingRequest(
    patientName: string,
    patientLastName: string,
    phone: string,
    email: string,
    insuranceProvider: string,
    date: Day,
    time: string,
    notes: Option<string>)

  /** The clinic's fixed daily offering: 09:00 to 11:30 and 14:00 to 17:00, every half hour. */
  const SlotTemplate: seq<string> := [
    "09:00", "09:30", "10:00", "10:30", "11:00", "11:30",
    "14:00", "14:30", "15:00", "15:30", "16:00", "16:30", "17:00"
  ]

  // ----- Field formats -----

  predicate MinutesOk(t: string)
  {
    |t| == 3 && t[0] == ':' && '0' <= t[1] <= '5' && IsDigit(t[2])
  }

  predicate HourPairOk(a: char, b: char)
  {
    ('0' <= a <= '1' && IsDigit(b)) || (a == '2' && '0' <= b <= '3')
  }

  /** `/^([0-1]?[0-9]|2[0-3]):[0-5][0-9]$/`: one or two hour digits up to 23, a colon, two minute digits up to 59. */
  predicate TimeFormatOk(s: string)
  {
    || (|s| == 4 && IsDigit(s[0]) && MinutesOk(s[1..]))
    || (|s| == 5 && HourPairOk(s[0], s[1]) && MinutesOk(s[2..]))
  }

  /** A clock time written as the source writes it: the hour with or without a leading zero, two minute digits. */
  function ClockText(hour: nat, minute: nat, padHour: bool): string
  {
    (if padHour then PadZeros(DecimalString(hour), 2) else DecimalString(hour))
    + ":" + PadZeros(DecimalString(minute), 2)
  }

  lemma TwoDigits(n: nat)
    requires n < 100
    ensures n < 10 ==> DecimalString(n) == [DigitChar(n)]
    ensures n < 10 ==> PadZeros(DecimalString(n), 2) == ['0', DigitChar(n)]
    ensures n >= 10 ==> DecimalString(n) == [DigitChar(n / 10), DigitChar(n % 10)]
    ensures n >= 10 ==> PadZeros(DecimalString(n), 2) == DecimalString(n)
  {
    if n >= 10 {
      assert DecimalString(n / 10) == [DigitChar(n / 10)];
    } else {
      assert Zeros(1) == ['0'];
    }
  }

  /** Every hour 0..23 and minute 0..59 written as `HH:MM`, or as `H:MM` below ten o'clock, passes the time format. */
  lemma TimeFormatAcceptsClock(hour: nat, minute: nat, padHour: bool)
    requires hour <= 23 && minute <= 59
    requires padHour || hour < 10
    ensures TimeFormatOk(ClockText(hour, minute, padHour))
  {
    TwoDigits(hour);
    TwoDigits(minute);
    var s := ClockText(hour, minute, padHour);
    if padHour {
      assert |s| == 5 && s[2..] == ":" + PadZeros(DecimalString(minute), 2);
    } else {
      assert |s| == 4 && s[1..] == ":" + PadZeros(DecimalString(minute), 2);
    }
  }

  /** The hour, minute and padding a well-formed time is written with. */
  datatype Clock = Clock(hour: nat, minute: nat, padHour: bool)

  function ReadClock(s: string): Clock
    requires TimeFormatOk(s)
  {
    Clock(DecimalValue(s[..|s| - 3]), DecimalValue(s[|s| - 2..]), |s| == 5)
  }

  /** Two digits read as a number and written back with zero padding are the same two digits. */
  lemma TwoDigitsReadBack(t: string)
    requires |t| == 2 && AllDigits(t)
    ensures DecimalValue(t) == DigitValue(t[0]) * 10 + DigitValue(t[1])
    ensures PadZeros(DecimalString(DecimalValue(t)), 2) == t
  {
    ShortDecimalValue(t);
    var n := DecimalValue(t);
    var hi, lo := DigitValue(t[0]), DigitValue(t[1]);
    assert n / 10 == hi && n % 10 == lo by {
      assert n == hi * 10 + lo && 0 <= lo < 10;
    }
    assert DigitChar(hi) == t[0] && DigitChar(lo) == t[1];
    TwoDigits(n);
  }

  /** One digit read as a number and written back is the same digit. */
  lemma OneDigitReadBack(t: string)
    requires |t| == 1 && AllDigits(t)
    ensures DecimalValue(t) == DigitValue(t[0])
    ensures DecimalString(DecimalValue(t)) == t
  {
    ShortDecimalValue(t);
    TwoDigits(DecimalValue(t));
  }

  /** Everything the time format accepts is an hour 0..23 and a minute 0..59, written back exactly. */
  lemma TimeFormatIsClock(s: string)
    requires TimeFormatOk(s)
    ensures ReadClock(s).hour <= 23 && ReadClock(s).minute <= 59
    ensures ClockText(ReadClock(s).hour, ReadClock(s).minute, ReadClock(s).padHour) == s
  {
    var hs := s[..|s| - 3];
    var ms := s[|s| - 2..];
    TwoDigitsReadBack(ms);
    if |s| == 4 {
      OneDigitReadBack(hs);
    } else {
      TwoDigitsReadBack(hs);
    }
    assert s == hs + ":" + ms;
  }

  predicate IsPhoneChar(c: char)
  {
    IsDigit(c) || IsSpace(c) || c == '-' || c == '+' || c == '(' || c == ')'
  }

  /** `/^[\d\s\-\+\(\)]+$/`: one or more digits, spaces, dashes, plus signs and parentheses. */
  predicate PhonePatternOk(s: string)
  {
    |s| > 0 && forall i :: 0 <= i < |s| ==> IsPhoneChar(s[i])
  }

  /** `/^\S+@\S+\.\S+$/`: no whitespace, and an `@` and a later `.` each with text on both sides. */
  predicate EmailPatternOk(s: string)
  {
    && (forall i :: 0 <= i < |s| ==> !IsSpace(s[i]))
    && exists a, d | 0 < a < |s| && a + 1 < d < |s| - 1 :: s[a] == '@' && s[d] == '.'
  }

  /** The schema's date rule: on or after tomorrow's local midnight. */
  predicate AtLeastTomorrow(date: Day, today: Day)
  {
    date >= today + 1
  }

  // ----- Saving a record -----

  /**
   * The record the schema stores for a request: the `trim` setters applied to
   * the text fields and the `lowercase` setter to the e-mail address.
   */
  function StoredRecord(id: Id, req: BookingRequest, status: Status): (a: Appointment)
    ensures a.id == id && a.status == status
    ensures a.date == req.date && a.time == req.time
  {
    Appointment(
      id, Trim(req.patientName), Trim(req.patientLastName), Trim(req.phone),
      ToLower(Trim(req.email)), Trim(req.insuranceProvider), req.date, req.time, status,
      match req.notes case None => None case Some(n) => Some(Trim(n)))
  }

  /** The schema validators that run when a new record is saved. */
  predicate SchemaValid(a: Appointment, today: Day)
  {
    && 0 < |a.patientName| <= 50
    && 0 < |a.patientLastName| <= 50
    && PhonePatternOk(a.phone)
    && EmailPatternOk(a.email)
    && |a.insuranceProvider| > 0
    && AtLeastTomorrow(a.date, today)
    && TimeFormatOk(a.time)
    && (a.notes.None? || |a.notes.value| <= 500)
  }

  // ----- Dates -----

  /** `Number(p)` for the texts the model covers: empty is 0, decimal digits are their value, anything else is NaN. */
  function NumberOf(p: string): Option<int>
  {
    if AllDigits(p) then Some(DecimalValue(p)) else None
  }

  /**
   * `parseLocalDate(dateString)`: split on `-`, convert the first three parts
   * with `Number`, and build local midnight with `new Date(year, month - 1, day)`.
   * `None` is the invalid date that a missing or non-numeric part produces.
   */
  function ParseLocalDate(s: string): Option<Day>
  {
    var parts := SplitOn(s, '-');
    if |parts| < 3 then None
    else match (NumberOf(parts[0]), NumberOf(parts[1]), NumberOf(parts[2]))
      case (Some(y), Some(m), Some(d)) => Some(LocalMidnight(y, m, d))
      case _ => None
  }

  /** `YYYY-MM-DD`, the form in which dates travel between the pages and the service. */
  function IsoDateText(c: CivilDate): string
    requires c.year >= 0 && c.month >= 0 && c.day >= 0
  {
    PadZeros(DecimalString(c.year), 4) + "-" + PadZeros(DecimalString(c.month), 2)
    + "-" + PadZeros(DecimalString(c.day), 2)
  }

  lemma PaddedValue(n: nat, w: nat)
    ensures AllDigits(PadZeros(DecimalString(n), w))
    ensures '-' !in PadZeros(DecimalString(n), w)
    ensures DecimalValue(PadZeros(DecimalString(n), w)) == n
  {
    var s := DecimalString(n);
    DecimalRoundTrip(n);
    if |s| < w {
      LeadingZerosValue(w - |s|, s);
    }
    var p := PadZeros(s, w);
    assert forall i :: 0 <= i < |p| ==> p[i] != '-';
  }

  /**
   * `parseLocalDate` of a date written as `YYYY-MM-DD` is local midnight of
   * exactly that year, month and day (with years 0..99 read as 1900..1999,
   * as the `Date` constructor does).
   */
  lemma ParseLocalDateOfIsoText(c: CivilDate)
    requires c.year >= 0 && c.month >= 0 && c.day >= 0
    ensures ParseLocalDate(IsoDateText(c)) == Some(LocalMidnight(c.year, c.month, c.day))
  {
    var ys := PadZeros(DecimalString(c.year), 4);
    var ms := PadZeros(DecimalString(c.month), 2);
    var ds := PadZeros(DecimalString(c.day), 2);
    PaddedValue(c.year, 4);
    PaddedValue(c.month, 2);
    PaddedValue(c.day, 2);
    assert IsoDateText(c) == ys + ['-'] + ms + ['-'] + ds;
    SplitOnThree(ys, ms, ds, '-');
  }

  /** Two different real dates written as `YYYY-MM-DD` never parse to the same day. */
  lemma ParseLocalDateDistinguishesDates(a: CivilDate, b: CivilDate)
    requires ValidDate(a) && ValidDate(b) && a.year >= 100 && b.year >= 100
    requires a != b
    ensures ParseLocalDate(IsoDateText(a)) != ParseLocalDate(IsoDateText(b))
  {
    ParseLocalDateOfIsoText(a);
    ParseLocalDateOfIsoText(b);
    LocalMidnightOrder(a, b);
  }

  /**
   * Years 0..99 are read as 1900..1999, so such a date and the same date a
   * 1900 years later parse to the same day: `0024-05-01` is `1924-05-01`.
   */
  lemma EarlyYearsCollide(c: CivilDate)
    requires 0 <= c.year <= 99 && c.month >= 0 && c.day >= 0
    ensures c != c.(year := c.year + 1900)
    ensures ParseLocalDate(IsoDateText(c)) == ParseLocalDate(IsoDateText(c.(year := c.year + 1900)))
  {
    var d := c.(year := c.year + 1900);
    assert FullYear(c.year) == FullYear(d.year);
    assert LocalMidnight(c.year, c.month, c.day) == LocalMidnight(d.year, d.month, d.day);
    ParseLocalDateOfIsoText(c);
    ParseLocalDateOfIsoText(d);
  }

  // ----- Conflict check and availability -----

  /** Booking `a` takes time `time` on day `date`: every booking does when `activeOnly` is false, only active ones otherwise. */
  predicate Holds(a: Appointment, date: Day, time: string, activeOnly: bool)
  {
    a.date == date && a.time == time && (activeOnly ==> IsActive(a.status))
  }

  ghost predicate SlotHeld(c: seq<Appointment>, date: Day, time: string, activeOnly: bool)
  {
    exists i :: 0 <= i < |c| && Holds(c[i], date, time, activeOnly)
  }

  predicate Conflicts(a: Appointment, date: Day, time: string, excludeId: Option<Id>)
  {
    Holds(a, date, time, true) && (excludeId.None? || a.id != excludeId.value)
  }

  /**
   * `Appointment.checkTimeConflict(date, time, excludeId)`: some record on
   * the same day, at the same time, pending or confirmed, other than `excludeId`.
   */
  function CheckTimeConflict(c: seq<Appointment>, date: Day, time: string, excludeId: Option<Id>): (r: bool)
    ensures r <==> exists i :: 0 <= i < |c| && Conflicts(c[i], date, time, excludeId)
  {
    if |c| == 0 then false
    else Conflicts(c[0], date, time, excludeId) || CheckTimeConflict(c[1..], date, time, excludeId)
  }

  /** The times of the bookings that take a slot on `date`: `occupiedTimes.map(apt => apt.time)`. */
  function OccupiedTimes(c: seq<Appointment>, date: Day, activeOnly: bool): (r: seq<string>)
    ensures forall t :: t in r <==> SlotHeld(c, date, t, activeOnly)
  {
    if |c| == 0 then []
    else
      var rest := OccupiedTimes(c[1..], date, activeOnly);
      assert forall t :: SlotHeld(c, date, t, activeOnly) <==>
        Holds(c[0], date, t, activeOnly) || SlotHeld(c[1..], date, t, activeOnly) by {
        forall t ensures SlotHeld(c, date, t, activeOnly) <==>
          Holds(c[0], date, t, activeOnly) || SlotHeld(c[1..], date, t, activeOnly) {
          if SlotHeld(c[1..], date, t, activeOnly) {
            var i :| 0 <= i < |c| - 1 && Holds(c[1..][i], date, t, activeOnly);
            assert Holds(c[i + 1], date, t, activeOnly);
          }
          if SlotHeld(c, date, t, activeOnly) && !Holds(c[0], date, t, activeOnly) {
            var i :| 0 <= i < |c| && Holds(c[i], date, t, activeOnly);
            assert Holds(c[1..][i - 1], date, t, activeOnly);
          }
        }
      }
      if Holds(c[0], date, c[0].time, activeOnly) then [c[0].time] + rest else rest
  }

  /** The template minus the occupied times, in template order. */
  function FreeTimes(c: seq<Appointment>, date: Day, activeOnly: bool): (r: seq<string>)
    ensures Subseq(r, SlotTemplate)
    ensures forall t :: t in r <==> t in SlotTemplate && !SlotHeld(c, date, t, activeOnly)
  {
    var occupied := OccupiedTimes(c, date, activeOnly);
    Filter(SlotTemplate, t => t !in occupied)
  }

  /**
   * `Appointment.getAvailableTimes(date)`: the template times that no pending
   * or confirmed booking takes on that day, in template order.
   */
  function AvailableTimes(c: seq<Appointment>, date: Day): (r: seq<string>)
    ensures Subseq(r, SlotTemplate)
    ensures forall t :: t in r <==> t in SlotTemplate && !SlotHeld(c, date, t, true)
  {
    FreeTimes(c, date, true)
  }

  /** A template time is offered exactly when booking it would not conflict: browsing and booking agree. */
  lemma AvailableIffNoConflict(c: seq<Appointment>, date: Day, time: string)
    requires time in SlotTemplate
    ensures time in AvailableTimes(c, date) <==> !CheckTimeConflict(c, date, time, None)
  {
    if CheckTimeConflict(c, date, time, None) {
      var i :| 0 <= i < |c| && Conflicts(c[i], date, time, None);
      assert Holds(c[i], date, time, true);
    }
    if SlotHeld(c, date, time, true) {
      var i :| 0 <= i < |c| && Holds(c[i], date, time, true);
      assert Conflicts(c[i], date, time, None);
    }
  }

  /** Cancelled bookings never take a slot: adding one leaves the available times unchanged. */
  lemma CancelledNeverBlocks(c: seq<Appointment>, a: Appointment, date: Day)
    requires a.status == Cancelled
    ensures AvailableTimes(c + [a], date) == AvailableTimes(c, date)
  {
    var o1 := OccupiedTimes(c + [a], date, true);
    var o2 := OccupiedTimes(c, date, true);
    forall t
      ensures t in o1 <==> t in o2
    {
      if SlotHeld(c + [a], date, t, true) {
        var i :| 0 <= i < |c| + 1 && Holds((c + [a])[i], date, t, true);
        assert i < |c| && Holds(c[i], date, t, true);
      }
      if SlotHeld(c, date, t, true) {
        var i :| 0 <= i < |c| && Holds(c[i], date, t, true);
        assert Holds((c + [a])[i], date, t, true);
      }
    }
    FilterSame(SlotTemplate, t => t !in o1, t => t !in o2);
  }

  lemma SlotTemplateShape()
    ensures |SlotTemplate| == 13
    ensures Distinct(SlotTemplate)
    ensures forall i :: 0 <= i < |SlotTemplate| ==> TimeFormatOk(SlotTemplate[i])
  {
  }
}

=== FILE: auth.dfy ===
/**
 * The account service of `backend/services/authService.js`. The users
 * collection is a sequence; bcrypt's comparison of a candidate with the stored
 * hash is the parameter `matches`, and hashing on save is not modelled (the
 * stored `password` stands for whatever the hook derives from it). The clock
 * is the parameter `now` and token signing is left out.
 */
module Auth {
  import opened Wrappers
  import opened Text
  import opened Seqs

  datatype User = User(
    id: nat,
    username: string,
    password: string,
    role: string,
    isActive: bool,
    lastLogin: Option<int>)

  datatype AuthError =
    | BadCredentials     // 'Credenciales incorrectas'
    | InvalidUser        // 'Usuario no válido o inactivo'
    | UserNotFound       // 'Usuario no encontrado'
    | WrongPassword      // 'Contraseña actual incorrecta'
    | AdminExists        // 'Ya existe un usuario administrador'
    | UsernameTaken      // 'El nombre de usuario ya existe', and the unique index on save
    | SchemaRejected     // the ValidationError `save()` throws when a length rule fails

  /** The part of a user the service returns: never the password. */
  datatype Profile = Profile(id: nat, username: string, role: string, lastLogin: Option<int>)

  function ProfileOf(u: User): Profile
  {
    Profile(u.id, u.username, u.role, u.lastLogin)
  }

  function UserIds(us: seq<User>): seq<nat>
  {
    Project(us, (u: User) => u.id)
  }

  /** The User schema's `minlength` and `maxlength` for the username: 3 to 30 characters. */
  predicate UsernameOk(name: string)
  {
    3 <= |name| <= 30
  }

  /**
   * The User schema's `minlength` for the password: at least 6 characters.
   * Validation runs before the hashing hook, so it applies to the password as
   * supplied; a stored hash always passes it.
   */
  predicate PasswordOk(password: string)
  {
    |password| >= 6
  }

  /**
   * What the schema and the unique index keep: ids and usernames are unique,
   * usernames are lower-case and of a valid length.
   */
  ghost predicate Accounts(us: seq<User>)
  {
    && (forall i, j :: 0 <= i < j < |us| ==> us[i].id != us[j].id)
    && (forall i, j :: 0 <= i < j < |us| ==> us[i].username != us[j].username)
    && (forall i :: 0 <= i < |us| ==> ToLower(us[i].username) == us[i].username)
    && (forall i :: 0 <= i < |us| ==> UsernameOk(us[i].username))
  }

  /** `User.findById`. */
  function FindUser(us: seq<User>, id: nat): (r: Option<nat>)
    ensures r.None? <==> id !in UserIds(us)
    ensures r.Some? ==> r.value < |us| && us[r.value].id == id
  {
    var k := IndexWhere(us, (u: User) => u.id == id);
    if k.None? then
      assert forall i :: 0 <= i < |us| ==> UserIds(us)[i] != id;
      None
    else
      k
  }

  // ----- Login and token check -----

  datatype LoginResult = LoginResult(users: seq<User>, profile: Profile)

  /**
   * `login`: the username is lower-cased before the lookup; an unknown user,
   * an inactive one and a wrong password all fail with the same error; a
   * successful login records `now` as the last login.
   */
  function Login(us: seq<User>, username: string, password: string, matches: (string, string) -> bool, now: int)
    : (r: Result<LoginResult, AuthError>)
    ensures r.Err? ==> r.error == BadCredentials
    ensures r.Ok? ==> exists k :: 0 <= k < |us| && us[k].username == ToLower(username) && us[k].isActive
                        && matches(password, us[k].password)
                        && r.value.users == us[k := us[k].(lastLogin := Some(now))]
                        && r.value.profile == ProfileOf(us[k].(lastLogin := Some(now)))
  {
    match IndexWhere(us, (u: User) => u.username == ToLower(username))
    case None => Err(BadCredentials)
    case Some(k) =>
      var u := us[k];
      if !u.isActive || !matches(password, u.password) then Err(BadCredentials)
      else
        var v := u.(lastLogin := Some(now));
        Ok(LoginResult(us[k := v], ProfileOf(v)))
  }

  /** On well-formed accounts, login succeeds exactly for an active user of that name whose password matches. */
  lemma LoginSucceedsIff(us: seq<User>, username: string, password: string, matches: (string, string) -> bool, now: int)
    requires Accounts(us)
    ensures Login(us, username, password, matches, now).Ok? <==>
              exists k :: 0 <= k < |us| && us[k].username == ToLower(username) && us[k].isActive
                          && matches(password, us[k].password)
  {
    if exists k :: 0 <= k < |us| && us[k].username == ToLower(username) && us[k].isActive
                   && matches(password, us[k].password) {
      var k :| 0 <= k < |us| && us[k].username == ToLower(username) && us[k].isActive
               && matches(password, us[k].password);
      var f := IndexWhere(us, (u: User) => u.username == ToLower(username));
      assert f.Some? && f.value <= k;
      assert us[f.value].username == us[k].username;
    }
  }

  /** The username typed with any capitalisation reaches the same account. */
  lemma LoginIgnoresCase(us: seq<User>, username: string, password: string, matches: (string, string) -> bool, now: int)
    ensures Login(us, username, password, matches, now) == Login(us, ToLower(username), password, matches, now)
  {
    ToLowerIdempotent(username);
  }

  /** `verifyToken`: the profile of an existing, active user. */
  function VerifyToken(us: seq<User>, id: nat): (r: Result<Profile, AuthError>)
    ensures r.Err? ==> r.error == InvalidUser
    ensures r.Ok? ==> exists k :: 0 <= k < |us| && us[k].id == id && us[k].isActive && r.value == ProfileOf(us[k])
  {
    match FindUser(us, id)
    case None => Err(InvalidUser)
    case Some(k) => if us[k].isActive then Ok(ProfileOf(us[k])) else Err(InvalidUser)
  }

  /** On well-formed accounts, the token check passes exactly for an existing, active user. */
  lemma VerifyTokenIff(us: seq<User>, id: nat)
    requires Accounts(us)
    ensures VerifyToken(us, id).Ok? <==> exists k :: 0 <= k < |us| && us[k].id == id && us[k].isActive
  {
    if exists k :: 0 <= k < |us| && us[k].id == id && us[k].isActive {
      var k :| 0 <= k < |us| && us[k].id == id && us[k].isActive;
      assert UserIds(us)[k] == id;
      var f := FindUser(us, id).value;
      assert us[f].id == us[k].id;
    }
  }

  // ----- Account changes -----

  /**
   * `changePassword`: the current password must match; then it is replaced.
   * The route validates nothing, so a new password under six characters
   * reaches `save()`, whose validators refuse it (and re-check the username).
   */
  function ChangePassword(us: seq<User>, id: nat, current: string, next: string, matches: (string, string) -> bool)
    : (r: Result<seq<User>, AuthError>)
    ensures r == Err(UserNotFound) <==> id !in UserIds(us)
    ensures r == Err(WrongPassword) <==> id in UserIds(us) && !matches(current, us[FindUser(us, id).value].password)
    ensures r == Err(SchemaRejected) <==>
              id in UserIds(us) && matches(current, us[FindUser(us, id).value].password)
              && !(PasswordOk(next) && UsernameOk(us[FindUser(us, id).value].username))
    ensures r.Err? ==> r.error in {UserNotFound, WrongPassword, SchemaRejected}
    ensures r.Ok? ==> PasswordOk(next)
    ensures r.Ok? ==> exists k :: 0 <= k < |us| && us[k].id == id && matches(current, us[k].password)
                        && r.value == us[k := us[k].(password := next)]
  {
    match FindUser(us, id)
    case None => Err(UserNotFound)
    case Some(k) =>
      if !matches(current, us[k].password) then Err(WrongPassword)
      else if !(PasswordOk(next) && UsernameOk(us[k].username)) then Err(SchemaRejected)
      else Ok(us[k := us[k].(password := next)])
  }

  /** A new password under six characters is never stored, whatever the current one. */
  lemma ShortPasswordIsRefused(us: seq<User>, id: nat, current: string, next: string, matches: (string, string) -> bool)
    requires |next| < 6
    ensures ChangePassword(us, id, current, next, matches).Err?
  {
  }

  predicate IsAdmin(u: User)
  {
    u.role == "admin"
  }

  /**
   * `createUser`: refused once any administrator exists; otherwise one active
   * administrator with the lower-cased username is saved. The schema's length
   * rules are checked first, then the unique index refuses a username already
   * in use.
   */
  function CreateUser(us: seq<User>, username: string, password: string): (r: Result<seq<User>, AuthError>)
    ensures r == Err(AdminExists) <==> exists i :: 0 <= i < |us| && IsAdmin(us[i])
    ensures r == Err(SchemaRejected) <==>
              (forall i :: 0 <= i < |us| ==> !IsAdmin(us[i]))
              && !(UsernameOk(username) && PasswordOk(password))
    ensures r == Err(UsernameTaken) <==>
              (forall i :: 0 <= i < |us| ==> !IsAdmin(us[i]))
              && UsernameOk(username) && PasswordOk(password)
              && exists i :: 0 <= i < |us| && us[i].username == ToLower(username)
    ensures r.Err? ==> r.error in {AdminExists, SchemaRejected, UsernameTaken}
    ensures r.Ok? ==> |r.value| == |us| + 1 && r.value[..|us|] == us
    ensures r.Ok? ==> var u := r.value[|us|];
                      u.username == ToLower(username) && u.password == password && IsAdmin(u) && u.isActive
                      && u.id !in UserIds(us) && UsernameOk(u.username) && PasswordOk(password)
  {
    if IndexWhere(us, IsAdmin).Some? then Err(AdminExists)
    else if !(UsernameOk(ToLower(username)) && PasswordOk(password)) then Err(SchemaRejected)
    else if IndexWhere(us, (u: User) => u.username == ToLower(username)).Some? then Err(UsernameTaken)
    else Ok(us + [User(NextId(UserIds(us)), ToLower(username), password, "admin", true, None)])
  }

  /** After a successful `createUser` there is exactly one administrator, and a second call is refused. */
  lemma CreateUserMakesTheOnlyAdmin(us: seq<User>, username: string, password: string, username2: string, password2: string)
    requires CreateUser(us, username, password).Ok?
    ensures CountWhere(CreateUser(us, username, password).value, IsAdmin) == 1
    ensures CreateUser(CreateUser(us, username, password).value, username2, password2) == Err(AdminExists)
  {
    var r := CreateUser(us, username, password).value;
    assert r == us + [r[|us|]];
    FilterAppend(us, [r[|us|]], IsAdmin);
    assert Filter(us, IsAdmin) == [] by {
      assert forall x :: x in Filter(us, IsAdmin) ==> x in us && IsAdmin(x);
    }
    assert IsAdmin(r[|us|]);
  }

  lemma CreateUserPreservesAccounts(us: seq<User>, username: string, password: string)
    requires Accounts(us)
    requires CreateUser(us, username, password).Ok?
    ensures Accounts(CreateUser(us, username, password).value)
  {
    var r := CreateUser(us, username, password).value;
    ToLowerIdempotent(username);
    forall i | 0 <= i < |us|
      ensures r[i].id != r[|us|].id && r[i].username != r[|us|].username
    {
      assert UserIds(us)[i] == us[i].id;
    }
  }

  /**
   * `updateUser`: a supplied username that differs from the stored one must
   * not belong to another user once lower-cased, and is stored lower-cased; a
   * supplied role replaces the role; `isActive` changes only when a boolean is
   * supplied. The route validates nothing, so the username's length rule is
   * left to `save()`.
   */
  function UpdateUser(us: seq<User>, id: nat, username: Option<string>, role: Option<string>, isActive: Option<bool>)
    : (r: Result<seq<User>, AuthError>)
    ensures r == Err(UserNotFound) <==> id !in UserIds(us)
    ensures r == Err(UsernameTaken) <==>
              id in UserIds(us) && NewName(us[FindUser(us, id).value], username)
              && exists j :: 0 <= j < |us| && us[j].id != id && us[j].username == ToLower(username.value)
    ensures r == Err(SchemaRejected) <==>
              id in UserIds(us)
              && !(NewName(us[FindUser(us, id).value], username)
                   && exists j :: 0 <= j < |us| && us[j].id != id && us[j].username == ToLower(username.value))
              && !UsernameOk(Updated(us[FindUser(us, id).value], username, role, isActive).username)
    ensures r.Err? ==> r.error in {UserNotFound, UsernameTaken, SchemaRejected}
    ensures r.Ok? ==> exists k :: 0 <= k < |us| && us[k].id == id && r.value == us[k := Updated(us[k], username, role, isActive)]
                        && UsernameOk(r.value[k].username)
  {
    match FindUser(us, id)
    case None => Err(UserNotFound)
    case Some(k) =>
      var u := us[k];
      if NewName(u, username)
         && IndexWhere(us, (w: User) => w.id != id && w.username == ToLower(username.value)).Some? then
        Err(UsernameTaken)
      else if !UsernameOk(Updated(u, username, role, isActive).username) then
        Err(SchemaRejected)
      else
        Ok(us[k := Updated(u, username, role, isActive)])
  }

  /** A new username under three characters is never stored. */
  lemma ShortUsernameIsRefused(us: seq<User>, id: nat, username: string, role: Option<string>, isActive: Option<bool>)
    requires 0 < |username| < 3
    ensures UpdateUser(us, id, Some(username), role, isActive).Err?
  {
  }

  /** A username is being changed: it is a non-empty string different from the stored one. */
  predicate NewName(u: User, username: Option<string>)
  {
    username.Some? && username.value != "" && username.value != u.username
  }

  /** The user after the supplied fields are applied. */
  function Updated(u: User, username: Option<string>, role: Option<string>, isActive: Option<bool>): (r: User)
    ensures r.id == u.id && r.password == u.password && r.lastLogin == u.lastLogin
    ensures r.username == if NewName(u, username) then ToLower(username.value) else u.username
    ensures r.role == if role.Some? && role.value != "" then role.value else u.role
    ensures r.isActive == if isActive.Some? then isActive.value else u.isActive
  {
    User(u.id,
         if NewName(u, username) then ToLower(username.value) else u.username,
         u.password,
         if role.Some? && role.value != "" then role.value else u.role,
         if isActive.Some? then isActive.value else u.isActive,
         u.lastLogin)
  }

  /** Replacing one user by another with the same id and a lower-case username no other user has keeps the accounts well formed. */
  lemma ReplacePreservesAccounts(us: seq<User>, k: nat, v: User)
    requires Accounts(us)
    requires k < |us| && v.id == us[k].id && ToLower(v.username) == v.username && UsernameOk(v.username)
    requires forall j :: 0 <= j < |us| && j != k ==> us[j].username != v.username
    ensures Accounts(us[k := v])
  {
  }

  /** A successful `updateUser` on well-formed accounts keeps usernames unique and lower-case. */
  lemma UpdateUserPreservesAccounts(us: seq<User>, id: nat, username: Option<string>, role: Option<string>, isActive: Option<bool>)
    requires Accounts(us)
    requires UpdateUser(us, id, username, role, isActive).Ok?
    ensures Accounts(UpdateUser(us, id, username, role, isActive).value)
  {
    var r := UpdateUser(us, id, username, role, isActive).value;
    var k :| 0 <= k < |us| && us[k].id == id && r == us[k := Updated(us[k], username, role, isActive)];
    var v := Updated(us[k], username, role, isActive);
    assert FindUser(us, id) == Some(k);
    if NewName(us[k], username) {
      ToLowerIdempotent(username.value);
      forall j | 0 <= j < |us| && j != k
        ensures us[j].username != v.username
      {
        assert us[j].id != id;
      }
    }
    ReplacePreservesAccounts(us, k, v);
  }

  /** `deactivateUser` and `reactivateUser`: the flag of that user is set and nothing else changes. */
  function SetActive(us: seq<User>, id: nat, active: bool): (r: Result<seq<User>, AuthError>)
    ensures r.Err? <==> id !in UserIds(us)
    ensures r.Err? ==> r.error == UserNotFound
    ensures r.Ok? ==> |r.value| == |us|
    ensures r.Ok? ==> forall i :: 0 <= i < |us| ==>
                        r.value[i] == if us[i].id == id && FindUser(us, id) == Some(i) then us[i].(isActive := active) else us[i]
  {
    match FindUser(us, id)
    case None => Err(UserNotFound)
    case Some(k) => Ok(us[k := us[k].(isActive := active)])
  }

  /** Changing a password or the active flag keeps the accounts well formed. */
  lemma PasswordAndFlagChangesPreserveAccounts(us: seq<User>, id: nat, current: string, next: string, matches: (string, string) -> bool, active: bool)
    requires Accounts(us)
    ensures ChangePassword(us, id, current, next, matches).Ok? ==> Accounts(ChangePassword(us, id, current, next, matches).value)
    ensures SetActive(us, id, active).Ok? ==> Accounts(SetActive(us, id, active).value)
  {
    if id in UserIds(us) {
      var k := FindUser(us, id).value;
      ReplacePreservesAccounts(us, k, us[k].(password := next));
      ReplacePreservesAccounts(us, k, us[k].(isActive := active));
    }
  }

  function DeactivateUser(us: seq<User>, id: nat): (r: Result<seq<User>, AuthError>)
    ensures r.Ok? ==> forall i :: 0 <= i < |r.value| && r.value[i].id == id && FindUser(us, id) == Some(i) ==> !r.value[i].isActive
  {
    SetActive(us, id, false)
  }

  function ReactivateUser(us: seq<User>, id: nat): (r: Result<seq<User>, AuthError>)
    ensures r.Ok? ==> forall i :: 0 <= i < |r.value| && r.value[i].id == id && FindUser(us, id) == Some(i) ==> r.value[i].isActive
  {
    SetActive(us, id, true)
  }

  /** A deactivated user can no longer log in or pass the token check; reactivating restores both. */
  lemma DeactivatedUserIsLockedOut(us: seq<User>, id: nat, username: string, password: string, matches: (string, string) -> bool, now: int)
    requires Accounts(us)
    requires DeactivateUser(us, id).Ok?
    ensures VerifyToken(DeactivateUser(us, id).value, id).Err?
    ensures forall k :: 0 <= k < |us| && us[k].id == id && us[k].username == ToLower(username) ==>
              Login(DeactivateUser(us, id).value, username, password, matches, now).Err?
  {
    var r := DeactivateUser(us, id).value;
    var k := FindUser(us, id).value;
    assert UserIds(r) == UserIds(us);
    assert FindUser(r, id) == Some(k) by {
      assert forall i :: 0 <= i < k ==> r[i] == us[i];
    }
    assert !r[k].isActive;
    forall j | 0 <= j < |us| && us[j].id == id && us[j].username == ToLower(username)
      ensures Login(r, username, password, matches, now).Err?
    {
      assert j == k;
      assert Accounts(r);
      LoginSucceedsIff(r, username, password, matches, now);
    }
  }

  // ----- Statistics -----

  datatype UserStats = UserStats(total: nat, active: nat, inactive: int, byRole: map<string, nat>)

  predicate Active(u: User)
  {
    u.isActive
  }

  /** How many users have the role `r`. */
  function RoleCount(us: seq<User>, r: string): nat
    decreases |us|
  {
    if us == [] then 0 else (if us[0].role == r then 1 else 0) + RoleCount(us[1..], r)
  }

  /** The `$group` by role: each role in use, with how many users have it. */
  function ByRole(us: seq<User>): (m: map<string, nat>)
    ensures forall r :: r in m <==> exists i :: 0 <= i < |us| && us[i].role == r
    ensures forall r :: r in m ==> m[r] == RoleCount(us, r)
    decreases |us|
  {
    if us == [] then map[]
    else
      var rest := ByRole(us[1..]);
      var role := us[0].role;
      assert forall r :: r in rest || r == role <==> exists i :: 0 <= i < |us| && us[i].role == r by {
        forall r | exists i :: 0 <= i < |us| && us[i].role == r
          ensures r in rest || r == role
        {
          var i :| 0 <= i < |us| && us[i].role == r;
          if i > 0 {
            assert us[1..][i - 1].role == r;
          }
        }
      }
      assert role !in rest ==> RoleCount(us[1..], role) == 0 by {
        if role !in rest {
          RoleCountAbsent(us[1..], role);
        }
      }
      rest[role := (if role in rest then rest[role] else 0) + 1]
  }

  /** A role no user has is counted zero times. */
  lemma {:induction false} RoleCountAbsent(us: seq<User>, r: string)
    requires forall i :: 0 <= i < |us| ==> us[i].role != r
    ensures RoleCount(us, r) == 0
    decreases |us|
  {
    if us != [] {
      RoleCountAbsent(us[1..], r);
    }
  }

  /** `getUserStats`. */
  function GetUserStats(us: seq<User>): (s: UserStats)
    ensures s.total == |us|
    ensures s.active == CountWhere(us, Active)
    ensures s.inactive == CountWhere(us, (u: User) => !u.isActive)
    ensures s.active + s.inactive == s.total
  {
    CountPartition(us, Active, (u: User) => !u.isActive);
    var active := CountWhere(us, Active);
    UserStats(|us|, active, |us| - active, ByRole(us))
  }
}

=== FILE: booking_form.dfy ===
/**
 * The patient-facing booking form of
 * `frontend/src/pages/AppointmentBooking/AppointmentBooking.jsx`: the date
 * picker's rules, date selection, the phone auto-formatter and the
 * client-side validation. The picker's `dayjs()` is the parameter `today`;
 * the server's answer to the request for a day's free times is the parameter
 * `response`, `None` when the request throws.
 */
module BookingForm {
  import opened Wrappers
  import opened Text
  import opened Seqs
  import opened Calendar
  import opened AppointmentModel
  import Scheduler

  // ----- Date picker -----

  /** `shouldDisableDate`: weekends, days before today and days after today + 14 are greyed out. */
  predicate ShouldDisableDate(d: Day, today: Day)
  {
    IsWeekend(d) || d < today || d > today + HorizonLength
  }

  /** The picker offers a day when `shouldDisableDate` allows it and it lies between `minDate` (tomorrow) and `maxDate`. */
  predicate Selectable(d: Day, today: Day)
  {
    !ShouldDisableDate(d, today) && today + 1 <= d <= today + HorizonLength
  }

  /**
   * The days `shouldDisableDate` leaves enabled are exactly the days the
   * service enumerates in `getAvailableDates`.
   */
  lemma EnabledDaysAreTheHorizon(today: Day)
    ensures forall d :: !ShouldDisableDate(d, today) <==> d in HorizonDays(today)
  {
    HorizonDaysSpec(today);
    forall d
      ensures !ShouldDisableDate(d, today) <==> d in HorizonDays(today)
    {
      BusinessDayIsNotWeekend(d);
    }
  }

  /** Every day the picker offers passes the schema's "at least tomorrow" rule and the service's single-day check. */
  lemma SelectableDaysAreBookable(c: seq<Appointment>, d: Day, today: Day)
    requires Selectable(d, today)
    ensures AtLeastTomorrow(d, today)
    ensures Scheduler.AvailableTimesFor(c, d, today).Ok?
  {
    BusinessDayIsNotWeekend(d);
  }

  // ----- Form state -----

  datatype FormData = FormData(
    patientName: string,
    patientLastName: string,
    phone: string,
    email: string,
    insuranceProvider: string,
    date: Option<Day>,
    time: string,
    notes: string)

  datatype FormState = FormState(form: FormData, selectedDate: Option<Day>, availableTimes: seq<string>)

  /**
   * The answer to the free-times request for one day: the `success` flag and
   * the list. A request that throws (network failure, an error status) is `None`.
   */
  datatype TimesResponse = TimesResponse(success: bool, availableTimes: seq<string>)

  /**
   * `getAvailableTimesForDate` of `useAppointmentData`: the list when the
   * answer reports success, and `[]` when it does not or the request throws;
   * it never throws itself.
   */
  function GetAvailableTimesForDate(response: Option<TimesResponse>): (r: seq<string>)
    ensures response.Some? && response.value.success ==> r == response.value.availableTimes
    ensures response.None? || !response.value.success ==> r == []
  {
    match response
    case Some(TimesResponse(true, times)) => times
    case _ => []
  }

  /**
   * `handleDateSelect`: a weekend clears the date and the time; a weekday
   * becomes the date, with the time reset and the list of times fetched. The
   * fetch never throws, so a failed request only shows an empty list.
   */
  function HandleDateSelect(st: FormState, date: Option<Day>, response: Option<TimesResponse>): (r: FormState)
    ensures date.None? ==> r == st
    ensures date.Some? && IsWeekend(date.value) ==>
              r.form.date.None? && r.form.time == "" && r.selectedDate.None? && r.availableTimes == []
    ensures date.Some? && !IsWeekend(date.value) ==>
              r.form.date == date && r.form.time == "" && r.selectedDate == date
    ensures date.Some? && !IsWeekend(date.value) && response.Some? && response.value.success ==>
              r.availableTimes == response.value.availableTimes
    ensures date.Some? && (response.None? || !response.value.success) ==> r.availableTimes == []
    ensures r.form == st.form.(date := r.form.date, time := r.form.time)
  {
    match date
    case None => st
    case Some(d) =>
      if !IsWeekend(d) then
        var times := GetAvailableTimesForDate(response);
        FormState(st.form.(date := Some(d), time := ""), Some(d), times)
      else
        FormState(st.form.(date := None, time := ""), None, [])
  }

  /** After any selection the form's date, when set, is a weekday and its time is empty, whatever the request answered. */
  lemma SelectedDateIsWeekday(st: FormState, date: Option<Day>, response: Option<TimesResponse>)
    requires date.Some?
    ensures var r := HandleDateSelect(st, date, response);
            && (r.form.date.Some? ==> !IsWeekend(r.form.date.value)) && r.form.time == ""
            && (r.form.date.Some? <==> !IsWeekend(date.value))
  {
  }

  // ----- Phone formatter -----

  /** `numbers.startsWith(prefix)` for a two-digit prefix. */
  predicate StartsWith2(d: string, a: char, b: char)
  {
    |d| >= 2 && d[0] == a && d[1] == b
  }

  predicate Plus54(d: string)
  {
    StartsWith2(d, '5', '4')
  }

  predicate Local(d: string)
  {
    StartsWith2(d, '1', '1') || StartsWith2(d, '1', '5')
  }

  function Min(a: nat, b: nat): nat
  {
    if a <= b then a else b
  }

  function Sp(a: string, b: string): string { a + " " + b }
  function Dash(a: string, b: string): string { a + "-" + b }

  /** The digits the formatter keeps: twelve for `+54`, ten for `11` and `15`, all of them otherwise. */
  function KeptDigits(d: string): nat
  {
    if Plus54(d) then Min(|d|, 12) else if Local(d) then Min(|d|, 10) else |d|
  }

  /** The layout the formatter gives the digit string `d`. */
  function Layout(d: string): string
    requires |d| > 0
  {
    if Plus54(d) then
      if |d| <= 2 then "+" + d
      else if |d| <= 4 then "+" + Sp(d[..2], d[2..])
      else if |d| <= 8 then "+" + Sp(Sp(d[..2], d[2..4]), d[4..])
      else "+" + Dash(Sp(Sp(d[..2], d[2..4]), d[4..8]), d[8..Min(|d|, 12)])
    else if Local(d) then
      if |d| <= 2 then d
      else if |d| <= 6 then Sp(d[..2], d[2..])
      else Dash(Sp(d[..2], d[2..6]), d[6..Min(|d|, 10)])
    else d
  }

  /**
   * The phone branch of `handleInputChange`: characters other than digits,
   * whitespace, `-`, `+`, `(` and `)` are dropped; once there is a digit the
   * value is replaced by the digits laid out as an Argentine number.
   */
  function FormatPhone(value: string): (r: string)
    ensures forall i :: 0 <= i < |r| ==> IsPhoneChar(r[i])
    ensures DigitsOnly(r) == DigitsOnly(value)[..KeptDigits(DigitsOnly(value))]
    ensures Plus54(DigitsOnly(value)) ==> |r| > 0 && r[0] == '+'
  {
    var kept := Filter(value, IsPhoneChar);
    var d := DigitsOnly(kept);
    DigitsOfPhoneChars(value);
    if |d| == 0 then kept
    else
      LayoutShape(d);
      Layout(d)
  }

  /** Dropping the characters a phone may not hold keeps every digit. */
  lemma {:induction false} DigitsOfPhoneChars(value: string)
    ensures DigitsOnly(Filter(value, IsPhoneChar)) == DigitsOnly(value)
    decreases |value|
  {
    if |value| > 0 {
      DigitsOfPhoneChars(value[1..]);
      if IsPhoneChar(value[0]) {
        DigitsOnlyAppend([value[0]], Filter(value[1..], IsPhoneChar));
      }
    }
  }

  lemma DigitsOfSeparated(a: string, sep: char, b: string)
    requires !IsDigit(sep)
    ensures DigitsOnly(a + [sep] + b) == DigitsOnly(a) + DigitsOnly(b)
  {
    DigitsOnlyAppend(a, [sep]);
    DigitsOnlyAppend(a + [sep], b);
  }

  ghost predicate PhoneChars(s: string)
  {
    forall i :: 0 <= i < |s| ==> IsPhoneChar(s[i])
  }

  lemma PhoneCharsSeparated(a: string, sep: char, b: string)
    requires PhoneChars(a) && PhoneChars(b) && IsPhoneChar(sep)
    ensures PhoneChars(a + [sep] + b)
  {
    var s := a + [sep] + b;
    forall i | 0 <= i < |s|
      ensures IsPhoneChar(s[i])
    {
      if i < |a| {
        assert s[i] == a[i];
      } else if i > |a| {
        assert s[i] == b[i - |a| - 1];
      }
    }
  }

  /** A slice of a digit string is its own digits. */
  lemma Slice(d: string, i: nat, j: nat)
    requires AllDigits(d) && i <= j <= |d|
    ensures DigitsOnly(d[i..j]) == d[i..j]
    ensures PhoneChars(d[i..j])
  {
    DigitsOnlyOfDigits(d[i..j]);
  }

  /** The layout holds only phone characters, its digits are the kept prefix, and a `54` number starts with `+`. */
  lemma LayoutShape(d: string)
    requires AllDigits(d) && |d| > 0
    ensures PhoneChars(Layout(d))
    ensures DigitsOnly(Layout(d)) == d[..KeptDigits(d)]
    ensures Plus54(d) ==> Layout(d)[0] == '+'
  {
    var n := |d|;
    if Plus54(d) {
      if n <= 2 {
        OneGroup(d, n);
        PlusDigits(d);
        assert d[..n] == d;
      } else if n <= 4 {
        TwoGroups(d, 2, n);
        PlusDigits(Sp(d[..2], d[2..]));
        assert d[2..] == d[2..n];
      } else if n <= 8 {
        ThreeGroups(d, 2, 4, n);
        PlusDigits(Sp(Sp(d[..2], d[2..4]), d[4..]));
        assert d[4..] == d[4..n];
      } else {
        FourGroups(d, Min(n, 12));
        PlusDigits(Dash(Sp(Sp(d[..2], d[2..4]), d[4..8]), d[8..Min(n, 12)]));
      }
    } else if Local(d) {
      if n <= 2 {
        OneGroup(d, n);
        assert d[..n] == d;
      } else if n <= 6 {
        TwoGroups(d, 2, n);
        assert d[2..] == d[2..n];
      } else {
        ThreeGroupsDash(d, Min(n, 10));
      }
    } else {
      OneGroup(d, n);
      assert d[..n] == d;
    }
  }

  lemma OneGroup(d: string, n: nat)
    requires AllDigits(d) && n <= |d|
    ensures DigitsOnly(d[..n]) == d[..n] && PhoneChars(d[..n])
  {
    Slice(d, 0, n);
    assert d[..n] == d[0..n];
  }

  /** `d[..i] d[i..n]`. */
  lemma TwoGroups(d: string, i: nat, n: nat)
    requires AllDigits(d) && i <= n <= |d|
    ensures DigitsOnly(Sp(d[..i], d[i..n])) == d[..n] && PhoneChars(Sp(d[..i], d[i..n]))
  {
    OneGroup(d, i);
    Slice(d, i, n);
    SpDigits(d[..i], d[i..n]);
    assert d[..i] + d[i..n] == d[..n];
  }

  /** `d[..i] d[i..j] d[j..n]`. */
  lemma ThreeGroups(d: string, i: nat, j: nat, n: nat)
    requires AllDigits(d) && i <= j <= n <= |d|
    ensures DigitsOnly(Sp(Sp(d[..i], d[i..j]), d[j..n])) == d[..n]
    ensures PhoneChars(Sp(Sp(d[..i], d[i..j]), d[j..n]))
  {
    TwoGroups(d, i, j);
    Slice(d, j, n);
    SpDigits(Sp(d[..i], d[i..j]), d[j..n]);
    assert d[..j] + d[j..n] == d[..n];
  }

  /** `d[..2] d[2..6]-d[6..n]`. */
  lemma ThreeGroupsDash(d: string, n: nat)
    requires AllDigits(d) && 6 <= n <= |d|
    ensures DigitsOnly(Dash(Sp(d[..2], d[2..6]), d[6..n])) == d[..n]
    ensures PhoneChars(Dash(Sp(d[..2], d[2..6]), d[6..n]))
  {
    TwoGroups(d, 2, 6);
    Slice(d, 6, n);
    DashDigits(Sp(d[..2], d[2..6]), d[6..n]);
    assert d[..6] + d[6..n] == d[..n];
  }

  /** `d[..2] d[2..4] d[4..8]-d[8..n]`. */
  lemma FourGroups(d: string, n: nat)
    requires AllDigits(d) && 8 <= n <= |d|
    ensures DigitsOnly(Dash(Sp(Sp(d[..2], d[2..4]), d[4..8]), d[8..n])) == d[..n]
    ensures PhoneChars(Dash(Sp(Sp(d[..2], d[2..4]), d[4..8]), d[8..n]))
  {
    ThreeGroups(d, 2, 4, 8);
    Slice(d, 8, n);
    DashDigits(Sp(Sp(d[..2], d[2..4]), d[4..8]), d[8..n]);
    assert d[..8] + d[8..n] == d[..n];
  }

  lemma SpDigits(a: string, b: string)
    requires PhoneChars(a) && PhoneChars(b)
    ensures DigitsOnly(Sp(a, b)) == DigitsOnly(a) + DigitsOnly(b)
    ensures PhoneChars(Sp(a, b))
  {
    assert Sp(a, b) == a + [' '] + b;
    DigitsOfSeparated(a, ' ', b);
    PhoneCharsSeparated(a, ' ', b);
  }

  lemma DashDigits(a: string, b: string)
    requires PhoneChars(a) && PhoneChars(b)
    ensures DigitsOnly(Dash(a, b)) == DigitsOnly(a) + DigitsOnly(b)
    ensures PhoneChars(Dash(a, b))
  {
    assert Dash(a, b) == a + ['-'] + b;
    DigitsOfSeparated(a, '-', b);
    PhoneCharsSeparated(a, '-', b);
  }

  lemma PlusDigits(a: string)
    requires PhoneChars(a)
    ensures DigitsOnly("+" + a) == DigitsOnly(a)
    ensures PhoneChars("+" + a)
    ensures ("+" + a)[0] == '+'
  {
    assert "+" + a == [] + ['+'] + a;
    DigitsOfSeparated([], '+', a);
    PhoneCharsSeparated([], '+', a);
  }

  /** Only the kept digits matter to the layout. */
  lemma LayoutOfKept(d: string)
    requires AllDigits(d) && |d| > 0
    ensures var e := d[..KeptDigits(d)];
            |e| > 0 && KeptDigits(e) == |e| && Layout(e) == Layout(d)
  {
    var n := |d|;
    var e := d[..KeptDigits(d)];
    if Plus54(d) {
      assert Plus54(e);
      if n > 12 {
        assert |e| == 12;
        assert e[..2] == d[..2] && e[2..4] == d[2..4] && e[4..8] == d[4..8] && e[8..12] == d[8..12];
      } else {
        assert e == d;
      }
    } else if Local(d) {
      assert !Plus54(e) && Local(e);
      if n > 10 {
        assert |e| == 10;
        assert e[..2] == d[..2] && e[2..6] == d[2..6] && e[6..10] == d[6..10];
      } else {
        assert e == d;
      }
    } else {
      assert e == d;
    }
  }

  /** Formatting a formatted number changes nothing. */
  lemma FormatPhoneIdempotent(value: string)
    ensures FormatPhone(FormatPhone(value)) == FormatPhone(value)
  {
    var kept := Filter(value, IsPhoneChar);
    var d := DigitsOnly(kept);
    var r := FormatPhone(value);
    DigitsOfPhoneChars(value);
    FilterAll(r, IsPhoneChar);
    if |d| > 0 {
      LayoutShape(d);
      LayoutOfKept(d);
    }
  }

  // ----- Input changes -----

  /** The text fields `handleInputChange` is called with. */
  datatype TextField = PatientName | PatientLastName | Phone | Email | InsuranceProvider | Time | Notes

  /** A key of the `errors` object: a text field, or the date. */
  datatype ErrorKey = Input(field: TextField) | DateKey

  function Get(form: FormData, f: TextField): string
  {
    match f
    case PatientName => form.patientName
    case PatientLastName => form.patientLastName
    case Phone => form.phone
    case Email => form.email
    case InsuranceProvider => form.insuranceProvider
    case Time => form.time
    case Notes => form.notes
  }

  function Set(form: FormData, f: TextField, v: string): (r: FormData)
    ensures Get(r, f) == v
    ensures forall g :: g != f ==> Get(r, g) == Get(form, g)
    ensures r.date == form.date
  {
    match f
    case PatientName => form.(patientName := v)
    case PatientLastName => form.(patientLastName := v)
    case Phone => form.(phone := v)
    case Email => form.(email := v)
    case InsuranceProvider => form.(insuranceProvider := v)
    case Time => form.(time := v)
    case Notes => form.(notes := v)
  }

  datatype Edit = Edit(form: FormData, errors: map<ErrorKey, string>)

  /**
   * `handleInputChange`: the phone goes through the formatter, every other
   * field is stored as typed, nothing else in the form changes, and a
   * message shown for that field is cleared.
   */
  function HandleInputChange(form: FormData, errors: map<ErrorKey, string>, f: TextField, value: string): (r: Edit)
    ensures Get(r.form, f) == if f == Phone then FormatPhone(value) else value
    ensures forall g :: g != f ==> Get(r.form, g) == Get(form, g)
    ensures r.form.date == form.date
    ensures Input(f) in errors && errors[Input(f)] != "" ==> r.errors == errors[Input(f) := ""]
    ensures !(Input(f) in errors && errors[Input(f)] != "") ==> r.errors == errors
    ensures forall k :: k in errors && k != Input(f) ==> k in r.errors && r.errors[k] == errors[k]
  {
    var v := if f == Phone then FormatPhone(value) else value;
    var es := if Input(f) in errors && errors[Input(f)] != "" then errors[Input(f) := ""] else errors;
    Edit(Set(form, f, v), es)
  }

  /** Typing again what the field now shows changes neither the form nor the messages. */
  lemma RetypingShownValueChangesNothing(form: FormData, errors: map<ErrorKey, string>, f: TextField, value: string)
    ensures var r := HandleInputChange(form, errors, f, value);
            HandleInputChange(r.form, r.errors, f, Get(r.form, f)) == r
  {
    var r := HandleInputChange(form, errors, f, value);
    if f == Phone {
      FormatPhoneIdempotent(value);
    }
    SetShownValue(r.form, f);
  }

  /** Storing the value a field already holds leaves the form as it was. */
  lemma SetShownValue(form: FormData, f: TextField)
    ensures Set(form, f, Get(form, f)) == form
  {
  }

  // ----- Client-side validation -----

  /** `/\S+@\S+\.\S+/` without anchors: somewhere an `@` and a later `.` with unbroken non-space text around and between them. */
  predicate EmailSomewhere(s: string)
  {
    exists a, d | 0 < a < |s| && 0 < d < |s| :: EmailAt(s, a, d)
  }

  /** `s[a]` is the `@` and `s[d]` the `.` of such a match. */
  predicate EmailAt(s: string, a: int, d: int)
  {
    && 0 < a && a + 1 < d < |s| - 1
    && s[a] == '@' && s[d] == '.' && !IsSpace(s[a - 1]) && !IsSpace(s[d + 1])
    && forall k :: a < k < d ==> !IsSpace(s[k])
  }

  /** The phone rules of `validateForm`, in the order they are tried. */
  function PhoneError(phone: string): (r: Option<string>)
    ensures r.None? <==> PhonePatternOk(phone) && |DigitsOnly(phone)| >= 8
  {
    if AllSpace(phone) then
      AllSpaceHasNoDigits(phone);
      Some("El teléfono es requerido")
    else if !PhonePatternOk(phone) then
      Some("El teléfono solo puede contener números, espacios, guiones, paréntesis y el signo +")
    else if |DigitsOnly(phone)| < 8 then Some("El teléfono debe tener al menos 8 dígitos")
    else None
  }

  function Required(blank: bool, message: string): (r: Option<string>)
    ensures r.None? <==> !blank
  {
    if blank then Some(message) else None
  }

  function EmailError(email: string): (r: Option<string>)
    ensures r.None? <==> !AllSpace(email) && EmailSomewhere(email)
  {
    if AllSpace(email) then Some("El email es requerido")
    else if !EmailSomewhere(email) then Some("El email no es válido")
    else None
  }

  /** The keys `validateForm` may report under. */
  const FormKeys: set<ErrorKey> :=
    {Input(PatientName), Input(PatientLastName), Input(Phone), Input(Email), Input(InsuranceProvider), DateKey, Input(Time)}

  /** The message `validateForm` gives under `key`, if any. */
  function FieldMessage(form: FormData, key: ErrorKey): Option<string>
  {
    match key
    case Input(PatientName) => Required(AllSpace(form.patientName), "El nombre es requerido")
    case Input(PatientLastName) => Required(AllSpace(form.patientLastName), "El apellido es requerido")
    case Input(Phone) => PhoneError(form.phone)
    case Input(Email) => EmailError(form.email)
    case Input(InsuranceProvider) => Required(form.insuranceProvider == "", "La obra social es requerida")
    case DateKey => Required(form.date.None?, "La fecha es requerida")
    case Input(Time) => Required(form.time == "", "El horario es requerido")
    case Input(Notes) => None
  }

  /** `validateForm`: one message per failing field, the first rule of that field that fails. */
  function ValidateForm(form: FormData): (errors: map<ErrorKey, string>)
    ensures forall k :: k in errors ==> k in FormKeys
  {
    map k | k in FormKeys && FieldMessage(form, k).Some? :: FieldMessage(form, k).value
  }

  /** The name fields are reported exactly when blank. */
  lemma ValidateFormNames(form: FormData)
    ensures Input(PatientName) in ValidateForm(form) <==> AllSpace(form.patientName)
    ensures Input(PatientLastName) in ValidateForm(form) <==> AllSpace(form.patientLastName)
  {
    assert FieldMessage(form, Input(PatientName)).None? <==> !AllSpace(form.patientName);
    assert FieldMessage(form, Input(PatientLastName)).None? <==> !AllSpace(form.patientLastName);
  }

  /** The phone is reported unless it has only phone characters and at least eight digits; the e-mail unless it is filled in and well formed. */
  lemma ValidateFormContact(form: FormData)
    ensures Input(Phone) in ValidateForm(form) <==> !(PhonePatternOk(form.phone) && |DigitsOnly(form.phone)| >= 8)
    ensures Input(Email) in ValidateForm(form) <==> !(!AllSpace(form.email) && EmailSomewhere(form.email))
  {
    assert FieldMessage(form, Input(Phone)) == PhoneError(form.phone);
    assert FieldMessage(form, Input(Email)) == EmailError(form.email);
  }

  /** The provider, the date and the time are reported exactly when not chosen; the notes never are. */
  lemma ValidateFormSlot(form: FormData)
    ensures Input(InsuranceProvider) in ValidateForm(form) <==> form.insuranceProvider == ""
    ensures DateKey in ValidateForm(form) <==> form.date.None?
    ensures Input(Time) in ValidateForm(form) <==> form.time == ""
    ensures Input(Notes) !in ValidateForm(form)
  {
    assert FieldMessage(form, Input(InsuranceProvider)).None? <==> form.insuranceProvider != "";
    assert FieldMessage(form, DateKey).None? <==> form.date.Some?;
    assert FieldMessage(form, Input(Time)).None? <==> form.time != "";
  }

  /** The form submits exactly when every field passes its rule. */
  predicate FormOk(form: FormData)
  {
    && !AllSpace(form.patientName)
    && !AllSpace(form.patientLastName)
    && PhonePatternOk(form.phone) && |DigitsOnly(form.phone)| >= 8
    && !AllSpace(form.email) && EmailSomewhere(form.email)
    && form.insuranceProvider != ""
    && form.date.Some?
    && form.time != ""
  }

  lemma ValidateFormIff(form: FormData)
    ensures |ValidateForm(form)| == 0 <==> FormOk(form)
  {
    var errors := ValidateForm(form);
    ValidateFormNames(form);
    ValidateFormContact(form);
    ValidateFormSlot(form);
    if !FormOk(form) {
      assert exists k :: k in errors;
    }
  }

  /** A phone the form accepts, once trimmed, still passes the service's phone rule. */
  lemma FormPhonePassesServer(phone: string)
    requires PhonePatternOk(phone) && |DigitsOnly(phone)| >= 8
    ensures PhonePatternOk(Trim(phone))
  {
    var t := Trim(phone);
    assert |t| > 0 by {
      if |t| == 0 {
        assert AllSpace(phone);
        AllSpaceHasNoDigits(phone);
      }
    }
    TrimIsInner(phone);
  }

  lemma {:induction false} AllSpaceHasNoDigits(s: string)
    requires AllSpace(s)
    ensures DigitsOnly(s) == []
    decreases |s|
  {
    if |s| > 0 {
      AllSpaceHasNoDigits(s[1..]);
    }
  }

  /** Every character of the trimmed string is a character of the original. */
  lemma TrimIsInner(s: string)
    ensures forall i :: 0 <= i < |Trim(s)| ==> Trim(s)[i] in s
  {
    var a := TrimStart(s);
    var b := TrimEnd(a);
    assert Trim(s) == b;
    var off := |s| - |a|;
    assert a == s[off..];
    assert b == a[..|b|];
    forall i | 0 <= i < |b|
      ensures b[i] in s
    {
      assert b[i] == s[off + i];
    }
  }
}

=== FILE: calendar.dfy ===
/**
 * Local calendar days. A day is the number of days since 1970-01-01 at local
 * midnight; the time of day, time zones and daylight saving are not modelled.
 * This module holds the weekday and business-day rules, the 14-day booking
 * horizon, and the proleptic Gregorian arithmetic behind JavaScript's
 * `new Date(year, monthIndex, day)`.
 */
module Calendar {

  /** Days since 1970-01-01, local midnight. */
  type Day = int

  /** How many days past today the booking horizon reaches. */
  const HorizonLength: nat := 14

  /** `Date.prototype.getDay()`: 0 is Sunday, 6 is Saturday; 1970-01-01 was a Thursday. */
  function Weekday(d: Day): (w: int)
    ensures 0 <= w < 7
  {
    (d + 4) % 7
  }

  predicate IsWeekend(d: Day)
  {
    Weekday(d) == 0 || Weekday(d) == 6
  }

  /** Monday to Friday. */
  predicate IsBusinessDay(d: Day)
  {
    1 <= Weekday(d) <= 5
  }

  lemma BusinessDayIsNotWeekend(d: Day)
    ensures IsBusinessDay(d) <==> !IsWeekend(d)
  {
  }

  /** The business days from `from` to `to`, both included, in ascending order. */
  function BusinessDaysBetween(from: Day, to: Day): seq<Day>
    decreases to - from + 1
  {
    if from > to then []
    else if IsBusinessDay(from) then [from] + BusinessDaysBetween(from + 1, to)
    else BusinessDaysBetween(from + 1, to)
  }

  /** Exactly the business days of the range are listed, in strictly ascending order. */
  lemma {:induction false} BusinessDaysBetweenSpec(from: Day, to: Day)
    decreases to - from + 1
    ensures forall d :: d in BusinessDaysBetween(from, to) <==> from <= d <= to && IsBusinessDay(d)
    ensures forall i, j :: 0 <= i < j < |BusinessDaysBetween(from, to)| ==>
              BusinessDaysBetween(from, to)[i] < BusinessDaysBetween(from, to)[j]
  {
    if from <= to {
      var rest := BusinessDaysBetween(from + 1, to);
      BusinessDaysBetweenSpec(from + 1, to);
      forall j | 0 <= j < |rest|
        ensures rest[j] > from
      {
        assert rest[j] in rest;
      }
    }
  }

  /** The business days from `today` to `today + 14`, both included. */
  function HorizonDays(today: Day): seq<Day>
  {
    BusinessDaysBetween(today, today + HorizonLength)
  }

  /** The horizon holds exactly the business days from today to today + 14, ascending. */
  lemma HorizonDaysSpec(today: Day)
    ensures forall d :: d in HorizonDays(today) <==> today <= d <= today + HorizonLength && IsBusinessDay(d)
    ensures forall i, j :: 0 <= i < j < |HorizonDays(today)| ==> HorizonDays(today)[i] < HorizonDays(today)[j]
  {
    BusinessDaysBetweenSpec(today, today + HorizonLength);
  }

  lemma WeekdayShift(d: Day, k: nat)
    ensures Weekday(d + k) == (Weekday(d) + k) % 7
  {
  }

  lemma TakeBusinessDay(d: Day, to: Day)
    requires IsBusinessDay(d) && d <= to
    ensures BusinessDaysBetween(d, to) == [d] + BusinessDaysBetween(d + 1, to)
  {
  }

  lemma SkipWeekend(d: Day, to: Day)
    requires Weekday(d) == 6
    ensures BusinessDaysBetween(d, to) == BusinessDaysBetween(d + 2, to)
  {
    WeekdayShift(d, 1);
    if d <= to {
      assert BusinessDaysBetween(d, to) == BusinessDaysBetween(d + 1, to);
    }
  }

  /** From a Monday, a whole working week is listed before the next Monday. */
  lemma {:induction false} TakeWeek(monday: Day, to: Day)
    requires Weekday(monday) == 1 && monday + 6 <= to
    ensures BusinessDaysBetween(monday, to)
         == [monday, monday + 1, monday + 2, monday + 3, monday + 4] + BusinessDaysBetween(monday + 7, to)
  {
    WeekdayShift(monday, 1);
    WeekdayShift(monday, 2);
    WeekdayShift(monday, 3);
    WeekdayShift(monday, 4);
    WeekdayShift(monday, 5);
    TakeBusinessDay(monday, to);
    TakeBusinessDay(monday + 1, to);
    TakeBusinessDay(monday + 2, to);
    TakeBusinessDay(monday + 3, to);
    TakeBusinessDay(monday + 4, to);
    SkipWeekend(monday + 5, to);
  }

  /**
   * With today a Wednesday the horizon is today, Thursday and Friday, a full
   * working week, and Monday to Wednesday of the week after: today is listed
   * and the weekends are not.
   */
  lemma {:induction false} HorizonFromWednesday(today: Day)
    requires Weekday(today) == 3
    ensures HorizonDays(today) == [today, today + 1, today + 2,
                                   today + 5, today + 6, today + 7, today + 8, today + 9,
                                   today + 12, today + 13, today + 14]
  {
    var t := today + HorizonLength;
    WeekdayShift(today, 1);
    WeekdayShift(today, 2);
    WeekdayShift(today, 3);
    WeekdayShift(today, 5);
    WeekdayShift(today, 12);
    WeekdayShift(today, 13);
    WeekdayShift(today, 14);
    TakeBusinessDay(today, t);
    TakeBusinessDay(today + 1, t);
    TakeBusinessDay(today + 2, t);
    SkipWeekend(today + 3, t);
    TakeWeek(today + 5, t);
    TakeBusinessDay(today + 12, t);
    TakeBusinessDay(today + 13, t);
    TakeBusinessDay(today + 14, t);
    assert BusinessDaysBetween(t + 1, t) == [];
  }

  // ----- Proleptic Gregorian calendar -----

  datatype CivilDate = CivilDate(year: int, month: int, day: int)

  predicate IsLeapYear(y: int)
  {
    y % 4 == 0 && (y % 100 != 0 || y % 400 == 0)
  }

  function YearLength(y: int): int
  {
    if IsLeapYear(y) then 366 else 365
  }

  function DaysInMonth(y: int, m: int): (n: int)
    requires 1 <= m <= 12
    ensures 28 <= n <= 31
  {
    if m == 2 then (if IsLeapYear(y) then 29 else 28)
    else if m == 4 || m == 6 || m == 9 || m == 11 then 30
    else 31
  }

  /** A real calendar date: month 1..12, day within that month. */
  predicate ValidDate(c: CivilDate)
  {
    1 <= c.month <= 12 && 1 <= c.day <= DaysInMonth(c.year, c.month)
  }

  /** Strict chronological order of calendar dates: by year, then month, then day. */
  predicate Before(a: CivilDate, b: CivilDate)
  {
    || a.year < b.year
    || (a.year == b.year && a.month < b.month)
    || (a.year == b.year && a.month == b.month && a.day < b.day)
  }

  /** Days in the months of year `y` that precede month `m`. */
  function DaysBeforeMonth(y: int, m: int): (n: int)
    requires 1 <= m <= 13
    ensures n >= 0
  {
    if m == 1 then 0 else DaysBeforeMonth(y, m - 1) + DaysInMonth(y, m - 1)
  }

  /** Leap years among 1..y (for negative y, minus those among y+1..0). */
  function LeapsUpTo(y: int): int
  {
    y / 4 - y / 100 + y / 400
  }

  /** Days from 1970-01-01 to January 1 of year `y`. */
  function DaysBeforeYear(y: int): int
  {
    365 * (y - 1970) + LeapsUpTo(y - 1) - LeapsUpTo(1969)
  }

  lemma DivStep(y: int, k: int)
    requires k == 4 || k == 100 || k == 400
    ensures y / k - (y - 1) / k == (if y % k == 0 then 1 else 0)
  {
  }

  lemma YearStep(y: int)
    ensures DaysBeforeYear(y + 1) == DaysBeforeYear(y) + YearLength(y)
  {
    DivStep(y, 4);
    DivStep(y, 100);
    DivStep(y, 400);
    assert y % 4 == 0 ==> (y % 100 != 0 || y % 400 == 0 <==> IsLeapYear(y));
    if y % 400 == 0 {
      assert y % 100 == 0 && y % 4 == 0;
    } else if y % 100 == 0 {
      assert y % 4 == 0;
    }
  }

  lemma DaysBeforeMonthFullYear(y: int)
    ensures DaysBeforeMonth(y, 13) == YearLength(y)
  {
    assert DaysBeforeMonth(y, 2) == 31;
    assert DaysBeforeMonth(y, 3) == 31 + DaysInMonth(y, 2);
    assert DaysBeforeMonth(y, 4) == DaysBeforeMonth(y, 3) + 31;
    assert DaysBeforeMonth(y, 5) == DaysBeforeMonth(y, 4) + 30;
    assert DaysBeforeMonth(y, 6) == DaysBeforeMonth(y, 5) + 31;
    assert DaysBeforeMonth(y, 7) == DaysBeforeMonth(y, 6) + 30;
    assert DaysBeforeMonth(y, 8) == DaysBeforeMonth(y, 7) + 31;
    assert DaysBeforeMonth(y, 9) == DaysBeforeMonth(y, 8) + 31;
    assert DaysBeforeMonth(y, 10) == DaysBeforeMonth(y, 9) + 30;
    assert DaysBeforeMonth(y, 11) == DaysBeforeMonth(y, 10) + 31;
    assert DaysBeforeMonth(y, 12) == DaysBeforeMonth(y, 11) + 30;
    assert DaysBeforeMonth(y, 13) == DaysBeforeMonth(y, 12) + 31;
  }

  lemma {:induction false} DaysBeforeMonthGrows(y: int, m1: int, m2: int)
    requires 1 <= m1 < m2 <= 13
    ensures DaysBeforeMonth(y, m1) + DaysInMonth(y, m1) <= DaysBeforeMonth(y, m2)
    decreases m2 - m1
  {
    if m2 > m1 + 1 {
      DaysBeforeMonthGrows(y, m1, m2 - 1);
    }
  }

  lemma {:induction false} DaysBeforeYearGrows(y1: int, y2: int)
    requires y1 < y2
    ensures DaysBeforeYear(y1) + YearLength(y1) <= DaysBeforeYear(y2)
    decreases y2 - y1
  {
    YearStep(y1);
    if y2 > y1 + 1 {
      DaysBeforeYearGrows(y1 + 1, y2);
    }
  }

  /** The year `new Date(year, …)` uses: 0..99 stand for 1900..1999. */
  function FullYear(year: int): int
  {
    if 0 <= year <= 99 then 1900 + year else year
  }

  /**
   * `new Date(year, month - 1, day)` at local midnight, as a day number. Months
   * outside 1..12 roll over into neighbouring years and days outside the month
   * into neighbouring months, as the JavaScript `Date` constructor does.
   */
  function LocalMidnight(year: int, month: int, day: int): Day
  {
    var y := FullYear(year);
    var ny := y + (month - 1) / 12;
    var nm := (month - 1) % 12 + 1;
    DaysBeforeYear(ny) + DaysBeforeMonth(ny, nm) + day - 1
  }

  function DayOf(c: CivilDate): Day
  {
    LocalMidnight(c.year, c.month, c.day)
  }

  /** For a real date the `Date` constructor needs no rolling over. */
  lemma DayOfValid(c: CivilDate)
    requires ValidDate(c) && !(0 <= c.year <= 99)
    ensures DayOf(c) == DaysBeforeYear(c.year) + DaysBeforeMonth(c.year, c.month) + c.day - 1
  {
    assert (c.month - 1) / 12 == 0 && (c.month - 1) % 12 + 1 == c.month;
  }

  /** A valid date falls between January 1 of its year and January 1 of the next. */
  lemma DayOfWithinYear(c: CivilDate)
    requires ValidDate(c) && !(0 <= c.year <= 99)
    ensures DaysBeforeYear(c.year) <= DayOf(c) < DaysBeforeYear(c.year) + YearLength(c.year)
  {
    DayOfValid(c);
    if c.month < 12 {
      DaysBeforeMonthGrows(c.year, c.month, 13);
    }
    DaysBeforeMonthFullYear(c.year);
  }

  /**
   * Day numbers follow the calendar: for real dates (years outside 0..99, which
   * JavaScript reads as 1900..1999) one date comes before another exactly when
   * its day number is smaller, so distinct dates get distinct days.
   */
  lemma LocalMidnightOrder(a: CivilDate, b: CivilDate)
    requires ValidDate(a) && ValidDate(b)
    requires !(0 <= a.year <= 99) && !(0 <= b.year <= 99)
    ensures DayOf(a) < DayOf(b) <==> Before(a, b)
    ensures DayOf(a) == DayOf(b) <==> a == b
  {
    DayOfWithinYear(a);
    DayOfWithinYear(b);
    DayOfValid(a);
    DayOfValid(b);
    if a.year < b.year {
      DaysBeforeYearGrows(a.year, b.year);
    } else if b.year < a.year {
      DaysBeforeYearGrows(b.year, a.year);
    } else if a.month < b.month {
      DaysBeforeMonthGrows(a.year, a.month, b.month);
    } else if b.month < a.month {
      DaysBeforeMonthGrows(a.year, b.month, a.month);
    }
  }

  /** The day after the last of a month is the first of the next month, also across a year end. */
  lemma MonthRollsOver(year: int, month: int)
    requires 1 <= month <= 12 && !(0 <= year <= 99)
    ensures LocalMidnight(year, month, DaysInMonth(year, month) + 1) == LocalMidnight(year, month + 1, 1)
  {
    assert (month - 1) / 12 == 0 && (month - 1) % 12 + 1 == month;
    if month == 12 {
      assert month / 12 == 1 && month % 12 + 1 == 1;
      YearStep(year);
      DaysBeforeMonthFullYear(year);
    } else {
      assert month / 12 == 0 && month % 12 + 1 == month + 1;
    }
  }

  /** Day 0 is 1970-01-01, a Thursday. */
  lemma EpochIsThursday()
    ensures LocalMidnight(1970, 1, 1) == 0
    ensures Weekday(LocalMidnight(1970, 1, 1)) == 4
  {
  }
}

=== FILE: insurance.dfy ===
/**
 * The insurance-provider registry of `backend/services/insuranceService.js`.
 * The Mongo collection is a sequence of providers; a fresh `_id` is one more
 * than every id in use. The `^name$` regular expression with the `i` flag is
 * case-insensitive equality and the search pattern is a case-insensitive
 * substring; regular-expression metacharacters in the input are not modelled.
 */
module Insurance {
  import opened Wrappers
  import opened Text
  import opened Seqs

  datatype Provider = Provider(id: nat, name: string, code: string)

  datatype Error =
    | NotFound         // 'Obra social no encontrada'
    | Duplicate        // 'Ya existe una obra social con ese nombre o código'
    | DuplicateOther   // 'Ya existe otra obra social con ese nombre o código'

  function Ids(ps: seq<Provider>): seq<nat>
  {
    Project(ps, (p: Provider) => p.id)
  }

  /**
   * What the unique indexes and the service's checks keep: ids, names
   * (ignoring case) and codes are pairwise different, and codes are stored
   * upper-cased.
   */
  ghost predicate Registry(ps: seq<Provider>)
  {
    && (forall i, j :: 0 <= i < j < |ps| ==> ps[i].id != ps[j].id)
    && (forall i, j :: 0 <= i < j < |ps| ==> !EqualsIgnoreCase(ps[i].name, ps[j].name))
    && (forall i, j :: 0 <= i < j < |ps| ==> ps[i].code != ps[j].code)
    && (forall i :: 0 <= i < |ps| ==> ToUpper(ps[i].code) == ps[i].code)
  }

  // ----- Lookups -----

  /** `isInsuranceProviderActive`: some provider has that name, ignoring case. */
  predicate NameTaken(ps: seq<Provider>, name: string)
  {
    exists i :: 0 <= i < |ps| && EqualsIgnoreCase(ps[i].name, name)
  }

  /** Some provider's stored code is the upper-cased `code`. */
  predicate CodeTaken(ps: seq<Provider>, code: string)
  {
    exists i :: 0 <= i < |ps| && ps[i].code == ToUpper(code)
  }

  function IsInsuranceProviderActive(ps: seq<Provider>, name: string): (r: bool)
    ensures r <==> NameTaken(ps, name)
  {
    IndexWhere(ps, (p: Provider) => EqualsIgnoreCase(p.name, name)).Some?
  }

  // ----- Create -----

  /**
   * `createInsuranceProvider`: refused when a provider already has the name
   * (ignoring case) or the upper-cased code; otherwise one provider is
   * appended, its code upper-cased.
   */
  function Create(ps: seq<Provider>, name: string, code: string): (r: Result<seq<Provider>, Error>)
    ensures r.Err? <==> NameTaken(ps, name) || CodeTaken(ps, code)
    ensures r.Err? ==> r.error == Duplicate
    ensures r.Ok? ==> |r.value| == |ps| + 1 && r.value[..|ps|] == ps
    ensures r.Ok? ==> r.value[|ps|].name == name && r.value[|ps|].code == ToUpper(code)
    ensures r.Ok? ==> r.value[|ps|].id !in Ids(ps)
  {
    if IsInsuranceProviderActive(ps, name)
       || IndexWhere(ps, (p: Provider) => p.code == ToUpper(code)).Some? then
      Err(Duplicate)
    else
      Ok(ps + [Provider(NextId(Ids(ps)), name, ToUpper(code))])
  }

  /** A provider created on a registry keeps it a registry. */
  lemma CreatePreservesRegistry(ps: seq<Provider>, name: string, code: string)
    requires Registry(ps)
    requires Create(ps, name, code).Ok?
    ensures Registry(Create(ps, name, code).value)
  {
    var r := Create(ps, name, code).value;
    assert r == ps + [r[|ps|]];
    ToUpperIdempotent(code);
    forall i | 0 <= i < |ps|
      ensures r[i].id != r[|ps|].id
      ensures !EqualsIgnoreCase(r[i].name, r[|ps|].name)
      ensures r[i].code != r[|ps|].code
    {
      assert Ids(ps)[i] == ps[i].id;
    }
  }

  /** After a create succeeds the name is known to `isInsuranceProviderActive`, and creating it again fails. */
  lemma CreatedNameIsActive(ps: seq<Provider>, name: string, code: string, code2: string)
    requires Create(ps, name, code).Ok?
    ensures IsInsuranceProviderActive(Create(ps, name, code).value, name)
    ensures Create(Create(ps, name, code).value, name, code2) == Err(Duplicate)
  {
    var r := Create(ps, name, code).value;
    assert EqualsIgnoreCase(r[|ps|].name, name);
  }

  // ----- Update -----

  /** A field counts as supplied when it is a non-empty string (JavaScript truthiness). */
  predicate Given(o: Option<string>)
  {
    o.Some? && o.value != ""
  }

  /** The supplied fields written over `p`, the code upper-cased. */
  function Apply(p: Provider, name: Option<string>, code: Option<string>): (r: Provider)
    ensures r.id == p.id
    ensures r.name == if Given(name) then name.value else p.name
    ensures r.code == if Given(code) then ToUpper(code.value) else p.code
  {
    p.(name := if Given(name) then name.value else p.name,
       code := if Given(code) then ToUpper(code.value) else p.code)
  }

  /** Some provider other than `id` satisfies `hit`. */
  predicate ClashesWithOther(ps: seq<Provider>, id: nat, hit: Provider -> bool)
  {
    exists i :: 0 <= i < |ps| && ps[i].id != id && hit(ps[i])
  }

  /** The shared shape of both update versions: find, check with `hit`, write the supplied fields. */
  function UpdateChecked(ps: seq<Provider>, id: nat, name: Option<string>, code: Option<string>, hit: Provider -> bool)
    : (r: Result<seq<Provider>, Error>)
    ensures r == Err(NotFound) <==> id !in Ids(ps)
    ensures r == Err(DuplicateOther) <==> id in Ids(ps) && (Given(name) || Given(code)) && ClashesWithOther(ps, id, hit)
    ensures r.Err? ==> r.error == NotFound || r.error == DuplicateOther
    ensures r.Ok? ==> exists k :: 0 <= k < |ps| && ps[k].id == id && r.value == ps[k := Apply(ps[k], name, code)]
  {
    match IndexWhere(ps, (p: Provider) => p.id == id)
    case None =>
      assert forall i :: 0 <= i < |ps| ==> Ids(ps)[i] != id;
      Err(NotFound)
    case Some(k) =>
      assert Ids(ps)[k] == id;
      if (Given(name) || Given(code)) && ClashesWithOther(ps, id, hit) then
        Err(DuplicateOther)
      else
        Ok(ps[k := Apply(ps[k], name, code)])
  }

  /**
   * The duplicate query as written: each `$or` branch for a field that was
   * not supplied is `{}`, which every document matches.
   */
  predicate HitAsWritten(name: Option<string>, code: Option<string>, p: Provider)
  {
    || (if Given(name) then EqualsIgnoreCase(p.name, name.value) else true)
    || (if Given(code) then p.code == ToUpper(code.value) else true)
  }

  /** `updateInsuranceProvider` as written. */
  function UpdateAsWritten(ps: seq<Provider>, id: nat, name: Option<string>, code: Option<string>)
    : (r: Result<seq<Provider>, Error>)
    ensures r == Err(DuplicateOther) <==>
              id in Ids(ps) && (Given(name) || Given(code))
              && ClashesWithOther(ps, id, p => HitAsWritten(name, code, p))
  {
    UpdateChecked(ps, id, name, code, p => HitAsWritten(name, code, p))
  }

  /**
   * With only one field supplied the query as written matches every other
   * provider, so the update fails exactly when another provider exists.
   */
  lemma PartialUpdateAsWrittenFailsWithOthers(ps: seq<Provider>, id: nat, name: Option<string>, code: Option<string>)
    requires id in Ids(ps)
    requires Given(name) != Given(code)
    ensures UpdateAsWritten(ps, id, name, code).Err? <==> exists j :: 0 <= j < |ps| && ps[j].id != id
  {
    var hit := p => HitAsWritten(name, code, p);
    if exists j :: 0 <= j < |ps| && ps[j].id != id {
      var j :| 0 <= j < |ps| && ps[j].id != id;
      assert hit(ps[j]);
    }
  }

  /** The evident intent: a field that was not supplied does not take part in the duplicate query. */
  predicate Hit(name: Option<string>, code: Option<string>, p: Provider)
  {
    || (Given(name) && EqualsIgnoreCase(p.name, name.value))
    || (Given(code) && p.code == ToUpper(code.value))
  }

  /**
   * `updateInsuranceProvider` with the duplicate query corrected: it fails for
   * an unknown id and when another provider has a supplied name (ignoring
   * case) or the upper-cased supplied code; otherwise only the supplied fields
   * of that provider change.
   */
  function Update(ps: seq<Provider>, id: nat, name: Option<string>, code: Option<string>)
    : (r: Result<seq<Provider>, Error>)
    ensures r == Err(NotFound) <==> id !in Ids(ps)
    ensures r == Err(DuplicateOther) <==> id in Ids(ps) && ClashesWithOther(ps, id, p => Hit(name, code, p))
    ensures r.Err? ==> r.error == NotFound || r.error == DuplicateOther
    ensures r.Ok? ==> exists k :: 0 <= k < |ps| && ps[k].id == id && r.value == ps[k := Apply(ps[k], name, code)]
  {
    UpdateChecked(ps, id, name, code, p => Hit(name, code, p))
  }

  /** Replacing one provider by another with the same id, whose name and code no other provider has, keeps a registry. */
  lemma ReplacePreservesRegistry(ps: seq<Provider>, k: nat, q: Provider)
    requires Registry(ps)
    requires k < |ps| && q.id == ps[k].id && ToUpper(q.code) == q.code
    requires forall i :: 0 <= i < |ps| && i != k ==> !EqualsIgnoreCase(ps[i].name, q.name) && ps[i].code != q.code
    ensures Registry(ps[k := q])
  {
  }

  /** A provider renamed or recoded on a registry keeps it a registry. */
  lemma UpdatePreservesRegistry(ps: seq<Provider>, id: nat, name: Option<string>, code: Option<string>)
    requires Registry(ps)
    requires Update(ps, id, name, code).Ok?
    ensures Registry(Update(ps, id, name, code).value)
  {
    var r := Update(ps, id, name, code).value;
    var k :| 0 <= k < |ps| && ps[k].id == id && r == ps[k := Apply(ps[k], name, code)];
    var q := Apply(ps[k], name, code);
    var hit := p => Hit(name, code, p);
    assert !ClashesWithOther(ps, id, hit);
    if Given(code) {
      ToUpperIdempotent(code.value);
    }
    forall i | 0 <= i < |ps| && i != k
      ensures !EqualsIgnoreCase(ps[i].name, q.name) && ps[i].code != q.code
    {
      assert ps[i].id != id;
      assert !hit(ps[i]);
    }
    ReplacePreservesRegistry(ps, k, q);
  }

  /** When both fields or neither are supplied, the query as written is the intended one. */
  lemma UpdateAsWrittenAgreesUnlessPartial(ps: seq<Provider>, id: nat, name: Option<string>, code: Option<string>)
    requires Given(name) == Given(code)
    ensures UpdateAsWritten(ps, id, name, code) == Update(ps, id, name, code)
  {
    var a := p => HitAsWritten(name, code, p);
    var b := p => Hit(name, code, p);
    if Given(name) {
      assert forall i :: 0 <= i < |ps| ==> a(ps[i]) == b(ps[i]);
      assert ClashesWithOther(ps, id, a) == ClashesWithOther(ps, id, b);
    }
  }

  /** Two providers; renaming the first while leaving its code alone. */
  lemma RenameAloneIsRefused()
    ensures var ps := [Provider(1, "OSDE", "OSDE"), Provider(2, "Swiss Medical", "SWISS")];
            && UpdateAsWritten(ps, 1, Some("OSDE Binario"), None) == Err(DuplicateOther)
            && Update(ps, 1, Some("OSDE Binario"), None) == Ok([Provider(1, "OSDE Binario", "OSDE"), Provider(2, "Swiss Medical", "SWISS")])
  {
    var ps := [Provider(1, "OSDE", "OSDE"), Provider(2, "Swiss Medical", "SWISS")];
    assert Ids(ps) == [1, 2];
    assert HitAsWritten(Some("OSDE Binario"), None, ps[1]);
    assert ToLower("Swiss Medical") != ToLower("OSDE Binario") by {
      assert |ToLower("Swiss Medical")| != |ToLower("OSDE Binario")|;
    }
    assert !Hit(Some("OSDE Binario"), None, ps[1]);
    assert !ClashesWithOther(ps, 1, p => Hit(Some("OSDE Binario"), None, p));
    var r := Update(ps, 1, Some("OSDE Binario"), None);
    assert r.Ok?;
    var k :| 0 <= k < |ps| && ps[k].id == 1 && r.value == ps[k := Apply(ps[k], Some("OSDE Binario"), None)];
    assert k == 0;
    assert Given(Some("OSDE Binario"));
    assert Apply(ps[0], Some("OSDE Binario"), None) == Provider(1, "OSDE Binario", "OSDE");
    assert r.value == [Provider(1, "OSDE Binario", "OSDE"), Provider(2, "Swiss Medical", "SWISS")];
  }

  // ----- Delete and statistics -----

  /** `deleteInsuranceProvider`: fails for an unknown id; otherwise removes the provider with that id. */
  function Delete(ps: seq<Provider>, id: nat): (r: Result<seq<Provider>, Error>)
    ensures r.Err? <==> id !in Ids(ps)
    ensures r.Err? ==> r.error == NotFound
    ensures r.Ok? ==> exists k :: 0 <= k < |ps| && ps[k].id == id && r.value == ps[..k] + ps[k + 1..]
  {
    match IndexWhere(ps, (p: Provider) => p.id == id)
    case None =>
      assert forall i :: 0 <= i < |ps| ==> Ids(ps)[i] != id;
      Err(NotFound)
    case Some(k) =>
      assert Ids(ps)[k] == id;
      assert RemoveAt(ps, k) == ps[..k] + ps[k + 1..];
      Ok(RemoveAt(ps, k))
  }

  /** On a registry, deleting removes exactly the provider with that id and keeps every other one. */
  lemma DeleteRemovesExactlyThatProvider(ps: seq<Provider>, id: nat)
    requires Registry(ps)
    requires Delete(ps, id).Ok?
    ensures |Delete(ps, id).value| == |ps| - 1
    ensures id !in Ids(Delete(ps, id).value)
    ensures forall p :: p in ps && p.id != id ==> p in Delete(ps, id).value
  {
    var r := Delete(ps, id).value;
    var k :| 0 <= k < |ps| && ps[k].id == id && r == ps[..k] + ps[k + 1..];
    assert r == RemoveAt(ps, k);
    RemovedIdIsGone(ps, k);
    OthersStay(ps, k);
  }

  lemma RemovedIdIsGone(ps: seq<Provider>, k: nat)
    requires Registry(ps) && k < |ps|
    ensures ps[k].id !in Ids(RemoveAt(ps, k))
  {
    var r := RemoveAt(ps, k);
    forall i | 0 <= i < |r|
      ensures r[i].id != ps[k].id
    {
      if i < k {
        assert r[i] == ps[i];
      } else {
        assert r[i] == ps[i + 1];
      }
    }
  }

  lemma OthersStay(ps: seq<Provider>, k: nat)
    requires k < |ps|
    ensures forall p :: p in ps && p.id != ps[k].id ==> p in RemoveAt(ps, k)
  {
    var r := RemoveAt(ps, k);
    forall p | p in ps && p.id != ps[k].id
      ensures p in r
    {
      var i :| 0 <= i < |ps| && ps[i] == p;
      if i < k {
        assert r[i] == p;
      } else {
        assert r[i - 1] == p;
      }
    }
  }

  datatype ProviderStats = ProviderStats(total: nat)

  /** `getInsuranceProviderStats`: `countDocuments()`. */
  function Stats(ps: seq<Provider>): (r: ProviderStats)
  {
    ProviderStats(|ps|)
  }

  /** A create adds one to the total and a delete takes one away. */
  lemma StatsFollowCreateAndDelete(ps: seq<Provider>, name: string, code: string, id: nat)
    ensures Create(ps, name, code).Ok? ==> Stats(Create(ps, name, code).value).total == Stats(ps).total + 1
    ensures Delete(ps, id).Ok? ==> Stats(Delete(ps, id).value).total == Stats(ps).total - 1
  {
  }

  // ----- Search -----

  /** Mongo's `.sort({name: 1})`: code-point order on the name. */
  predicate NameOrder(a: Provider, b: Provider)
  {
    StrLe(a.name, b.name)
  }

  lemma NameOrderIsTotalPreorder()
    ensures TotalPreorder(NameOrder)
  {
    forall a: Provider, b: Provider
      ensures NameOrder(a, b) || NameOrder(b, a)
    {
      StrLeTotal(a.name, b.name);
    }
    forall a: Provider, b: Provider, c: Provider | NameOrder(a, b) && NameOrder(b, c)
      ensures NameOrder(a, c)
    {
      StrLeTransitive(a.name, b.name, c.name);
    }
  }

  predicate SearchHit(p: Provider, term: string)
  {
    ContainsIgnoreCase(p.name, term) || ContainsIgnoreCase(p.code, term)
  }

  /** `searchInsuranceProviders`: the providers whose name or code contains the term, ignoring case, by name. */
  function Search(ps: seq<Provider>, term: string): (r: seq<Provider>)
    ensures forall p :: p in r <==> p in ps && SearchHit(p, term)
    ensures SortedBy(r, NameOrder)
    ensures multiset(r) == multiset(Filter(ps, p => SearchHit(p, term)))
  {
    NameOrderIsTotalPreorder();
    var hits := Filter(ps, p => SearchHit(p, term));
    var r := SortBy(hits, NameOrder);
    assert forall p :: p in r <==> p in multiset(r);
    assert forall p :: p in hits <==> p in multiset(hits);
    r
  }

  /** The empty term is contained in every string, so searching for it lists every provider. */
  lemma EmptySearchListsAll(ps: seq<Provider>)
    ensures multiset(Search(ps, "")) == multiset(ps)
  {
    forall i | 0 <= i < |ps|
      ensures SearchHit(ps[i], "")
    {
      assert OccursAt(ToLower(ps[i].name), ToLower(""), 0);
    }
    FilterAll(ps, p => SearchHit(p, ""));
  }

  // ----- Batch create -----

  datatype ProviderInput = ProviderInput(name: string, code: string)

  /** One rejected item: the input and the message it failed with. */
  datatype Failure = Failure(data: ProviderInput, error: Error)

  datatype Batch = Batch(store: seq<Provider>, success: seq<Provider>, errors: seq<Failure>)

  function FailedInputs(fs: seq<Failure>): seq<ProviderInput>
  {
    Project(fs, (f: Failure) => f.data)
  }

  /**
   * `createMultipleInsuranceProviders`: the items are created one after
   * another, each against the store the earlier successes left, and each lands
   * either among the successes or among the errors.
   */
  function CreateMultiple(ps: seq<Provider>, items: seq<ProviderInput>): (r: Batch)
    ensures |r.success| + |r.errors| == |items|
    ensures r.store == ps + r.success
    decreases |items|
  {
    if items == [] then Batch(ps, [], [])
    else
      match Create(ps, items[0].name, items[0].code)
      case Ok(next) =>
        var b := CreateMultiple(next, items[1..]);
        assert next == ps + [next[|ps|]];
        Batch(b.store, [next[|ps|]] + b.success, b.errors)
      case Err(e) =>
        var b := CreateMultiple(ps, items[1..]);
        Batch(b.store, b.success, [Failure(items[0], e)] + b.errors)
  }

  /** The rejected items are listed in input order, each refused as a duplicate. */
  lemma {:induction false} BatchErrorsInOrder(ps: seq<Provider>, items: seq<ProviderInput>)
    ensures Subseq(FailedInputs(CreateMultiple(ps, items).errors), items)
    ensures forall i :: 0 <= i < |CreateMultiple(ps, items).errors| ==> CreateMultiple(ps, items).errors[i].error == Duplicate
    decreases |items|
  {
    if items != [] {
      var rest := items[1..];
      assert items == [items[0]] + rest;
      match Create(ps, items[0].name, items[0].code)
      case Ok(next) =>
        BatchErrorsInOrder(next, rest);
        var f := FailedInputs(CreateMultiple(next, rest).errors);
        assert FailedInputs(CreateMultiple(ps, items).errors) == f;
      case Err(e) =>
        BatchErrorsInOrder(ps, rest);
        var es := CreateMultiple(ps, rest).errors;
        assert CreateMultiple(ps, items).errors == [Failure(items[0], e)] + es;
        assert FailedInputs([Failure(items[0], e)] + es) == [items[0]] + FailedInputs(es);
    }
  }

  /** A batch on a registry leaves a registry: duplicates inside the batch are refused too. */
  lemma {:induction false} CreateMultiplePreservesRegistry(ps: seq<Provider>, items: seq<ProviderInput>)
    requires Registry(ps)
    ensures Registry(CreateMultiple(ps, items).store)
    decreases |items|
  {
    if items != [] {
      match Create(ps, items[0].name, items[0].code)
      case Ok(next) =>
        CreatePreservesRegistry(ps, items[0].name, items[0].code);
        CreateMultiplePreservesRegistry(next, items[1..]);
      case Err(_) =>
        CreateMultiplePreservesRegistry(ps, items[1..]);
    }
  }

  /** A batch of one item is a single create. */
  lemma CreateMultipleOfOne(ps: seq<Provider>, item: ProviderInput)
    ensures var b := CreateMultiple(ps, [item]);
            && (Create(ps, item.name, item.code).Ok? ==> b.store == Create(ps, item.name, item.code).value && b.errors == [])
            && (Create(ps, item.name, item.code).Err? ==> b.store == ps && b.errors == [Failure(item, Duplicate)])
  {
    assert [item][1..] == [];
  }
}

=== FILE: mock_data.dfy ===
/**
 * The in-memory mirror of `frontend/src/data/mockData.js` that the pages use
 * when no backend is running. It differs from the service: the cascade runs
 * on every confirmation, every booking (cancelled ones too) blocks its slot,
 * and new ids are `length + 1`.
 */
module MockData {
  import opened Wrappers
  import opened Seqs
  import opened Calendar
  import opened AppointmentModel
  import Scheduler

  // ----- Appointments -----

  /** `addAppointment(data)`: the fields as given, id `length + 1`, status forced to pending. */
  function AddAppointment(c: seq<Appointment>, req: BookingRequest): (r: seq<Appointment>)
    ensures |r| == |c| + 1 && r[..|c|] == c
    ensures r[|c|].id == |c| + 1 && r[|c|].status == Pending
    ensures && r[|c|].patientName == req.patientName && r[|c|].patientLastName == req.patientLastName
            && r[|c|].phone == req.phone && r[|c|].email == req.email
            && r[|c|].insuranceProvider == req.insuranceProvider && r[|c|].notes == req.notes
            && r[|c|].date == req.date && r[|c|].time == req.time
  {
    c + [Appointment(|c| + 1, req.patientName, req.patientLastName, req.phone, req.email,
                     req.insuranceProvider, req.date, req.time, Pending, req.notes)]
  }

  /** Ids are unique and none exceeds the list length, as in the seeded data (ids 1 to 4). */
  ghost predicate CompactIds(c: seq<Appointment>)
  {
    Scheduler.UniqueIds(c) && forall i :: 0 <= i < |c| ==> c[i].id <= |c|
  }

  /** Since appointments are never removed from the mirror, `length + 1` is always a fresh id. */
  lemma AddAppointmentKeepsIdsCompact(c: seq<Appointment>, req: BookingRequest)
    requires CompactIds(c)
    ensures CompactIds(AddAppointment(c, req))
    ensures AddAppointment(c, req)[|c|].id !in Scheduler.Ids(c)
  {
    var r := AddAppointment(c, req);
    assert forall i :: 0 <= i < |c| ==> r[i] == c[i];
  }

  /**
   * `updateAppointmentStatus(id, status)` of the mirror: `None` is the `null`
   * returned for an unknown id. The target takes the new status; on any
   * confirmation every other booking of its slot that is not cancelled
   * becomes cancelled.
   */
  function UpdateAppointmentStatus(c: seq<Appointment>, id: Id, status: Status): (r: Option<(seq<Appointment>, Appointment)>)
    ensures r.None? <==> id !in Scheduler.Ids(c)
    ensures r.Some? ==> var k := Scheduler.FindById(c, id).value;
              && |r.value.0| == |c|
              && r.value.1 == r.value.0[k] == c[k].(status := status)
              && (forall i :: 0 <= i < |c| ==> r.value.0[i] == c[i].(status := r.value.0[i].status))
              && (forall i :: 0 <= i < |c| && i != k ==>
                    (r.value.0[i] != c[i] <==> status == Confirmed && Scheduler.Competitor(c[i], id, c[k].date, c[k].time)))
              && (forall i :: 0 <= i < |c| && i != k && r.value.0[i] != c[i] ==> r.value.0[i].status == Cancelled)
  {
    match Scheduler.FindById(c, id)
    case None => None
    case Some(k) =>
      var target := c[k].(status := status);
      var saved := c[k := target];
      var c' := if status == Confirmed then Scheduler.CancelCompetitors(saved, id, c[k].date, c[k].time) else saved;
      Some((c', c'[k]))
  }

  /**
   * From pending, the mirror and the service (with the e-mail sent) change the
   * store in the same way, as long as the service's save passes the schema;
   * the mirror checks no schema.
   */
  lemma MirrorAgreesWithServiceFromPending(c: seq<Appointment>, id: Id, status: Status, today: Day)
    requires id in Scheduler.Ids(c) && c[Scheduler.FindById(c, id).value].status == Pending
    ensures UpdateAppointmentStatus(c, id, status).Some?
    ensures Scheduler.Saveable(c, id, today) ==>
              Scheduler.UpdateStatus(c, id, status, today, false) == Ok(UpdateAppointmentStatus(c, id, status).value.0)
    ensures !Scheduler.Saveable(c, id, today) ==> Scheduler.UpdateStatus(c, id, status, today, false) == Err(Scheduler.InvalidRecord)
  {
  }

  /**
   * Whatever the target's previous status, after the mirror confirms it the
   * target is the only active booking of its slot, so the mirror cannot
   * double-book through a re-confirmation the way the service can.
   */
  lemma MirrorConfirmLeavesSlotToTarget(c: seq<Appointment>, id: Id)
    requires Scheduler.UniqueIds(c) && id in Scheduler.Ids(c)
    ensures var r := UpdateAppointmentStatus(c, id, Confirmed).value.0;
            var k := Scheduler.FindById(c, id).value;
            forall i :: 0 <= i < |r| && i != k && Scheduler.SameSlot(r[i], r[k]) ==> !IsActive(r[i].status)
  {
    var r := UpdateAppointmentStatus(c, id, Confirmed).value.0;
    var k := Scheduler.FindById(c, id).value;
    forall i | 0 <= i < |r| && i != k && Scheduler.SameSlot(r[i], r[k])
      ensures !IsActive(r[i].status)
    {
      assert c[i].id != id;
      if IsActive(c[i].status) {
        assert Scheduler.Competitor(c[i], id, c[k].date, c[k].time);
      } else {
        assert r[i] == c[i];
      }
    }
  }

  /** On the store where the service double-books, the mirror's confirmation cancels the competitor. */
  lemma MirrorReconfirmCancelsCompetitor()
    ensures var d := Appointment(0, "Ana", "Paz", "1155554444", "ana@x.com", "OSDE", 20000, "09:00", Pending, None);
            var c := [d.(id := 1, status := Cancelled), d.(id := 2, status := Confirmed)];
            UpdateAppointmentStatus(c, 1, Confirmed) == Some(([c[0].(status := Confirmed), c[1].(status := Cancelled)], c[0].(status := Confirmed)))
  {
    var d := Appointment(0, "Ana", "Paz", "1155554444", "ana@x.com", "OSDE", 20000, "09:00", Pending, None);
    var c := [d.(id := 1, status := Cancelled), d.(id := 2, status := Confirmed)];
    assert Scheduler.FindById(c, 1) == Some(0);
    var r := UpdateAppointmentStatus(c, 1, Confirmed).value;
    assert Scheduler.Competitor(c[1], 1, c[0].date, c[0].time);
    assert r.0[1] == c[1].(status := Cancelled);
    assert r.0 == [c[0].(status := Confirmed), c[1].(status := Cancelled)];
  }

  datatype MockDay = MockDay(date: Day, availableTimes: seq<string>)

  /**
   * `getAvailableAppointments()`: every business day from today to
   * today + 14, each with the template times that no booking of that day uses,
   * whatever its status.
   */
  function GetAvailableAppointments(c: seq<Appointment>, today: Day): (r: seq<MockDay>)
    ensures |r| == |HorizonDays(today)|
    ensures forall i :: 0 <= i < |r| ==> r[i].date == HorizonDays(today)[i]
    ensures forall i :: 0 <= i < |r| ==> Subseq(r[i].availableTimes, SlotTemplate)
    ensures forall i, t :: 0 <= i < |r| ==>
              (t in r[i].availableTimes <==> t in SlotTemplate && !SlotHeld(c, r[i].date, t, false))
  {
    var days := HorizonDays(today);
    seq(|days|, i requires 0 <= i < |days| => MockDay(days[i], FreeTimes(c, days[i], false)))
  }

  /** The mirror never offers a time the service would refuse: its lists are sublists of the service's. */
  lemma MirrorOffersNoMoreThanService(c: seq<Appointment>, today: Day, i: nat)
    requires i < |GetAvailableAppointments(c, today)|
    ensures var m := GetAvailableAppointments(c, today)[i];
            var s := Scheduler.AvailableDates(c, today)[i];
            m.date == s.date && forall t :: t in m.availableTimes ==> t in s.availableTimes
  {
    var m := GetAvailableAppointments(c, today)[i];
    forall t | t in m.availableTimes
      ensures !SlotHeld(c, m.date, t, true)
    {
    }
  }

  /** Without cancelled bookings the mirror and the service offer the same times. */
  lemma MirrorMatchesServiceWithoutCancellations(c: seq<Appointment>, today: Day, i: nat)
    requires forall j :: 0 <= j < |c| ==> c[j].status != Cancelled
    requires i < |GetAvailableAppointments(c, today)|
    ensures GetAvailableAppointments(c, today)[i].availableTimes == Scheduler.AvailableDates(c, today)[i].availableTimes
  {
    var d := HorizonDays(today)[i];
    var o1 := OccupiedTimes(c, d, false);
    var o2 := OccupiedTimes(c, d, true);
    forall t
      ensures t in o1 <==> t in o2
    {
      if SlotHeld(c, d, t, false) {
        var j :| 0 <= j < |c| && Holds(c[j], d, t, false);
        assert Holds(c[j], d, t, true);
      }
    }
    FilterSame(SlotTemplate, t => t !in o1, t => t !in o2);
  }

  // ----- Insurance providers -----

  datatype ProviderEntry = ProviderEntry(id: nat, name: string, code: string)

  /** The eight seeded providers, ids 1 to 8. */
  const InitialProviders: seq<ProviderEntry> := [
    ProviderEntry(1, "OSDE", "OSDE"),
    ProviderEntry(2, "Swiss Medical", "SWISS"),
    ProviderEntry(3, "Galeno", "GALENO"),
    ProviderEntry(4, "Medicus", "MEDICUS"),
    ProviderEntry(5, "Hospital Italiano", "HIBA"),
    ProviderEntry(6, "PAMI", "PAMI"),
    ProviderEntry(7, "IOMA", "IOMA"),
    ProviderEntry(8, "Particular", "PARTICULAR")
  ]

  function ProviderIds(ps: seq<ProviderEntry>): seq<nat>
  {
    Project(ps, (p: ProviderEntry) => p.id)
  }

  ghost predicate UniqueProviderIds(ps: seq<ProviderEntry>)
  {
    forall i, j :: 0 <= i < j < |ps| ==> ps[i].id != ps[j].id
  }

  /** `addInsuranceProvider(data)` as written: appended under id `length + 1`. */
  function AddInsuranceProviderAsWritten(ps: seq<ProviderEntry>, name: string, code: string): (r: seq<ProviderEntry>)
    ensures |r| == |ps| + 1 && r[..|ps|] == ps
    ensures r[|ps|].id == |ps| + 1 && r[|ps|].name == name && r[|ps|].code == code
  {
    ps + [ProviderEntry(|ps| + 1, name, code)]
  }

  /**
   * `deleteInsuranceProvider(id)`: removes the first provider with that id and
   * returns it, keeping the order of the rest; `None` is the `null` for an
   * unknown id.
   */
  function DeleteInsuranceProvider(ps: seq<ProviderEntry>, id: nat): (r: Option<(seq<ProviderEntry>, ProviderEntry)>)
    ensures r.None? <==> id !in ProviderIds(ps)
    ensures r.Some? ==> exists k :: 0 <= k < |ps| && ps[k].id == id
                          && (forall j :: 0 <= j < k ==> ps[j].id != id)
                          && r.value.1 == ps[k] && r.value.0 == ps[..k] + ps[k + 1..]
  {
    match IndexWhere(ps, (p: ProviderEntry) => p.id == id)
    case None => None
    case Some(k) => Some((ps[..k] + ps[k + 1..], ps[k]))
  }

  /**
   * Deleting a seeded provider and adding a new one gives the new provider
   * the id of the last seeded one, and a later delete of that id removes the
   * old provider instead of the new one.
   */
  lemma AddAfterDeleteReusesId()
    ensures var ps := DeleteInsuranceProvider(InitialProviders, 3).value.0;
            var r := AddInsuranceProviderAsWritten(ps, "Nueva", "NUEVA");
            && r[6].id == 8 && r[7].id == 8
            && !UniqueProviderIds(r)
            && DeleteInsuranceProvider(r, 8).value.1 == ProviderEntry(8, "Particular", "PARTICULAR")
  {
    var ip := InitialProviders;
    assert forall j :: 0 <= j < |ip| ==> ip[j].id == j + 1;
    assert ip[2].id == 3;
    var del := DeleteInsuranceProvider(ip, 3).value;
    var ps := del.0;
    assert ps == ip[..2] + ip[3..];
    assert |ps| == 7 && ps[6] == ip[7];
    var r := AddInsuranceProviderAsWritten(ps, "Nueva", "NUEVA");
    assert r[6] == ProviderEntry(8, "Particular", "PARTICULAR");
    assert forall j :: 0 <= j < 6 ==> r[j].id != 8;
    assert r[7].id == 8;
  }

  /** The intended `addInsuranceProvider`: appended under an id larger than every id in use. */
  function AddInsuranceProvider(ps: seq<ProviderEntry>, name: string, code: string): (r: seq<ProviderEntry>)
    ensures |r| == |ps| + 1 && r[..|ps|] == ps
    ensures r[|ps|].name == name && r[|ps|].code == code
    ensures r[|ps|].id !in ProviderIds(ps)
  {
    var ids := ProviderIds(ps);
    ps + [ProviderEntry(NextId(ids), name, code)]
  }

  /** The intended addition keeps provider ids unique, whatever was deleted before. */
  lemma AddInsuranceProviderKeepsIdsUnique(ps: seq<ProviderEntry>, name: string, code: string)
    requires UniqueProviderIds(ps)
    ensures UniqueProviderIds(AddInsuranceProvider(ps, name, code))
  {
    var r := AddInsuranceProvider(ps, name, code);
    assert forall i :: 0 <= i < |ps| ==> r[i] == ps[i] && ps[i].id in ProviderIds(ps);
  }

  lemma {:induction false} NextIdOfRun(ids: seq<nat>, k: nat)
    requires k >= 1 && |ids| >= 1
    requires forall i :: 0 <= i < |ids| ==> ids[i] == k + i
    ensures NextId(ids) == k + |ids|
    decreases |ids|
  {
    if |ids| > 1 {
      NextIdOfRun(ids[1..], k + 1);
    }
  }

  /** While nothing has been deleted (ids run 1, 2, ..., n) the intended addition picks the same id as the original. */
  lemma AddInsuranceProviderAgreesBeforeDeletes(ps: seq<ProviderEntry>, name: string, code: string)
    requires forall i :: 0 <= i < |ps| ==> ps[i].id == i + 1
    ensures AddInsuranceProvider(ps, name, code) == AddInsuranceProviderAsWritten(ps, name, code)
  {
    if |ps| > 0 {
      NextIdOfRun(ProviderIds(ps), 1);
    }
  }
}

=== FILE: scheduler.dfy ===
/**
 * The appointment service of `backend/services/appointmentService.js`:
 * booking, status changes with the cascade that cancels competing bookings,
 * deletion, availability for one day and for the two-week horizon, counts by
 * status, and the paginated admin listing. The store is the appointments
 * collection as a sequence; "today" is a parameter.
 */
module Scheduler {
  import opened Wrappers
  import opened Text
  import opened Seqs
  import opened Calendar
  import opened AppointmentModel

  datatype Error =
    | ProviderUnavailable  // "La obra social seleccionada no está disponible"
    | SlotTaken            // "El horario seleccionado ya está ocupado"
    | InvalidRecord        // the schema refused the record when it was saved
    | NotFound             // "Cita no encontrada"
    | PastDate             // "No se pueden consultar fechas pasadas"
    | Weekend              // "No hay citas disponibles los fines de semana"

  function Ids(c: seq<Appointment>): seq<Id>
  {
    Project(c, (a: Appointment) => a.id)
  }

  ghost predicate UniqueIds(c: seq<Appointment>)
  {
    forall i, j :: 0 <= i < j < |c| ==> c[i].id != c[j].id
  }

  predicate SameSlot(a: Appointment, b: Appointment)
  {
    a.date == b.date && a.time == b.time
  }

  /** At most one pending or confirmed booking per day and time. */
  ghost predicate NoDoubleBooking(c: seq<Appointment>)
  {
    forall i, j :: 0 <= i < j < |c| && IsActive(c[i].status) && IsActive(c[j].status) ==> !SameSlot(c[i], c[j])
  }

  ghost predicate Consistent(c: seq<Appointment>)
  {
    UniqueIds(c) && NoDoubleBooking(c)
  }

  /** `Appointment.findById(id)`: the position of the first record with that id. */
  function FindById(c: seq<Appointment>, id: Id): (r: Option<nat>)
    ensures r.Some? ==> r.value < |c| && c[r.value].id == id
    ensures r.Some? ==> forall j :: 0 <= j < r.value ==> c[j].id != id
    ensures r.None? <==> id !in Ids(c)
  {
    IndexWhere(c, (a: Appointment) => a.id == id)
  }

  // ----- Booking -----

  /**
   * `createAppointment(data)`: the provider must be registered under exactly
   * that name, the slot must be free, and the record must pass the schema;
   * it is then appended as pending under a fresh id. The confirmation e-mail
   * is sent afterwards and its failure is swallowed, so it cannot undo the booking.
   */
  function Create(c: seq<Appointment>, providerNames: seq<string>, req: BookingRequest, today: Day): (r: Result<seq<Appointment>, Error>)
    ensures req.insuranceProvider !in providerNames ==> r == Err(ProviderUnavailable)
    ensures req.insuranceProvider in providerNames && CheckTimeConflict(c, req.date, req.time, None) ==> r == Err(SlotTaken)
    ensures r == Err(InvalidRecord) <==>
              req.insuranceProvider in providerNames && !CheckTimeConflict(c, req.date, req.time, None)
              && !SchemaValid(StoredRecord(NextId(Ids(c)), req, Pending), today)
    ensures r.Err? ==> r.error in {ProviderUnavailable, SlotTaken, InvalidRecord}
    ensures r.Ok? <==>
              req.insuranceProvider in providerNames && !CheckTimeConflict(c, req.date, req.time, None)
              && SchemaValid(StoredRecord(NextId(Ids(c)), req, Pending), today)
    ensures r.Ok? ==> |r.value| == |c| + 1 && r.value[..|c|] == c
    ensures r.Ok? ==> var a := r.value[|c|];
              && a.status == Pending && a.id !in Ids(c)
              && a == StoredRecord(a.id, req, Pending) && SchemaValid(a, today)
  {
    if req.insuranceProvider !in providerNames then Err(ProviderUnavailable)
    else if CheckTimeConflict(c, req.date, req.time, None) then Err(SlotTaken)
    else
      var a := StoredRecord(NextId(Ids(c)), req, Pending);
      if !SchemaValid(a, today) then Err(InvalidRecord)
      else Ok(c + [a])
  }

  /** A successful booking keeps ids unique and every slot held by at most one active booking. */
  lemma CreatePreservesConsistency(c: seq<Appointment>, providerNames: seq<string>, req: BookingRequest, today: Day)
    requires Consistent(c)
    requires Create(c, providerNames, req, today).Ok?
    ensures Consistent(Create(c, providerNames, req, today).value)
  {
    var a := StoredRecord(NextId(Ids(c)), req, Pending);
    CreateAppends(c, providerNames, req, today);
    assert forall i :: 0 <= i < |c| && IsActive(c[i].status) ==> !SameSlot(c[i], a) by {
      forall i | 0 <= i < |c| && IsActive(c[i].status)
        ensures !Conflicts(c[i], req.date, req.time, None)
      {
      }
    }
    assert forall i :: 0 <= i < |c| ==> c[i].id != a.id by {
      forall i | 0 <= i < |c|
        ensures c[i].id != a.id
      {
        assert Ids(c)[i] == c[i].id;
      }
    }
    AppendPreservesConsistency(c, a);
  }

  lemma CreateAppends(c: seq<Appointment>, providerNames: seq<string>, req: BookingRequest, today: Day)
    requires Create(c, providerNames, req, today).Ok?
    ensures Create(c, providerNames, req, today).value == c + [StoredRecord(NextId(Ids(c)), req, Pending)]
    ensures !CheckTimeConflict(c, req.date, req.time, None)
  {
    assert req.insuranceProvider in providerNames;
    assert !CheckTimeConflict(c, req.date, req.time, None);
    var a := StoredRecord(NextId(Ids(c)), req, Pending);
    assert SchemaValid(a, today);
  }

  lemma AppendPreservesConsistency(c: seq<Appointment>, a: Appointment)
    requires Consistent(c)
    requires forall i :: 0 <= i < |c| ==> c[i].id != a.id
    requires forall i :: 0 <= i < |c| && IsActive(c[i].status) ==> !SameSlot(c[i], a)
    ensures Consistent(c + [a])
  {
    var c' := c + [a];
    assert forall i :: 0 <= i < |c| ==> c'[i] == c[i];
  }

  // ----- Status changes -----

  /** Only the confirmation of a pending booking cancels its competitors. */
  predicate CascadeTriggered(previous: Status, next: Status)
  {
    previous == Pending && next == Confirmed
  }

  /** A record the cascade for record `id` in slot `(date, time)` cancels: another active booking of that slot. */
  predicate Competitor(a: Appointment, id: Id, date: Day, time: string)
  {
    a.id != id && a.date == date && a.time == time && IsActive(a.status)
  }

  /** `Appointment.updateMany({_id: {$ne: id}, date, time, status: {$in: [...]}}, {status: 'cancelled'})`. */
  function CancelCompetitors(c: seq<Appointment>, id: Id, date: Day, time: string): (r: seq<Appointment>)
    ensures |r| == |c|
    ensures forall i :: 0 <= i < |c| ==> r[i] == c[i].(status := r[i].status)
    ensures forall i :: 0 <= i < |c| ==> (r[i] != c[i] <==> Competitor(c[i], id, date, time))
    ensures forall i :: 0 <= i < |c| && r[i] != c[i] ==> r[i].status == Cancelled
  {
    seq(|c|, i requires 0 <= i < |c| =>
      if Competitor(c[i], id, date, time) then c[i].(status := Cancelled) else c[i])
  }

  /**
   * `updateAppointmentStatus(id, status)`: any status may be set, with no
   * transition check. `save()` runs the schema's validators on the whole
   * record again, so a booking that no longer passes them (its day is today or
   * earlier) is refused with a validation error and nothing changes. The
   * cascade runs in the same `try` as the confirmation e-mail and after it, so
   * it is skipped when sending that e-mail throws.
   */
  function UpdateStatus(c: seq<Appointment>, id: Id, status: Status, today: Day, confirmMailThrows: bool): (r: Result<seq<Appointment>, Error>)
    ensures r == Err(NotFound) <==> id !in Ids(c)
    ensures r == Err(InvalidRecord) <==> id in Ids(c) && !SchemaValid(c[FindById(c, id).value], today)
    ensures r.Err? ==> r.error == NotFound || r.error == InvalidRecord
    ensures r.Ok? ==> |r.value| == |c|
    ensures r.Ok? ==> forall i :: 0 <= i < |c| ==> r.value[i] == c[i].(status := r.value[i].status)
    ensures r.Ok? ==> var k := FindById(c, id).value;
              && SchemaValid(c[k], today)
              && r.value[k].status == status
              && (forall i :: 0 <= i < |c| && i != k && r.value[i] != c[i] ==>
                    CascadeTriggered(c[k].status, status) && Competitor(c[i], id, c[k].date, c[k].time)
                    && r.value[i].status == Cancelled)
              && (CascadeTriggered(c[k].status, status) && !confirmMailThrows ==>
                    forall i :: 0 <= i < |c| && Competitor(c[i], id, c[k].date, c[k].time) ==>
                      r.value[i].status == Cancelled)
              && (!CascadeTriggered(c[k].status, status) || confirmMailThrows ==>
                    forall i :: 0 <= i < |c| && i != k ==> r.value[i] == c[i])
  {
    match FindById(c, id)
    case None => Err(NotFound)
    case Some(k) =>
      var target := c[k].(status := status);
      if !SchemaValid(target, today) then Err(InvalidRecord)
      else
        var saved := c[k := target];
        if CascadeTriggered(c[k].status, status) && !confirmMailThrows then
          Ok(CancelCompetitors(saved, id, c[k].date, c[k].time))
        else
          Ok(saved)
  }

  /** The record `id` names passes the schema's validators today. */
  predicate Saveable(c: seq<Appointment>, id: Id, today: Day)
    requires id in Ids(c)
  {
    SchemaValid(c[FindById(c, id).value], today)
  }

  /**
   * Changing a status keeps the store consistent whenever the change does not
   * re-activate a cancelled booking: cancelling anything, or moving an active
   * booking between pending and confirmed. The change goes through exactly
   * when the record still passes the schema.
   */
  lemma UpdateStatusPreservesConsistency(c: seq<Appointment>, id: Id, status: Status, today: Day, confirmMailThrows: bool)
    requires Consistent(c)
    requires id in Ids(c)
    requires status == Cancelled || IsActive(c[FindById(c, id).value].status)
    ensures UpdateStatus(c, id, status, today, confirmMailThrows).Ok? <==> Saveable(c, id, today)
    ensures UpdateStatus(c, id, status, today, confirmMailThrows).Ok? ==>
              Consistent(UpdateStatus(c, id, status, today, confirmMailThrows).value)
  {
    var u := UpdateStatus(c, id, status, today, confirmMailThrows);
    if u.Ok? {
      var r := u.value;
      var k := FindById(c, id).value;
      forall i, j | 0 <= i < j < |r| && IsActive(r[i].status) && IsActive(r[j].status)
        ensures !SameSlot(r[i], r[j])
      {
        assert IsActive(c[i].status) && IsActive(c[j].status);
      }
      forall i, j | 0 <= i < j < |r|
        ensures r[i].id != r[j].id
      {
        assert r[i].id == c[i].id && r[j].id == c[j].id;
      }
    }
  }

  /**
   * After a pending booking is confirmed and the cascade runs, it is the only
   * active booking of its slot, whatever the store held before.
   */
  lemma ConfirmLeavesSlotToTarget(c: seq<Appointment>, id: Id, today: Day)
    requires UniqueIds(c)
    requires id in Ids(c) && c[FindById(c, id).value].status == Pending
    ensures UpdateStatus(c, id, Confirmed, today, false).Ok? <==> Saveable(c, id, today)
    ensures UpdateStatus(c, id, Confirmed, today, false).Ok? ==>
            var r := UpdateStatus(c, id, Confirmed, today, false).value;
            var k := FindById(c, id).value;
            && r[k].status == Confirmed
            && forall i :: 0 <= i < |r| && i != k && SameSlot(r[i], r[k]) ==> !IsActive(r[i].status)
  {
    var u := UpdateStatus(c, id, Confirmed, today, false);
    if u.Ok? {
      var r := u.value;
      var k := FindById(c, id).value;
      forall i | 0 <= i < |r| && i != k && SameSlot(r[i], r[k])
        ensures !IsActive(r[i].status)
      {
        assert c[i].id != id;
        if IsActive(c[i].status) {
          assert Competitor(c[i], id, c[k].date, c[k].time);
        } else {
          assert r[i] == c[i];
        }
      }
    }
  }

  /**
   * In a consistent store the cascade has nothing to cancel, so a failing
   * confirmation e-mail, which skips it, makes no difference to the outcome.
   */
  lemma CascadeIsRedundantWhenConsistent(c: seq<Appointment>, id: Id, status: Status, today: Day)
    requires Consistent(c)
    ensures UpdateStatus(c, id, status, today, true) == UpdateStatus(c, id, status, today, false)
  {
    match FindById(c, id)
    case None =>
    case Some(k) =>
      var saved := c[k := c[k].(status := status)];
      if SchemaValid(c[k], today) && CascadeTriggered(c[k].status, status) {
        var r := CancelCompetitors(saved, id, c[k].date, c[k].time);
        forall i | 0 <= i < |saved|
          ensures r[i] == saved[i]
        {
          if i != k && Competitor(saved[i], id, c[k].date, c[k].time) {
            assert saved[i] == c[i];
            assert IsActive(c[k].status) && IsActive(c[i].status) && SameSlot(c[i], c[k]);
            assert false;
          }
        }
        assert r == saved;
      }
  }

  /** A booking with every field well formed, on day `date` at nine o'clock. */
  function SampleBooking(id: Id, date: Day, status: Status): Appointment
  {
    Appointment(id, "Ana", "Paz", "1155554444", "ana@x.com", "OSDE", date, "09:00", status, None)
  }

  /** The sample booking passes the schema on any day before its own. */
  lemma SampleBookingIsValid(id: Id, date: Day, status: Status, today: Day)
    requires today < date
    ensures SchemaValid(SampleBooking(id, date, status), today)
  {
    var a := SampleBooking(id, date, status);
    assert a.email[3] == '@' && a.email[5] == '.';
    assert PhonePatternOk(a.phone);
    assert TimeFormatOk(a.time) by {
      assert MinutesOk(a.time[2..]);
    }
  }

  /**
   * With no transition check, re-activating a cancelled booking can put two
   * active bookings into one slot: the cascade only runs from pending.
   */
  lemma ReconfirmingCancelledDoubleBooks(today: Day)
    requires today < 20000
    ensures var c := [SampleBooking(1, 20000, Cancelled), SampleBooking(2, 20000, Confirmed)];
            && Consistent(c)
            && UpdateStatus(c, 1, Confirmed, today, false).Ok?
            && !NoDoubleBooking(UpdateStatus(c, 1, Confirmed, today, false).value)
  {
    var c := [SampleBooking(1, 20000, Cancelled), SampleBooking(2, 20000, Confirmed)];
    assert FindById(c, 1) == Some(0);
    SampleBookingIsValid(1, 20000, Cancelled, today);
    var r := UpdateStatus(c, 1, Confirmed, today, false).value;
    assert r[0].status == Confirmed && r[1] == c[1];
  }

  /** Once its day has come, a booking's status can no longer be changed: the save is refused. */
  lemma StatusFrozenFromItsDay(c: seq<Appointment>, id: Id, status: Status, today: Day, confirmMailThrows: bool)
    requires id in Ids(c) && c[FindById(c, id).value].date <= today
    ensures UpdateStatus(c, id, status, today, confirmMailThrows) == Err(InvalidRecord)
  {
  }

  /** `getAppointmentById(id)`. */
  function GetById(c: seq<Appointment>, id: Id): (r: Result<Appointment, Error>)
    ensures r.Err? <==> id !in Ids(c)
    ensures r.Err? ==> r.error == NotFound
    ensures r.Ok? ==> r.value in c && r.value.id == id
  {
    match FindById(c, id)
    case None => Err(NotFound)
    case Some(k) => Ok(c[k])
  }

  /** `deleteAppointment(id)`: removes the record `findById` finds, keeping the order of the rest. */
  function Delete(c: seq<Appointment>, id: Id): (r: Result<seq<Appointment>, Error>)
    ensures r.Err? <==> id !in Ids(c)
    ensures r.Err? ==> r.error == NotFound
    ensures r.Ok? ==> var k := FindById(c, id).value;
              && |r.value| == |c| - 1
              && multiset(r.value) + multiset{c[k]} == multiset(c)
              && Subseq(r.value, c)
  {
    match FindById(c, id)
    case None => Err(NotFound)
    case Some(k) =>
      RemoveAtSubseq(c, k);
      Ok(RemoveAt(c, k))
  }

  /** Deleting keeps the store consistent, and with unique ids the deleted id is gone. */
  lemma DeletePreservesConsistency(c: seq<Appointment>, id: Id)
    requires Consistent(c) && id in Ids(c)
    ensures Delete(c, id).Ok?
    ensures Consistent(Delete(c, id).value)
    ensures id !in Ids(Delete(c, id).value)
  {
    var k := FindById(c, id).value;
    var r := Delete(c, id).value;
    assert r == RemoveAt(c, k);
    forall i, j | 0 <= i < j < |r|
      ensures r[i].id != r[j].id
      ensures IsActive(r[i].status) && IsActive(r[j].status) ==> !SameSlot(r[i], r[j])
    {
      var i', j' := if i < k then i else i + 1, if j < k then j else j + 1;
      assert r[i] == c[i'] && r[j] == c[j'] && i' < j';
    }
  }

  // ----- Availability -----

  /**
   * `getAvailableTimes(date)` of the service: a day before today is refused,
   * then a Saturday or Sunday; today itself is accepted.
   */
  function AvailableTimesFor(c: seq<Appointment>, date: Day, today: Day): (r: Result<seq<string>, Error>)
    ensures r == Err(PastDate) <==> date < today
    ensures r == Err(Weekend) <==> date >= today && IsWeekend(date)
    ensures r.Ok? <==> date >= today && IsBusinessDay(date)
    ensures r.Ok? ==> forall t :: t in r.value <==> t in SlotTemplate && !SlotHeld(c, date, t, true)
    ensures r.Ok? ==> r.value == AvailableTimes(c, date)
  {
    if date < today then Err(PastDate)
    else if IsWeekend(date) then Err(Weekend)
    else Ok(AvailableTimes(c, date))
  }

  datatype DayAvailability = DayAvailability(date: Day, availableTimes: seq<string>, hasAvailableSlots: bool)

  /**
   * `getAvailableDates()`: one entry per business day from today to
   * today + 14 days, empty days included, each with its free times.
   */
  function AvailableDates(c: seq<Appointment>, today: Day): (r: seq<DayAvailability>)
    ensures |r| == |HorizonDays(today)|
    ensures forall i :: 0 <= i < |r| ==> r[i].date == HorizonDays(today)[i]
    ensures forall i :: 0 <= i < |r| ==> r[i].availableTimes == AvailableTimes(c, r[i].date)
    ensures forall i :: 0 <= i < |r| ==> (r[i].hasAvailableSlots <==> r[i].availableTimes != [])
  {
    var days := HorizonDays(today);
    seq(|days|, i requires 0 <= i < |days| =>
      var times := AvailableTimes(c, days[i]);
      DayAvailability(days[i], times, |times| > 0))
  }

  /** The horizon lists its days in strictly ascending order. */
  lemma AvailableDatesAscending(c: seq<Appointment>, today: Day)
    ensures var r := AvailableDates(c, today);
            forall i, j :: 0 <= i < j < |r| ==> r[i].date < r[j].date
  {
    HorizonDaysSpec(today);
  }

  /** Day `d` has an entry in `r`. */
  predicate Lists(r: seq<DayAvailability>, d: Day)
  {
    exists i :: 0 <= i < |r| && r[i].date == d
  }

  /** The horizon lists exactly the business days from today to today + 14. */
  lemma AvailableDatesCoverHorizon(c: seq<Appointment>, today: Day)
    ensures forall d :: Lists(AvailableDates(c, today), d) <==>
              today <= d <= today + HorizonLength && IsBusinessDay(d)
  {
    var r := AvailableDates(c, today);
    var h := HorizonDays(today);
    HorizonDaysSpec(today);
    forall d
      ensures Lists(r, d) <==> today <= d <= today + HorizonLength && IsBusinessDay(d)
    {
      if today <= d <= today + HorizonLength && IsBusinessDay(d) {
        assert d in h;
        var i :| 0 <= i < |h| && h[i] == d;
        assert r[i].date == d;
      }
      if Lists(r, d) {
        var i :| 0 <= i < |r| && r[i].date == d;
        assert h[i] in h;
      }
    }
  }

  /** A horizon day is flagged as having free slots exactly when some template time is not held by an active booking. */
  lemma AvailableDatesFlagFreeDays(c: seq<Appointment>, today: Day)
    ensures var r := AvailableDates(c, today);
            forall i :: 0 <= i < |r| ==>
              (r[i].hasAvailableSlots <==> exists t :: t in SlotTemplate && !SlotHeld(c, r[i].date, t, true))
  {
    var r := AvailableDates(c, today);
    forall i | 0 <= i < |r|
      ensures r[i].hasAvailableSlots <==> exists t :: t in SlotTemplate && !SlotHeld(c, r[i].date, t, true)
    {
      var times := r[i].availableTimes;
      if times != [] {
        assert times[0] in times;
      }
    }
  }

  /** Each horizon entry carries what the single-day query would answer for that day. */
  lemma AvailableDatesAgreeWithSingleDay(c: seq<Appointment>, today: Day, i: nat)
    requires i < |AvailableDates(c, today)|
    ensures var e := AvailableDates(c, today)[i];
            AvailableTimesFor(c, e.date, today) == Ok(e.availableTimes)
  {
    HorizonDaysSpec(today);
    var e := AvailableDates(c, today)[i];
    assert e.date in HorizonDays(today);
  }

  // ----- Statistics -----

  function CountStatus(c: seq<Appointment>, s: Status): (n: nat)
    ensures n <= |c|
  {
    CountWhere(c, (a: Appointment) => a.status == s)
  }

  datatype Stats = Stats(total: nat, pending: nat, confirmed: nat, cancelled: nat)

  /** `getAppointmentStats()`: the record count and the count of each status, 0 where a status is absent. */
  function GetStats(c: seq<Appointment>): (r: Stats)
    ensures r.total == |c|
    ensures r.pending == |Filter(c, (a: Appointment) => a.status == Pending)|
    ensures r.confirmed == |Filter(c, (a: Appointment) => a.status == Confirmed)|
    ensures r.cancelled == |Filter(c, (a: Appointment) => a.status == Cancelled)|
  {
    Stats(|c|, CountStatus(c, Pending), CountStatus(c, Confirmed), CountStatus(c, Cancelled))
  }

  lemma {:induction false} StatusCountsPartition(c: seq<Appointment>)
    ensures CountStatus(c, Pending) + CountStatus(c, Confirmed) + CountStatus(c, Cancelled) == |c|
  {
    if |c| > 0 {
      StatusCountsPartition(c[1..]);
    }
  }

  /** The three status counts add up to the total. */
  lemma StatsAddUp(c: seq<Appointment>)
    ensures GetStats(c).pending + GetStats(c).confirmed + GetStats(c).cancelled == GetStats(c).total
  {
    StatusCountsPartition(c);
  }

  // ----- Listing -----

  /** The filters of `getAllAppointments`; an empty status means no status filter. */
  datatype Query = Query(status: string, date: Option<Day>, startDate: Option<Day>, endDate: Option<Day>)

  /** A complete `startDate`/`endDate` range replaces the single-day filter. */
  predicate Matches(q: Query, a: Appointment)
  {
    && (q.status == [] || StatusName(a.status) == q.status)
    && (if q.startDate.Some? && q.endDate.Some? then q.startDate.value <= a.date <= q.endDate.value
        else if q.date.Some? then a.date == q.date.value
        else true)
  }

  function Matching(c: seq<Appointment>, q: Query): (r: seq<Appointment>)
    ensures Subseq(r, c)
    ensures forall a :: a in r <==> a in c && Matches(q, a)
  {
    Filter(c, (a: Appointment) => Matches(q, a))
  }

  /** `sort({date: 1, time: 1})`. */
  predicate ListOrder(a: Appointment, b: Appointment)
  {
    a.date < b.date || (a.date == b.date && StrLe(a.time, b.time))
  }

  lemma ListOrderIsTotalPreorder()
    ensures TotalPreorder(ListOrder)
  {
    forall a: Appointment, b: Appointment
      ensures ListOrder(a, b) || ListOrder(b, a)
    {
      StrLeTotal(a.time, b.time);
    }
    forall a: Appointment, b: Appointment, x: Appointment | ListOrder(a, b) && ListOrder(b, x)
      ensures ListOrder(a, x)
    {
      if a.date == b.date == x.date {
        StrLeTransitive(a.time, b.time, x.time);
      }
    }
  }

  function Sorted(c: seq<Appointment>, q: Query): (r: seq<Appointment>)
    ensures SortedBy(r, ListOrder)
    ensures multiset(r) == multiset(Matching(c, q))
    ensures |r| == |Matching(c, q)|
  {
    ListOrderIsTotalPreorder();
    SortBy(Matching(c, q), ListOrder)
  }

  /** `Math.ceil(n / d)`. */
  function CeilDiv(n: nat, d: nat): (r: nat)
    requires d > 0
    ensures r * d >= n
    ensures r > 0 ==> (r - 1) * d < n
  {
    (n + d - 1) / d
  }

  datatype Listing = Listing(items: seq<Appointment>, currentPage: nat, totalPages: nat, totalItems: nat, itemsPerPage: nat)

  /** `skip(skip).limit(limit)`: the at most `limit` consecutive records from position `skip` on. */
  function Window(s: seq<Appointment>, skip: nat, limit: nat): (r: seq<Appointment>)
    ensures |r| == (if skip >= |s| then 0 else if skip + limit >= |s| then |s| - skip else limit)
    ensures forall j :: 0 <= j < |r| ==> r[j] == s[skip + j]
  {
    if skip >= |s| then [] else if skip + limit >= |s| then s[skip..] else s[skip..skip + limit]
  }

  /** How many records come before page `page`: `(page - 1) * limit`. */
  function Skipped(page: nat, limit: nat): (n: nat)
    requires page >= 1
  {
    (page - 1) * limit
  }

  /**
   * `getAllAppointments(filters, {page, limit})`: the matching records sorted
   * by date then time, `limit` of them after skipping `(page - 1) * limit`,
   * with the page count `ceil(total / limit)`.
   */
  function ListAppointments(c: seq<Appointment>, q: Query, page: nat, limit: nat): (r: Listing)
    requires page >= 1 && limit >= 1
    ensures r.totalItems == |Matching(c, q)|
    ensures r.totalPages * limit >= r.totalItems
    ensures r.totalPages > 0 ==> (r.totalPages - 1) * limit < r.totalItems
    ensures |r.items| <= limit
    ensures forall a :: a in r.items ==> a in c && Matches(q, a)
    ensures SortedBy(r.items, ListOrder)
    ensures r.currentPage == page && r.itemsPerPage == limit
  {
    var sorted := Sorted(c, q);
    var skip := Skipped(page, limit);
    var items := Window(sorted, skip, limit);
    WindowKeepsOrderAndMembers(c, q, skip, limit);
    Listing(items, page, CeilDiv(|sorted|, limit), |sorted|, limit)
  }

  lemma WindowKeepsOrderAndMembers(c: seq<Appointment>, q: Query, skip: nat, limit: nat)
    ensures var items := Window(Sorted(c, q), skip, limit);
            && SortedBy(items, ListOrder)
            && forall a :: a in items ==> a in c && Matches(q, a)
  {
    var sorted := Sorted(c, q);
    var items := Window(sorted, skip, limit);
    forall a | a in items
      ensures a in c && Matches(q, a)
    {
      var j :| 0 <= j < |items| && items[j] == a;
      assert sorted[skip + j] in multiset(Matching(c, q));
    }
  }

  /** Position `i` of `n` items falls on page `i / limit + 1`, which is among the first `ceil(n / limit)`. */
  lemma PagePosition(i: nat, n: nat, limit: nat)
    requires limit >= 1 && i < n
    ensures (i / limit) * limit + i % limit == i
    ensures i % limit < limit && Skipped(i / limit + 1, limit) + i % limit == i
    ensures i / limit + 1 <= CeilDiv(n, limit)
  {
    var q := i / limit;
    assert q * limit + i % limit == i;
    assert Skipped(q + 1, limit) == q * limit;
    var pages := CeilDiv(n, limit);
    if q >= pages {
      MulMonotone(pages, q, limit);
    }
  }

  lemma MulMonotone(a: int, b: int, d: nat)
    requires a <= b
    ensures a * d <= b * d
  {
    assert b * d - a * d == (b - a) * d;
  }

  /** Every matching record shows up: record `i` of the sorted list is item `i % limit` of page `i / limit + 1`. */
  lemma EveryRecordOnItsPage(c: seq<Appointment>, q: Query, limit: nat, i: nat)
    requires limit >= 1 && i < |Matching(c, q)|
    ensures var r := ListAppointments(c, q, i / limit + 1, limit);
            i / limit + 1 <= r.totalPages
            && i % limit < |r.items| && r.items[i % limit] == Sorted(c, q)[i]
  {
    PagePosition(i, |Matching(c, q)|, limit);
    RecordOnPage(c, q, limit, i / limit + 1, i % limit);
  }

  /** Item `k` of page `page` is record `(page - 1) * limit + k` of the sorted matches, when there is one. */
  lemma RecordOnPage(c: seq<Appointment>, q: Query, limit: nat, page: nat, k: nat)
    requires page >= 1 && k < limit && Skipped(page, limit) + k < |Matching(c, q)|
    ensures var r := ListAppointments(c, q, page, limit);
            page <= r.totalPages
            && k < |r.items| && r.items[k] == Sorted(c, q)[Skipped(page, limit) + k]
  {
    ListingIsWindow(c, q, page, limit);
    var pages := CeilDiv(|Matching(c, q)|, limit);
    if pages < page {
      MulMonotone(pages, page - 1, limit);
    }
  }

  /** The page's items are the window of the sorted matches, under `ceil(total / limit)` pages. */
  lemma ListingIsWindow(c: seq<Appointment>, q: Query, page: nat, limit: nat)
    requires page >= 1 && limit >= 1
    ensures ListAppointments(c, q, page, limit).items == Window(Sorted(c, q), Skipped(page, limit), limit)
    ensures ListAppointments(c, q, page, limit).totalPages == CeilDiv(|Matching(c, q)|, limit)
  {
    var sorted := Sorted(c, q);
    var items := Window(sorted, Skipped(page, limit), limit);
    assert ListAppointments(c, q, page, limit) == Listing(items, page, CeilDiv(|sorted|, limit), |sorted|, limit);
  }

  /** With both ends of a range given, the single-day filter has no effect. */
  lemma RangeOverridesDate(c: seq<Appointment>, q: Query, page: nat, limit: nat)
    requires page >= 1 && limit >= 1
    requires q.startDate.Some? && q.endDate.Some?
    ensures ListAppointments(c, q, page, limit) == ListAppointments(c, q.(date := None), page, limit)
  {
    var q' := q.(date := None);
    assert Matching(c, q) == Matching(c, q') by {
      FilterSame(c, (a: Appointment) => Matches(q, a), (a: Appointment) => Matches(q', a));
    }
    assert Sorted(c, q) == Sorted(c, q');
  }
}

=== FILE: security.dfy ===
/**
 * The request hygiene of `backend/middleware/security.js`: string
 * sanitising of the body and the query, the origin allowlist and the mapping
 * from error kind to status code. Lengths count characters; JavaScript counts
 * UTF-16 code units, which differ only outside the basic plane.
 */
module Security {
  import opened Wrappers
  import opened Text
  import opened Seqs

  const MaxLength := 1000

  predicate IsBracket(c: char)
  {
    c == '<' || c == '>'
  }

  /** `.replace(/[<>]/g, '')`. */
  function RemoveBrackets(s: string): (r: string)
    ensures forall i :: 0 <= i < |r| ==> !IsBracket(r[i])
    ensures Subseq(r, s)
    ensures |r| == |s| - CountWhere(s, IsBracket)
    ensures (forall i :: 0 <= i < |s| ==> !IsBracket(s[i])) ==> r == s
  {
    var r := Filter(s, c => !IsBracket(c));
    CountPartition(s, c => !IsBracket(c), IsBracket);
    if forall i :: 0 <= i < |s| ==> !IsBracket(s[i]) then
      FilterAll(s, c => !IsBracket(c));
      r
    else
      r
  }

  /** `.substring(0, n)`. */
  function Prefix(s: string, n: nat): (r: string)
    ensures |r| == if |s| <= n then |s| else n
    ensures r == s[..|r|]
  {
    if |s| <= n then s else s[..n]
  }

  /** `sanitizeString` on a string: trim, then drop every `<` and `>`, then keep at most 1000 characters. */
  function SanitizeString(s: string): (r: string)
    ensures forall i :: 0 <= i < |r| ==> !IsBracket(r[i])
    ensures |r| <= MaxLength
    ensures |r| <= |RemoveBrackets(Trim(s))| && r == RemoveBrackets(Trim(s))[..|r|]
    ensures |RemoveBrackets(Trim(s))| <= MaxLength ==> r == RemoveBrackets(Trim(s))
    ensures |RemoveBrackets(Trim(s))| > MaxLength ==> |r| == MaxLength
  {
    Prefix(RemoveBrackets(Trim(s)), MaxLength)
  }

  /** A short string with no bracket and no surrounding whitespace comes out unchanged. */
  lemma SanitizeKeepsCleanText(s: string)
    requires forall i :: 0 <= i < |s| ==> !IsBracket(s[i])
    requires s == [] || (!IsSpace(s[0]) && !IsSpace(s[|s| - 1]))
    requires |s| <= MaxLength
    ensures SanitizeString(s) == s
  {
    var t := Trim(s);
    assert t == s by {
      TrimOfTrimmed(s);
    }
    var u := RemoveBrackets(t);
    assert u == s;
    assert Prefix(u, MaxLength) == s;
  }

  /** A bracket followed by clean text: only the bracket goes. */
  lemma RemoveLeadingBracket(c: char, rest: string)
    requires IsBracket(c)
    requires forall i :: 0 <= i < |rest| ==> !IsBracket(rest[i])
    ensures RemoveBrackets([c] + rest) == rest
  {
    assert ([c] + rest)[1..] == rest;
    FilterAll(rest, c => !IsBracket(c));
  }

  /**
   * The brackets go after the trim, so removing a leading bracket can expose
   * whitespace: sanitising is not idempotent. `"< a"` becomes `" a"`, which
   * becomes `"a"`.
   */
  lemma SanitizeIsNotIdempotent(s: string)
    requires s == "< a"
    ensures SanitizeString(s) == " a"
    ensures SanitizeString(SanitizeString(s)) == "a"
    ensures SanitizeString(SanitizeString(s)) != SanitizeString(s)
  {
    BracketGoes(s);
    var once := s[1..];
    assert once == " a";
    SpaceGoes(once);
    assert once[1..] == "a";
  }

  /** A bracket in front of clean text that does not end in whitespace: sanitising drops just the bracket. */
  lemma BracketGoes(s: string)
    requires |s| >= 2 && |s| <= MaxLength && IsBracket(s[0]) && !IsSpace(s[|s| - 1])
    requires forall i :: 1 <= i < |s| ==> !IsBracket(s[i])
    ensures SanitizeString(s) == s[1..]
  {
    calc {
      SanitizeString(s);
      Prefix(RemoveBrackets(Trim(s)), MaxLength);
      { TrimOfTrimmed(s); }
      Prefix(RemoveBrackets(s), MaxLength);
      { assert s == [s[0]] + s[1..];
        RemoveLeadingBracket(s[0], s[1..]); }
      Prefix(s[1..], MaxLength);
      s[1..];
    }
  }

  /** A space in front of clean text without outer whitespace: sanitising drops just the space. */
  lemma SpaceGoes(t: string)
    requires |t| >= 2 && |t| <= MaxLength && IsSpace(t[0]) && !IsSpace(t[1]) && !IsSpace(t[|t| - 1])
    requires forall i :: 1 <= i < |t| ==> !IsBracket(t[i])
    ensures SanitizeString(t) == t[1..]
  {
    var inner := t[1..];
    assert TrimStart(t) == inner;
    assert Trim(t) == inner by {
      TrimOfTrimmed(inner);
    }
    assert RemoveBrackets(inner) == inner;
  }

  // ----- Request bodies -----

  /** A JSON value as the body parser delivers it. */
  datatype Value =
    | Str(s: string)
    | Num(n: int)
    | Flag(b: bool)
    | Null
    | Obj(fields: seq<Field>)
    | Arr(items: seq<Value>)

  datatype Field = Field(key: string, value: Value)

  /** `sanitizeString` on any value: a non-string is returned unchanged. */
  function SanitizeValue(v: Value): (r: Value)
    ensures v.Str? <==> r.Str?
    ensures v.Str? ==> r.s == SanitizeString(v.s)
    ensures !v.Str? ==> r == v
  {
    if v.Str? then Str(SanitizeString(v.s)) else v
  }

  /** The `for … in` loop: each top-level string field rewritten, keys and order kept. */
  function SanitizeFields(fs: seq<Field>): (r: seq<Field>)
    ensures |r| == |fs|
    ensures forall i :: 0 <= i < |fs| ==> r[i].key == fs[i].key
    ensures forall i :: 0 <= i < |fs| ==> r[i].value == SanitizeValue(fs[i].value)
  {
    seq(|fs|, i requires 0 <= i < |fs| => Field(fs[i].key, SanitizeValue(fs[i].value)))
  }

  datatype Request = Request(body: Option<seq<Field>>, query: Option<seq<Field>>)

  /** `sanitizeInput`: the body and the query, each when present. */
  function SanitizeInput(req: Request): (r: Request)
    ensures r.body.Some? <==> req.body.Some?
    ensures r.query.Some? <==> req.query.Some?
    ensures req.body.Some? ==> r.body.value == SanitizeFields(req.body.value)
    ensures req.query.Some? ==> r.query.value == SanitizeFields(req.query.value)
  {
    Request(
      match req.body case None => None case Some(b) => Some(SanitizeFields(b)),
      match req.query case None => None case Some(q) => Some(SanitizeFields(q)))
  }

  /**
   * After sanitising, no top-level string of the body holds a bracket or is
   * longer than 1000 characters, and nested objects and arrays are exactly as
   * they were.
   */
  lemma SanitizedBodyIsClean(req: Request)
    requires req.body.Some?
    ensures var b := SanitizeInput(req).body.value;
            && (forall i :: 0 <= i < |b| && b[i].value.Str? ==>
                  |b[i].value.s| <= MaxLength && forall j :: 0 <= j < |b[i].value.s| ==> !IsBracket(b[i].value.s[j]))
            && (forall i :: 0 <= i < |b| && (b[i].value.Obj? || b[i].value.Arr?) ==> b[i].value == req.body.value[i].value)
  {
  }

  // ----- Origin check -----

  const AllowedOrigins: seq<string> :=
    ["http://localhost:3000", "http://localhost:5173", "http://127.0.0.1:3000", "http://127.0.0.1:5173"]

  datatype Gate = Pass | Forbidden   // `next()` | 403 'Origen no permitido'

  /** `validateOrigin`: development lets everything through; otherwise only the allowlisted origins. */
  function ValidateOrigin(nodeEnv: Option<string>, origin: Option<string>): (r: Gate)
    ensures nodeEnv == Some("development") ==> r == Pass
    ensures nodeEnv != Some("development") ==>
              (r == Pass <==> origin.Some? && origin.value in {"http://localhost:3000", "http://localhost:5173",
                                                                "http://127.0.0.1:3000", "http://127.0.0.1:5173"})
  {
    if nodeEnv == Some("development") || (origin.Some? && origin.value in AllowedOrigins) then Pass else Forbidden
  }

  /** Outside development, a request without an `Origin` header is refused. */
  lemma MissingOriginRefusedOutsideDevelopment(nodeEnv: Option<string>)
    requires nodeEnv != Some("development")
    ensures ValidateOrigin(nodeEnv, None) == Forbidden
  {
  }

  // ----- Error responses -----

  datatype ErrorInfo = ErrorInfo(name: string, code: Option<int>)

  datatype Response = Response(status: nat, message: string)

  /** `securityErrorHandler`. */
  function SecurityErrorHandler(err: ErrorInfo): (r: Response)
    ensures r.status == 400 <==> err.name in {"ValidationError", "CastError"} || (err.name == "MongoError" && err.code == Some(11000))
    ensures r.status == 500 <==> r.status != 400
    ensures r.status == 500 ==> r.message == "Error interno del servidor"
  {
    if err.name == "ValidationError" then Response(400, "Datos de entrada inválidos")
    else if err.name == "CastError" then Response(400, "ID inválido")
    else if err.name == "MongoError" && err.code == Some(11000) then Response(400, "El recurso ya existe")
    else Response(500, "Error interno del servidor")
  }

  /** A duplicate-key error is a client error only when it carries the code 11000. */
  lemma OtherMongoErrorsAreServerErrors(code: Option<int>)
    requires code != Some(11000)
    ensures SecurityErrorHandler(ErrorInfo("MongoError", code)).status == 500
  {
  }
}

=== FILE: seqs.dfy ===
/**
 * Generic sequence operations the stores and lists of the model share:
 * `Array.prototype.map`, `filter`, `findIndex`, `splice`, counting, identifier
 * allocation and a stable insertion sort (`Array.prototype.sort` with a
 * comparator, Mongo's `.sort()`).
 */
module Seqs {
  import opened Wrappers

  /** `a` is obtained from `b` by deleting elements: a subsequence, order kept. */
  ghost predicate Subseq<T>(a: seq<T>, b: seq<T>)
    decreases |b|
  {
    || |a| == 0
    || (|b| > 0 && ((a[0] == b[0] && Subseq(a[1..], b[1..])) || Subseq(a, b[1..])))
  }

  lemma {:induction false} SubseqRefl<T>(a: seq<T>)
    ensures Subseq(a, a)
    decreases |a|
  {
    if |a| > 0 {
      SubseqRefl(a[1..]);
    }
  }

  /** `s.map(f)`: the field of every element, in order (the stores' id lists). */
  function Project<T, U>(s: seq<T>, f: T -> U): (r: seq<U>)
    ensures |r| == |s|
    ensures forall i :: 0 <= i < |s| ==> r[i] == f(s[i])
  {
    seq(|s|, i requires 0 <= i < |s| => f(s[i]))
  }

  /** `s.filter(p)`. */
  function Filter<T(!new)>(s: seq<T>, p: T -> bool): (r: seq<T>)
    ensures |r| <= |s|
    ensures Subseq(r, s)
    ensures forall x :: x in r <==> x in s && p(x)
    ensures forall i :: 0 <= i < |r| ==> p(r[i])
  {
    if |s| == 0 then []
    else if p(s[0]) then [s[0]] + Filter(s[1..], p)
    else Filter(s[1..], p)
  }

  lemma {:induction false} FilterAll<T(!new)>(s: seq<T>, p: T -> bool)
    requires forall i :: 0 <= i < |s| ==> p(s[i])
    ensures Filter(s, p) == s
    decreases |s|
  {
    if |s| > 0 {
      FilterAll(s[1..], p);
    }
  }

  lemma {:induction false} FilterAppend<T(!new)>(a: seq<T>, b: seq<T>, p: T -> bool)
    ensures Filter(a + b, p) == Filter(a, p) + Filter(b, p)
    decreases |a|
  {
    if |a| == 0 {
      assert a + b == b;
    } else {
      assert (a + b)[1..] == a[1..] + b;
      FilterAppend(a[1..], b, p);
    }
  }

  /** Filters that agree on every element select the same elements. */
  lemma {:induction false} FilterSame<T(!new)>(s: seq<T>, p: T -> bool, q: T -> bool)
    requires forall i :: 0 <= i < |s| ==> (p(s[i]) <==> q(s[i]))
    ensures Filter(s, p) == Filter(s, q)
    decreases |s|
  {
    if |s| > 0 {
      FilterSame(s[1..], p, q);
    }
  }

  /** `s.findIndex(p)`, with `-1` as `None`. */
  function IndexWhere<T>(s: seq<T>, p: T -> bool): (r: Option<nat>)
    ensures r.Some? ==> r.value < |s| && p(s[r.value])
    ensures r.Some? ==> forall j :: 0 <= j < r.value ==> !p(s[j])
    ensures r.None? <==> forall j :: 0 <= j < |s| ==> !p(s[j])
  {
    if |s| == 0 then None
    else if p(s[0]) then Some(0)
    else match IndexWhere(s[1..], p)
      case None => None
      case Some(k) => Some(k + 1)
  }

  /** `s.splice(i, 1)`: the sequence without its `i`-th element. */
  function RemoveAt<T>(s: seq<T>, i: nat): (r: seq<T>)
    requires i < |s|
    ensures |r| == |s| - 1
    ensures forall j :: 0 <= j < i ==> r[j] == s[j]
    ensures forall j :: i <= j < |r| ==> r[j] == s[j + 1]
  {
    s[..i] + s[i + 1..]
  }

  lemma RemoveAtSubseq<T>(s: seq<T>, i: nat)
    requires i < |s|
    ensures Subseq(RemoveAt(s, i), s)
    ensures multiset(RemoveAt(s, i)) + multiset{s[i]} == multiset(s)
  {
    var p := s[i..];
    assert s == s[..i] + p;
    assert p[1..] == s[i + 1..];
    SubseqRefl(s[i + 1..]);
    assert Subseq(s[i + 1..], p);
    SubseqPrefix(s[..i], s[i + 1..], p);
    RemoveAtMultiset(s, i);
  }

  /** Removing the `i`-th element takes exactly one copy of it out of the multiset. */
  lemma RemoveAtMultiset<T>(s: seq<T>, i: nat)
    requires i < |s|
    ensures multiset(RemoveAt(s, i)) + multiset{s[i]} == multiset(s)
  {
    assert s == s[..i] + [s[i]] + s[i + 1..];
  }

  /** Putting the same prefix in front of both sides keeps a subsequence relation. */
  lemma {:induction false} SubseqPrefix<T>(pre: seq<T>, a: seq<T>, b: seq<T>)
    requires Subseq(a, b)
    ensures Subseq(pre + a, pre + b)
    decreases |pre|
  {
    if |pre| == 0 {
      assert pre + a == a && pre + b == b;
    } else {
      SubseqPrefix(pre[1..], a, b);
      assert (pre + a)[1..] == pre[1..] + a;
      assert (pre + b)[1..] == pre[1..] + b;
      assert (pre + a)[0] == (pre + b)[0];
    }
  }

  /** The number of elements satisfying `p`. */
  function CountWhere<T(!new)>(s: seq<T>, p: T -> bool): (n: nat)
    ensures n <= |s|
    ensures n == |Filter(s, p)|
  {
    if |s| == 0 then 0
    else (if p(s[0]) then 1 else 0) + CountWhere(s[1..], p)
  }

  /** Elements satisfying `p` and elements not satisfying it partition the sequence. */
  lemma {:induction false} CountPartition<T(!new)>(s: seq<T>, p: T -> bool, q: T -> bool)
    requires forall x :: q(x) <==> !p(x)
    ensures CountWhere(s, p) + CountWhere(s, q) == |s|
    decreases |s|
  {
    if |s| > 0 {
      CountPartition(s[1..], p, q);
    }
  }

  /** An identifier larger than every identifier in `ids`: a fresh one. */
  function NextId(ids: seq<nat>): (r: nat)
    ensures r > 0
    ensures forall i :: 0 <= i < |ids| ==> ids[i] < r
  {
    if |ids| == 0 then 1
    else
      var rest := NextId(ids[1..]);
      if ids[0] < rest then rest else ids[0] + 1
  }

  /** No element occurs twice. */
  ghost predicate Distinct<T>(s: seq<T>)
  {
    forall i, j :: 0 <= i < j < |s| ==> s[i] != s[j]
  }

  /** `le` is a total preorder: every pair is comparable and it is transitive. */
  ghost predicate TotalPreorder<T(!new)>(le: (T, T) -> bool)
  {
    && (forall a, b :: le(a, b) || le(b, a))
    && (forall a, b, c :: le(a, b) && le(b, c) ==> le(a, c))
  }

  /** Every element is `le` every later element. */
  ghost predicate SortedBy<T>(s: seq<T>, le: (T, T) -> bool)
  {
    forall i, j :: 0 <= i < j < |s| ==> le(s[i], s[j])
  }

  /** A bound below `x` and every element of `s` is a bound below every element of a permutation of `s` plus `x`. */
  lemma LowerBoundOfPermutation<T(!new)>(y: T, x: T, s: seq<T>, t: seq<T>, le: (T, T) -> bool)
    requires le(y, x)
    requires forall j :: 0 <= j < |s| ==> le(y, s[j])
    requires multiset(t) == multiset(s) + multiset{x}
    ensures forall j :: 0 <= j < |t| ==> le(y, t[j])
  {
    forall j | 0 <= j < |t| ensures le(y, t[j]) {
      assert t[j] in multiset(t);
      if t[j] != x {
        assert t[j] in multiset(s);
        var k :| 0 <= k < |s| && s[k] == t[j];
      }
    }
  }

  /** Inserts `x` before the first element it is `le` to. */
  function Insert<T(!new)>(x: T, s: seq<T>, le: (T, T) -> bool): (r: seq<T>)
    requires TotalPreorder(le)
    requires SortedBy(s, le)
    ensures SortedBy(r, le)
    ensures multiset(r) == multiset(s) + multiset{x}
    ensures |r| == |s| + 1
  {
    if |s| == 0 then [x]
    else if le(x, s[0]) then
      assert forall j :: 0 <= j < |s| ==> le(x, s[j]) by {
        forall j | 0 <= j < |s| ensures le(x, s[j]) {
          if j > 0 { assert le(s[0], s[j]); }
        }
      }
      [x] + s
    else
      assert s == [s[0]] + s[1..];
      var t := Insert(x, s[1..], le);
      assert le(s[0], x);
      LowerBoundOfPermutation(s[0], x, s[1..], t, le);
      [s[0]] + t
  }

  /** The elements `le` cannot tell apart from `z`: `le` holds both ways. */
  function TiedWith<T>(le: (T, T) -> bool, z: T): T -> bool
  {
    y => le(z, y) && le(y, z)
  }

  /**
   * `x` goes in front of the elements tied with it: every element it passes is
   * strictly smaller, so the tied elements after the insertion are `x`
   * followed by those of `s`, in their order.
   */
  lemma {:induction false} InsertKeepsTies<T(!new)>(x: T, s: seq<T>, le: (T, T) -> bool, z: T)
    requires TotalPreorder(le)
    requires SortedBy(s, le)
    ensures Filter(Insert(x, s, le), TiedWith(le, z)) ==
              if TiedWith(le, z)(x) then [x] + Filter(s, TiedWith(le, z)) else Filter(s, TiedWith(le, z))
    decreases |s|
  {
    var p := TiedWith(le, z);
    var r := Insert(x, s, le);
    if |s| == 0 {
      assert r == [x] && r[1..] == [];
    } else if le(x, s[0]) {
      assert r == [x] + s && r[1..] == s;
    } else {
      var t := Insert(x, s[1..], le);
      assert r == [s[0]] + t && r[1..] == t;
      InsertKeepsTies(x, s[1..], le, z);
      assert p(x) ==> !p(s[0]);
    }
  }

  /**
   * A stable insertion sort: the result is ordered by `le` and is a
   * permutation of the input, and elements `le` cannot tell apart keep their
   * input order.
   */
  function SortBy<T(!new)>(s: seq<T>, le: (T, T) -> bool): (r: seq<T>)
    requires TotalPreorder(le)
    ensures SortedBy(r, le)
    ensures multiset(r) == multiset(s)
    ensures |r| == |s|
  {
    if |s| == 0 then []
    else
      assert s == [s[0]] + s[1..];
      Insert(s[0], SortBy(s[1..], le), le)
  }

  /** Sorting keeps tied elements in their input order. */
  lemma {:induction false} SortByIsStable<T(!new)>(s: seq<T>, le: (T, T) -> bool, z: T)
    requires TotalPreorder(le)
    ensures Filter(SortBy(s, le), TiedWith(le, z)) == Filter(s, TiedWith(le, z))
    decreases |s|
  {
    if |s| > 0 {
      SortByIsStable(s[1..], le, z);
      InsertKeepsTies(s[0], SortBy(s[1..], le), le, z);
    }
  }
}

=== FILE: text.dfy ===
/**
 * Character classes and string helpers with JavaScript semantics: `\s`, `\d`,
 * `String.prototype.trim`, ASCII case mapping, substring search and the
 * code-point order that `<` on strings and Mongo's string sort use.
 */
module Text {

  /** JavaScript's `\s` class, which is also the set `trim()` removes. */
  predicate IsSpace(c: char)
  {
    || c == ' ' || c == '\t' || c == '\n' || c == '\r'
    || c == '\U{000B}' || c == '\U{000C}' || c == '\U{00A0}' || c == '\U{1680}'
    || ('\U{2000}' <= c <= '\U{200A}')
    || c == '\U{2028}' || c == '\U{2029}' || c == '\U{202F}' || c == '\U{205F}'
    || c == '\U{3000}' || c == '\U{FEFF}'
  }

  /** JavaScript's `\d` class: ASCII digits only. */
  predicate IsDigit(c: char)
  {
    '0' <= c <= '9'
  }

  predicate IsUpperAscii(c: char)
  {
    'A' <= c <= 'Z'
  }

  predicate IsLowerAscii(c: char)
  {
    'a' <= c <= 'z'
  }

  predicate AllSpace(s: string)
  {
    forall i :: 0 <= i < |s| ==> IsSpace(s[i])
  }

  predicate AllDigits(s: string)
  {
    forall i :: 0 <= i < |s| ==> IsDigit(s[i])
  }

  /** The ASCII digits of `s`, in order: `s.replace(/\D/g, '')`. */
  function DigitsOnly(s: string): (r: string)
    ensures AllDigits(r)
    ensures |r| <= |s|
  {
    if |s| == 0 then []
    else if IsDigit(s[0]) then [s[0]] + DigitsOnly(s[1..])
    else DigitsOnly(s[1..])
  }

  lemma {:induction false} DigitsOnlyAppend(a: string, b: string)
    ensures DigitsOnly(a + b) == DigitsOnly(a) + DigitsOnly(b)
    decreases |a|
  {
    if |a| == 0 {
      assert a + b == b;
    } else {
      assert (a + b)[1..] == a[1..] + b;
      DigitsOnlyAppend(a[1..], b);
    }
  }

  lemma {:induction false} DigitsOnlyOfDigits(s: string)
    requires AllDigits(s)
    ensures DigitsOnly(s) == s
    decreases |s|
  {
    if |s| > 0 {
      DigitsOnlyOfDigits(s[1..]);
    }
  }

  /** `s.trimStart()`. */
  function TrimStart(s: string): (r: string)
    ensures |r| <= |s| && r == s[|s| - |r|..]
    ensures r == [] || !IsSpace(r[0])
    ensures AllSpace(s[..|s| - |r|])
  {
    if |s| > 0 && IsSpace(s[0]) then TrimStart(s[1..]) else s
  }

  /** `s.trimEnd()`. */
  function TrimEnd(s: string): (r: string)
    ensures |r| <= |s| && r == s[..|r|]
    ensures r == [] || !IsSpace(r[|r| - 1])
    ensures AllSpace(s[|r|..])
  {
    if |s| > 0 && IsSpace(s[|s| - 1]) then
      var r := TrimEnd(s[..|s| - 1]);
      assert s[|r|..] == s[..|s| - 1][|r|..] + [s[|s| - 1]];
      r
    else
      s
  }

  /** `s.trim()`: the text between the leading and the trailing whitespace. */
  function Trim(s: string): (r: string)
    ensures |r| <= |s|
    ensures r == [] || (!IsSpace(r[0]) && !IsSpace(r[|r| - 1]))
    ensures r == [] <==> AllSpace(s)
  {
    var t := TrimStart(s);
    var r := TrimEnd(t);
    TrimBlank(s, t, r);
    r
  }

  lemma TrimBlank(s: string, t: string, r: string)
    requires t == TrimStart(s) && r == TrimEnd(t)
    ensures r == [] <==> AllSpace(s)
  {
    if r == [] {
      assert t[|r|..] == t;
      assert t == [];
      assert s[..|s|] == s;
    }
    if AllSpace(s) {
      assert t == [];
    }
  }

  /** Trimming a string that already has no outer whitespace changes nothing. */
  lemma TrimOfTrimmed(s: string)
    requires s == [] || (!IsSpace(s[0]) && !IsSpace(s[|s| - 1]))
    ensures Trim(s) == s
  {
  }

  /** `trim()` is idempotent. */
  lemma TrimIdempotent(s: string)
    ensures Trim(Trim(s)) == Trim(s)
  {
    TrimOfTrimmed(Trim(s));
  }

  /** ASCII `toLowerCase` of one character. */
  function LowerChar(c: char): (r: char)
    ensures !IsUpperAscii(r)
    ensures IsUpperAscii(c) ==> r as int == c as int + 32
    ensures !IsUpperAscii(c) ==> r == c
  {
    if IsUpperAscii(c) then (c as int + 32) as char else c
  }

  /** ASCII `toUpperCase` of one character. */
  function UpperChar(c: char): (r: char)
    ensures !IsLowerAscii(r)
    ensures IsLowerAscii(c) ==> r as int == c as int - 32
    ensures !IsLowerAscii(c) ==> r == c
  {
    if IsLowerAscii(c) then (c as int - 32) as char else c
  }

  function ToLower(s: string): (r: string)
    ensures |r| == |s|
    ensures forall i :: 0 <= i < |s| ==> r[i] == LowerChar(s[i])
  {
    seq(|s|, i requires 0 <= i < |s| => LowerChar(s[i]))
  }

  function ToUpper(s: string): (r: string)
    ensures |r| == |s|
    ensures forall i :: 0 <= i < |s| ==> r[i] == UpperChar(s[i])
  {
    seq(|s|, i requires 0 <= i < |s| => UpperChar(s[i]))
  }

  /** Lower-casing twice is lower-casing once. */
  lemma ToLowerIdempotent(s: string)
    ensures ToLower(ToLower(s)) == ToLower(s)
  {
  }

  /** Upper-casing twice is upper-casing once. */
  lemma ToUpperIdempotent(s: string)
    ensures ToUpper(ToUpper(s)) == ToUpper(s)
  {
  }

  /** Case-insensitive equality, as a `^…$` regular expression with the `i` flag decides it. */
  predicate EqualsIgnoreCase(a: string, b: string)
  {
    ToLower(a) == ToLower(b)
  }

  predicate OccursAt(s: string, t: string, i: int)
  {
    0 <= i && i + |t| <= |s| && s[i..i + |t|] == t
  }

  /** `t` is a substring of `s`. */
  predicate Contains(s: string, t: string)
  {
    exists i | 0 <= i <= |s| - |t| :: OccursAt(s, t, i)
  }

  /** Case-insensitive substring search, as a regular expression built from `t` with the `i` flag. */
  predicate ContainsIgnoreCase(s: string, t: string)
  {
    Contains(ToLower(s), ToLower(t))
  }

  /** Code-point lexicographic order on strings (`a <= b` in JavaScript, Mongo's string sort). */
  predicate StrLe(a: string, b: string)
    decreases |a|
  {
    if |a| == 0 then true
    else if |b| == 0 then false
    else if a[0] < b[0] then true
    else if a[0] > b[0] then false
    else StrLe(a[1..], b[1..])
  }

  predicate StrLt(a: string, b: string)
  {
    StrLe(a, b) && a != b
  }

  lemma {:induction false} StrLeTotal(a: string, b: string)
    ensures StrLe(a, b) || StrLe(b, a)
    decreases |a|
  {
    if |a| > 0 && |b| > 0 && a[0] == b[0] {
      StrLeTotal(a[1..], b[1..]);
    }
  }

  lemma {:induction false} StrLeTransitive(a: string, b: string, c: string)
    requires StrLe(a, b) && StrLe(b, c)
    ensures StrLe(a, c)
    decreases |a|
  {
    if |a| > 0 && |b| > 0 && |c| > 0 && a[0] == b[0] && b[0] == c[0] {
      StrLeTransitive(a[1..], b[1..], c[1..]);
    }
  }

  lemma {:induction false} StrLeAntisymmetric(a: string, b: string)
    requires StrLe(a, b) && StrLe(b, a)
    ensures a == b
    decreases |a|
  {
    if |a| > 0 && |b| > 0 {
      StrLeAntisymmetric(a[1..], b[1..]);
      assert a == [a[0]] + a[1..] && b == [b[0]] + b[1..];
    }
  }

  // ----- Decimal numbers -----

  function DigitValue(c: char): (d: nat)
    requires IsDigit(c)
    ensures d < 10
  {
    c as int - '0' as int
  }

  function DigitChar(d: nat): (c: char)
    requires d < 10
    ensures IsDigit(c) && DigitValue(c) == d
  {
    ('0' as int + d) as char
  }

  /** The value of a string of decimal digits; the empty string is 0. */
  function DecimalValue(s: string): nat
    requires AllDigits(s)
  {
    if |s| == 0 then 0 else DecimalValue(s[..|s| - 1]) * 10 + DigitValue(s[|s| - 1])
  }

  /** The value of a one- or two-digit string. */
  lemma ShortDecimalValue(s: string)
    requires AllDigits(s) && 1 <= |s| <= 2
    ensures |s| == 1 ==> DecimalValue(s) == DigitValue(s[0])
    ensures |s| == 2 ==> DecimalValue(s) == DigitValue(s[0]) * 10 + DigitValue(s[1])
  {
    assert s[..1] == [s[0]] && s[..1][..0] == [];
    if |s| == 2 {
      assert DecimalValue(s[..1]) == DigitValue(s[0]);
    }
  }

  /** `String(n)` for a natural number: its decimal digits, no leading zeros. */
  function DecimalString(n: nat): (r: string)
    ensures |r| >= 1 && AllDigits(r)
  {
    if n < 10 then [DigitChar(n)] else DecimalString(n / 10) + [DigitChar(n % 10)]
  }

  lemma {:induction false} DecimalRoundTrip(n: nat)
    ensures DecimalValue(DecimalString(n)) == n
  {
    if n >= 10 {
      var s := DecimalString(n);
      DecimalRoundTrip(n / 10);
      assert s[..|s| - 1] == DecimalString(n / 10);
    }
  }

  function Zeros(k: nat): (r: string)
    ensures |r| == k && AllDigits(r)
  {
    if k == 0 then [] else Zeros(k - 1) + ['0']
  }

  /** `s.padStart(w, '0')`. */
  function PadZeros(s: string, w: nat): (r: string)
    ensures |r| >= w && |r| >= |s|
  {
    if |s| >= w then s else Zeros(w - |s|) + s
  }

  /** Leading zeros do not change a decimal value. */
  lemma {:induction false} LeadingZerosValue(k: nat, s: string)
    requires AllDigits(s)
    ensures AllDigits(Zeros(k) + s)
    ensures DecimalValue(Zeros(k) + s) == DecimalValue(s)
    decreases k, |s|
  {
    var z := Zeros(k) + s;
    assert AllDigits(z) by {
      forall i | 0 <= i < |z| ensures IsDigit(z[i]) {
        if i < k { assert z[i] == Zeros(k)[i]; } else { assert z[i] == s[i - k]; }
      }
    }
    if |s| > 0 {
      LeadingZerosValue(k, s[..|s| - 1]);
      assert z[..|z| - 1] == Zeros(k) + s[..|s| - 1];
    } else if k > 0 {
      LeadingZerosValue(k - 1, s);
      assert z == Zeros(k - 1) + ['0'];
      assert z[..|z| - 1] == Zeros(k - 1) == Zeros(k - 1) + s;
    }
  }

  // ----- Splitting -----

  /** `s.split(sep)` for a one-character separator: at least one part, none containing `sep`. */
  function SplitOn(s: string, sep: char): (parts: seq<string>)
    ensures |parts| >= 1
    ensures forall i :: 0 <= i < |parts| ==> sep !in parts[i]
  {
    if |s| == 0 then [""]
    else if s[0] == sep then [""] + SplitOn(s[1..], sep)
    else
      var rest := SplitOn(s[1..], sep);
      [[s[0]] + rest[0]] + rest[1..]
  }

  lemma {:induction false} SplitOnWithoutSeparator(a: string, sep: char)
    requires sep !in a
    ensures SplitOn(a, sep) == [a]
  {
    if |a| > 0 {
      SplitOnWithoutSeparator(a[1..], sep);
      assert [a[0]] + a[1..] == a;
    }
  }

  /** A part followed by the separator splits off as the first part. */
  lemma {:induction false} SplitOnFirst(a: string, rest: string, sep: char)
    requires sep !in a
    ensures SplitOn(a + [sep] + rest, sep) == [a] + SplitOn(rest, sep)
  {
    var s := a + [sep] + rest;
    if |a| == 0 {
      assert s == [sep] + rest;
      assert s[1..] == rest;
    } else {
      assert s[1..] == a[1..] + [sep] + rest;
      SplitOnFirst(a[1..], rest, sep);
      assert [a[0]] + a[1..] == a;
    }
  }

  /** `p.split(sep)` of three separator-free parts joined by `sep` gives them back. */
  lemma SplitOnThree(a: string, b: string, c: string, sep: char)
    requires sep !in a && sep !in b && sep !in c
    ensures SplitOn(a + [sep] + b + [sep] + c, sep) == [a, b, c]
  {
    assert a + [sep] + b + [sep] + c == a + [sep] + (b + [sep] + c);
    SplitOnFirst(a, b + [sep] + c, sep);
    SplitOnFirst(b, c, sep);
    SplitOnWithoutSeparator(c, sep);
  }
}

=== FILE: validation.dfy ===
/**
 * The request validators of `backend/middleware/validation.js`. Each field
 * chain trims where the source trims, then runs every validator of the chain
 * (there is no `bail`), so one field can report several errors; errors are
 * listed in chain order. `isEmail` belongs to a library outside the model and
 * is a parameter.
 */
module Validation {
  import opened Wrappers
  import opened Text
  import opened Calendar
  import opened AppointmentModel
  import Scheduler

  /**
   * One entry of the 400 response: the field and the message. The response
   * also echoes the offending value, which the model does not carry.
   */
  datatype FieldError = FieldError(field: string, message: string)

  /** One validator: no message when it passes, its message when it fails. */
  function Check(ok: bool, message: string): (r: seq<string>)
    ensures r == [] <==> ok
  {
    if ok then [] else [message]
  }

  /** The messages of one field chain, each labelled with the field. */
  function Tag(field: string, messages: seq<string>): (r: seq<FieldError>)
    ensures |r| == |messages|
    ensures forall i :: 0 <= i < |r| ==> r[i] == FieldError(field, messages[i])
  {
    seq(|messages|, i requires 0 <= i < |messages| => FieldError(field, messages[i]))
  }

  predicate HasError(errors: seq<FieldError>, field: string)
  {
    exists i :: 0 <= i < |errors| && errors[i].field == field
  }

  /** A field is reported in one chain's errors followed by others exactly when that chain reports it or the others do. */
  lemma TagThen(field: string, messages: seq<string>, rest: seq<FieldError>, g: string)
    ensures HasError(Tag(field, messages) + rest, g) <==> (field == g && messages != []) || HasError(rest, g)
  {
    var t := Tag(field, messages);
    if HasError(t + rest, g) {
      var k :| 0 <= k < |t + rest| && (t + rest)[k].field == g;
      if k >= |t| {
        assert rest[k - |t|].field == g;
      }
    }
    if field == g && messages != [] {
      assert (t + rest)[0].field == g;
    }
    if HasError(rest, g) {
      var k :| 0 <= k < |rest| && rest[k].field == g;
      assert (t + rest)[|t| + k].field == g;
    }
  }

  /** The last chain of a list: only its own field can be reported. */
  lemma TagAlone(field: string, messages: seq<string>, g: string)
    ensures HasError(Tag(field, messages), g) <==> field == g && messages != []
  {
    assert Tag(field, messages) + [] == Tag(field, messages);
    TagThen(field, messages, [], g);
  }

  // ----- Appointments -----

  /**
   * The `date` field: absent or empty, present but not ISO 8601, or an ISO
   * 8601 date naming a day. For the first two, `parsed` is what `new Date(value)`
   * makes of the value: `None` for an invalid date (`undefined`, `""`, most
   * text), a day otherwise (`null` is 1970-01-01, and text such as
   * `"10/16/2020"` is read as that day).
   */
  datatype DateField = Missing(parsed: Option<Day>) | Malformed(parsed: Option<Day>) | Iso(day: Day)

  datatype AppointmentInput = AppointmentInput(
    patientName: string,
    patientLastName: string,
    phone: string,
    email: string,
    insuranceProvider: string,
    date: DateField,
    time: string,
    notes: Option<string>)

  /** `trim().notEmpty().isLength({max: 50})`, given the trimmed name. */
  function NameMessages(v: string, requiredMessage: string, lengthMessage: string): (r: seq<string>)
    ensures r == [] <==> 0 < |v| <= 50
  {
    Check(|v| > 0, requiredMessage) + Check(|v| <= 50, lengthMessage)
  }

  /** `trim().notEmpty()` followed by a pattern, given the trimmed value. */
  function PatternMessages(v: string, ok: bool, requiredMessage: string, formatMessage: string): (r: seq<string>)
    ensures r == [] <==> |v| > 0 && ok
  {
    Check(|v| > 0, requiredMessage) + Check(ok, formatMessage)
  }

  /** The custom rule on `new Date(value)`: a day before tomorrow is refused; an invalid date compares false and passes. */
  function TomorrowMessages(parsed: Option<Day>, today: Day): (r: seq<string>)
    ensures r == [] <==> parsed.None? || AtLeastTomorrow(parsed.value, today)
  {
    match parsed
    case None => []
    case Some(d) => Check(AtLeastTomorrow(d, today), "La fecha debe ser al menos mañana")
  }

  /**
   * The date chain: `notEmpty`, `isISO8601`, then the custom rule that the day
   * is at least tomorrow. The chain has no `bail`, so the custom rule also runs
   * on a value the earlier rules refused.
   */
  function DateMessages(date: DateField, today: Day): (r: seq<string>)
    ensures r == [] <==> date.Iso? && AtLeastTomorrow(date.day, today)
    ensures date.Missing? ==> |r| >= 2 && r[..2] == ["La fecha es requerida", "Formato de fecha inválido"]
    ensures date.Malformed? ==> |r| >= 1 && r[0] == "Formato de fecha inválido"
    ensures !date.Iso? ==> (|r| == (if date.Missing? then 3 else 2) <==>
              date.parsed.Some? && !AtLeastTomorrow(date.parsed.value, today))
  {
    match date
    case Missing(p) => ["La fecha es requerida", "Formato de fecha inválido"] + TomorrowMessages(p, today)
    case Malformed(p) => ["Formato de fecha inválido"] + TomorrowMessages(p, today)
    case Iso(d) => TomorrowMessages(Some(d), today)
  }

  /** A malformed but readable past date gets both the format and the tomorrow message. */
  lemma MalformedPastDateGetsBothMessages(d: Day, today: Day)
    requires d <= today
    ensures DateMessages(Malformed(Some(d)), today) == ["Formato de fecha inválido", "La fecha debe ser al menos mañana"]
  {
  }

  /** `optional().trim().isLength({max: 500})`: an absent note is not checked. */
  function NotesMessages(notes: Option<string>): (r: seq<string>)
    ensures r == [] <==> notes.None? || |Trim(notes.value)| <= 500
  {
    match notes
    case None => []
    case Some(n) => Check(|Trim(n)| <= 500, "Las notas no pueden exceder 500 caracteres")
  }

  /** The messages of the eight chains, in the order the route declares them. */
  datatype Chains = Chains(
    name: seq<string>, lastName: seq<string>, phone: seq<string>, email: seq<string>,
    insurance: seq<string>, date: seq<string>, time: seq<string>, notes: seq<string>)

  function PhoneChain(input: AppointmentInput): (r: seq<string>)
    ensures r == [] <==> PhonePatternOk(Trim(input.phone))
  {
    var phone := Trim(input.phone);
    PatternMessages(phone, PhonePatternOk(phone), "El teléfono es requerido", "Formato de teléfono inválido")
  }

  function EmailChain(input: AppointmentInput, isEmail: string -> bool): (r: seq<string>)
    ensures r == [] <==> |Trim(input.email)| > 0 && isEmail(Trim(input.email))
  {
    var email := Trim(input.email);
    PatternMessages(email, isEmail(email), "El email es requerido", "Formato de email inválido")
  }

  function TimeChain(input: AppointmentInput): (r: seq<string>)
    ensures r == [] <==> TimeFormatOk(Trim(input.time))
  {
    var time := Trim(input.time);
    PatternMessages(time, TimeFormatOk(time), "El horario es requerido", "Formato de horario inválido")
  }

  function AppointmentChains(input: AppointmentInput, today: Day, isEmail: string -> bool): (r: Chains)
    ensures r.name == [] <==> 0 < |Trim(input.patientName)| <= 50
    ensures r.lastName == [] <==> 0 < |Trim(input.patientLastName)| <= 50
    ensures r.phone == [] <==> PhonePatternOk(Trim(input.phone))
    ensures r.email == [] <==> |Trim(input.email)| > 0 && isEmail(Trim(input.email))
    ensures r.insurance == [] <==> |Trim(input.insuranceProvider)| > 0
    ensures r.date == [] <==> input.date.Iso? && AtLeastTomorrow(input.date.day, today)
    ensures r.time == [] <==> TimeFormatOk(Trim(input.time))
    ensures r.notes == [] <==> input.notes.None? || |Trim(input.notes.value)| <= 500
  {
    Chains(
      NameMessages(Trim(input.patientName), "El nombre del paciente es requerido", "El nombre no puede exceder 50 caracteres"),
      NameMessages(Trim(input.patientLastName), "El apellido del paciente es requerido", "El apellido no puede exceder 50 caracteres"),
      PhoneChain(input),
      EmailChain(input, isEmail),
      Check(|Trim(input.insuranceProvider)| > 0, "La obra social es requerida"),
      DateMessages(input.date, today),
      TimeChain(input),
      NotesMessages(input.notes))
  }

  /** The chains' errors joined, each labelled with its field. */
  function Joined(m: Chains): seq<FieldError>
  {
    Tag("patientName", m.name)
    + (Tag("patientLastName", m.lastName)
    + (Tag("phone", m.phone)
    + (Tag("email", m.email)
    + (Tag("insuranceProvider", m.insurance)
    + (Tag("date", m.date)
    + (Tag("time", m.time)
    + Tag("notes", m.notes)))))))
  }

  /** `validateAppointment`: every chain runs and their errors are joined. */
  function ValidateAppointment(input: AppointmentInput, today: Day, isEmail: string -> bool): (errors: seq<FieldError>)
    ensures errors == [] <==> AppointmentAcceptable(input, today, isEmail)
  {
    Joined(AppointmentChains(input, today, isEmail))
  }

  /** Every field of the request satisfies its rule. */
  predicate AppointmentAcceptable(input: AppointmentInput, today: Day, isEmail: string -> bool)
  {
    && 0 < |Trim(input.patientName)| <= 50
    && 0 < |Trim(input.patientLastName)| <= 50
    && PhonePatternOk(Trim(input.phone))
    && |Trim(input.email)| > 0 && isEmail(Trim(input.email))
    && |Trim(input.insuranceProvider)| > 0
    && input.date.Iso? && AtLeastTomorrow(input.date.day, today)
    && TimeFormatOk(Trim(input.time))
    && (input.notes.None? || |Trim(input.notes.value)| <= 500)
  }

  /** Which field the joined list reports, chain by chain. */
  lemma JoinedReports(m: Chains, g: string)
    ensures HasError(Joined(m), g) <==>
              || (g == "patientName" && m.name != [])
              || (g == "patientLastName" && m.lastName != [])
              || (g == "phone" && m.phone != [])
              || (g == "email" && m.email != [])
              || (g == "insuranceProvider" && m.insurance != [])
              || (g == "date" && m.date != [])
              || (g == "time" && m.time != [])
              || (g == "notes" && m.notes != [])
  {
    var t7 := Tag("notes", m.notes);
    var t6 := Tag("time", m.time) + t7;
    var t5 := Tag("date", m.date) + t6;
    var t4 := Tag("insuranceProvider", m.insurance) + t5;
    var t3 := Tag("email", m.email) + t4;
    var t2 := Tag("phone", m.phone) + t3;
    var t1 := Tag("patientLastName", m.lastName) + t2;
    TagAlone("notes", m.notes, g);
    TagThen("time", m.time, t7, g);
    TagThen("date", m.date, t6, g);
    TagThen("insuranceProvider", m.insurance, t5, g);
    TagThen("email", m.email, t4, g);
    TagThen("phone", m.phone, t3, g);
    TagThen("patientLastName", m.lastName, t2, g);
    TagThen("patientName", m.name, t1, g);
  }

  /** The name, phone, e-mail and provider fields are reported exactly when their rules fail. */
  lemma PersonFieldsReported(input: AppointmentInput, today: Day, isEmail: string -> bool)
    ensures var errors := ValidateAppointment(input, today, isEmail);
            && (HasError(errors, "patientName") <==> !(0 < |Trim(input.patientName)| <= 50))
            && (HasError(errors, "patientLastName") <==> !(0 < |Trim(input.patientLastName)| <= 50))
            && (HasError(errors, "phone") <==> !PhonePatternOk(Trim(input.phone)))
            && (HasError(errors, "email") <==> !(|Trim(input.email)| > 0 && isEmail(Trim(input.email))))
            && (HasError(errors, "insuranceProvider") <==> |Trim(input.insuranceProvider)| == 0)
  {
    var m := AppointmentChains(input, today, isEmail);
    JoinedReports(m, "patientName");
    JoinedReports(m, "patientLastName");
    JoinedReports(m, "phone");
    JoinedReports(m, "email");
    JoinedReports(m, "insuranceProvider");
  }

  /** The date, time and notes fields are reported exactly when their rules fail. */
  lemma SlotFieldsReported(input: AppointmentInput, today: Day, isEmail: string -> bool)
    ensures var errors := ValidateAppointment(input, today, isEmail);
            && (HasError(errors, "date") <==> !(input.date.Iso? && AtLeastTomorrow(input.date.day, today)))
            && (HasError(errors, "time") <==> !TimeFormatOk(Trim(input.time)))
            && (HasError(errors, "notes") <==> !(input.notes.None? || |Trim(input.notes.value)| <= 500))
  {
    var m := AppointmentChains(input, today, isEmail);
    JoinedReports(m, "date");
    JoinedReports(m, "time");
    JoinedReports(m, "notes");
  }

  /**
   * The body the service receives once the chains have run: the trimmed
   * fields, the date as the day it names. The e-mail chain ends with
   * `normalizeEmail()`, a library rewrite that is not modelled: the e-mail
   * here is the trimmed text as typed.
   */
  function SanitizedRequest(input: AppointmentInput): BookingRequest
    requires input.date.Iso?
  {
    BookingRequest(
      Trim(input.patientName), Trim(input.patientLastName), Trim(input.phone), Trim(input.email),
      Trim(input.insuranceProvider), input.date.day, Trim(input.time),
      match input.notes case None => None case Some(n) => Some(Trim(n)))
  }

  /**
   * A request the route accepts meets every schema rule except possibly the
   * e-mail pattern: `isEmail` and the schema's `/^\S+@\S+\.\S+$/` are
   * different rules. The record saves without a schema error when the stored
   * address has the schema's shape, in particular when every address `isEmail`
   * accepts has it once lower-cased.
   */
  lemma AcceptedRequestsPassTheSchema(input: AppointmentInput, today: Day, isEmail: string -> bool, id: Id)
    requires ValidateAppointment(input, today, isEmail) == []
    ensures var a := StoredRecord(id, SanitizedRequest(input), Pending);
            && 0 < |a.patientName| <= 50 && 0 < |a.patientLastName| <= 50
            && PhonePatternOk(a.phone) && |a.insuranceProvider| > 0
            && AtLeastTomorrow(a.date, today) && TimeFormatOk(a.time)
            && (a.notes.None? || |a.notes.value| <= 500)
    ensures var a := StoredRecord(id, SanitizedRequest(input), Pending);
            EmailPatternOk(a.email) ==> SchemaValid(a, today)
    ensures (forall s :: isEmail(s) ==> EmailPatternOk(ToLower(s))) ==>
              SchemaValid(StoredRecord(id, SanitizedRequest(input), Pending), today)
  {
    TrimIdempotent(input.patientName);
    TrimIdempotent(input.patientLastName);
    TrimIdempotent(input.phone);
    TrimIdempotent(input.email);
    TrimIdempotent(input.insuranceProvider);
    if input.notes.Some? {
      TrimIdempotent(input.notes.value);
    }
  }

  /**
   * The route and the service together: a request the validators accept is
   * booked exactly when its provider is registered, its slot is free and its
   * lower-cased address has the schema's shape.
   */
  lemma AcceptedFreeRequestIsBooked(c: seq<Appointment>, providerNames: seq<string>, input: AppointmentInput, today: Day, isEmail: string -> bool)
    requires ValidateAppointment(input, today, isEmail) == []
    ensures var req := SanitizedRequest(input);
            Scheduler.Create(c, providerNames, req, today).Ok? <==>
              && req.insuranceProvider in providerNames
              && !CheckTimeConflict(c, req.date, req.time, None)
              && EmailPatternOk(ToLower(Trim(req.email)))
  {
    var req := SanitizedRequest(input);
    var id := Seqs.NextId(Scheduler.Ids(c));
    AcceptedRequestsPassTheSchema(input, today, isEmail, id);
    assert StoredRecord(id, req, Pending).email == ToLower(Trim(req.email));
  }

  // ----- Status, insurance providers, login -----

  /** `validateAppointmentStatus`: the status must be one of the three names. */
  function ValidateAppointmentStatus(status: string): (errors: seq<FieldError>)
    ensures errors == [] <==> ParseStatus(status).Some?
  {
    Tag("status", Check(status in {"pending", "confirmed", "cancelled"},
                        "Estado inválido. Debe ser: pending, confirmed o cancelled"))
  }

  predicate IsCodeChar(c: char)
  {
    IsUpperAscii(c) || IsDigit(c)
  }

  /** `/^[A-Z0-9]+$/`. */
  predicate CodePatternOk(s: string)
  {
    |s| > 0 && forall i :: 0 <= i < |s| ==> IsCodeChar(s[i])
  }

  function NameMessages100(n: string): (r: seq<string>)
    ensures r == [] <==> 0 < |n| <= 100
  {
    Check(|n| > 0, "El nombre de la obra social es requerido")
    + Check(|n| <= 100, "El nombre no puede exceder 100 caracteres")
  }

  function CodeMessages(c: string): (r: seq<string>)
    ensures r == [] <==> |c| <= 20 && CodePatternOk(c)
  {
    Check(|c| > 0, "El código de la obra social es requerido")
    + Check(|c| <= 20, "El código no puede exceder 20 caracteres")
    + Check(CodePatternOk(c), "El código solo puede contener letras mayúsculas y números")
  }

  /** `validateInsuranceProvider`: a name of 1 to 100 characters, a code of 1 to 20 capital letters and digits, both trimmed. */
  function ValidateInsuranceProvider(name: string, code: string): (errors: seq<FieldError>)
    ensures errors == [] <==> 0 < |Trim(name)| <= 100 && |Trim(code)| <= 20 && CodePatternOk(Trim(code))
  {
    Tag("name", NameMessages100(Trim(name))) + Tag("code", CodeMessages(Trim(code)))
  }

  /** The name and the code are each reported exactly when their own rule fails. */
  lemma InsuranceFieldsReported(name: string, code: string)
    ensures var errors := ValidateInsuranceProvider(name, code);
            && (HasError(errors, "name") <==> !(0 < |Trim(name)| <= 100))
            && (HasError(errors, "code") <==> !(|Trim(code)| <= 20 && CodePatternOk(Trim(code))))
  {
    var mn := NameMessages100(Trim(name));
    var mc := CodeMessages(Trim(code));
    TagAlone("code", mc, "name");
    TagAlone("code", mc, "code");
    TagThen("name", mn, Tag("code", mc), "name");
    TagThen("name", mn, Tag("code", mc), "code");
  }

  function UsernameMessages(u: string): (r: seq<string>)
    ensures r == [] <==> 3 <= |u| <= 30
  {
    Check(|u| > 0, "El nombre de usuario es requerido")
    + Check(3 <= |u| <= 30, "El nombre de usuario debe tener entre 3 y 30 caracteres")
  }

  function PasswordMessages(password: string): (r: seq<string>)
    ensures r == [] <==> |password| >= 6
  {
    Check(|password| > 0, "La contraseña es requerida")
    + Check(|password| >= 6, "La contraseña debe tener al menos 6 caracteres")
  }

  /** `validateLogin`: a trimmed username of 3 to 30 characters and a password of at least 6. */
  function ValidateLogin(username: string, password: string): (errors: seq<FieldError>)
    ensures errors == [] <==> 3 <= |Trim(username)| <= 30 && |password| >= 6
  {
    Tag("username", UsernameMessages(Trim(username))) + Tag("password", PasswordMessages(password))
  }

  /** The username and the password are each reported exactly when their own rule fails. */
  lemma LoginFieldsReported(username: string, password: string)
    ensures var errors := ValidateLogin(username, password);
            && (HasError(errors, "username") <==> !(3 <= |Trim(username)| <= 30))
            && (HasError(errors, "password") <==> |password| < 6)
  {
    var mu := UsernameMessages(Trim(username));
    var mp := PasswordMessages(password);
    TagAlone("password", mp, "username");
    TagAlone("password", mp, "password");
    TagThen("username", mu, Tag("password", mp), "username");
    TagThen("username", mu, Tag("password", mp), "password");
  }

  // ----- Error response -----

  datatype Outcome =
    | Next                                  // `next()`: the request goes on to the controller
    | BadRequest(errors: seq<FieldError>)   // 400 with `Datos de entrada inválidos` and the list

  const InvalidInputMessage := "Datos de entrada inválidos"

  /** `handleValidationErrors`: 400 with every collected error, in order, when there is any; otherwise pass on. */
  function HandleValidationErrors(errors: seq<FieldError>): (r: Outcome)
    ensures r.Next? <==> errors == []
    ensures r.BadRequest? ==> r.errors == errors
  {
    if errors == [] then Next else BadRequest(errors)
  }

  /** A booking request reaches the service exactly when every field satisfies its rule. */
  lemma BookingGate(input: AppointmentInput, today: Day, isEmail: string -> bool)
    ensures HandleValidationErrors(ValidateAppointment(input, today, isEmail)).Next?
            <==> AppointmentAcceptable(input, today, isEmail)
  {
  }
}

=== FILE: wrappers.dfy ===
/** Failure-carrying result types shared by every module of the model. */
module Wrappers {

  /** A value that may be absent: JavaScript's `null` / `undefined`. */
  datatype Option<+T> = None | Some(value: T)

  /** The outcome of an operation that either returns a value or throws a domain error. */
  datatype Result<+T, +E> = Ok(value: T) | Err(error: E)
}
